=== FILE: README.md ===
# aether3d engine core, modelled in Dafny

This project models the decision logic of the aether3d game engine. It
leaves out the GPU, window-system and floating-point plumbing around that
logic. Each part below is a pure function over immutable data, and each
carries a contract with lemmas about it.

- **Scene registry** (`Scene::Add`, `Scene::Remove`): a slot vector padded
  with nulls, plus a `nextFreeGameObject` cursor.
- **Per-frame schedule** (`Scene::Render`, `RenderWithCamera`,
  `RenderShadowsWithCamera`). It covers:
  - the split of camera objects into render-texture and screen cameras, and
    the ordering of the screen cameras;
  - the six cube-map face passes;
  - the shadow passes for each screen camera, and the lazily created shadow
    camera;
  - the mapping from clear flag to clear bits;
  - the draw lists, and the layer mask applied to them.
- **Scene bounds** (`GenerateAABB`, spot and directional shadow camera
  set-up). Transforms and matrices are opaque functions.
- **Scene text format** (`GetSerialized`, `Deserialize`). The reader is a
  token-driven line parser with the source's error conditions.
- **`MathUtil::IsPowerOfTwo`**: the bit trick on 32-bit unsigned values.
- **Mesh decoder** (`Mesh::Load`): a byte-cursor reader of the binary mesh
  format. It proves a round trip against an encoder of the same format,
  and that loading succeeds exactly when every allocation does. It also
  tells the allocations whose `bad_alloc` is caught (OutOfMemory) from
  those whose `bad_alloc` escapes `Load`.
- **Editor undo command** (`ModifyTransformCommand`), including the
  out-of-range throw of the game-object lookup it goes through.
- **D3D12 device bookkeeping** (`GfxDeviceD3D12.cpp`). It covers:
  - the resource-state transition machine and barrier counting;
  - the sampler heap layout;
  - which clears `ClearScreen` issues;
  - the sample-count check;
  - the frame statistics;
  - the PSO cache and index arithmetic of `Draw`;
  - the render-target binding.
- **Compute shader slot table** (`ComputeShaderD3D12.cpp`): guarded slot
  setters, the rotating descriptor-heap index and the lazy PSO.
- **Win32 event stack** (`WindowWin32.cpp`): `WindowProc` pushes events and
  `PollEvent` pops them.

How the source is represented:

- `System::Assert` becomes a `Checked` result that is either `Ok` or
  `AssertFailed`.
- Null pointers become `Option`.
- GPU calls become values in a returned command list.
- Code this model cannot see becomes a function parameter: transforms, the
  PSO hash, the submesh names of a mesh file, and whether an allocation
  succeeds.

Details of the code's behaviour the model reproduces:

- The "no contributor" sentinel of `GenerateAABB` is 1e8. The source's
  `99999999.0f` is 1e8 as a 32-bit float.
- The shadow-caster test and the branch that picks the light kind differ.
  The model keeps that quirk (`SceneRender.CasterBranchQuirk`).
- `Deserialize` dereferences missing components and a missing material
  without checking. The numeric lines (`shadow`, `ortho`, `persp`,
  `clearcolor`, `position`, `rotation`, `scale`) extract into locals
  declared without an initialiser, so a line with fewer fields than it
  extracts passes uninitialised values to a setter. The model reports both
  as undefined behaviour (`Crashed`), not as a `ParseError`.

## Model

| member | source | states |
|---|---|---|
| MathUtil.IsPowerOfTwoCorrect | Engine/Core/Scene.cpp:46-49 | The bit test `(i & (i-1)) == 0` accepts exactly the 32-bit values with at most one set bit, checked against an independent bit count. |
| MathUtil.ZeroPassesTest | Engine/Core/Scene.cpp:46-49 | Zero passes the test although it has no set bit. |
| SceneRegistry.FirstIndex | Engine/Core/Scene.cpp:172-179 | The index `std::find` returns is the first slot holding the object. |
| SceneRegistry.Add | Engine/Core/Scene.cpp:152-168 | An object already present changes nothing. Otherwise the object is written at the old cursor, which then advances by one. The vector grows by exactly 10 slots (object then nine nulls) only when the cursor equals the size. A cursor past the end is an out-of-range write. |
| SceneRegistry.Remove | Engine/Core/Scene.cpp:170-180 | An absent object changes nothing. Otherwise only the first match is erased: the slots are those before it followed by those after it, one fewer copy of the object. The cursor never moves. |
| SceneRegistry.AddKeepsValid | Engine/Core/Scene.cpp:152-168 | From a registry whose cursor is in range and whose slots past it are null, `Add` always stores and keeps that shape. A new object is appended to the object list. |
| SceneRegistry.AddThenRemoveRestoresObjects | Engine/Core/Scene.cpp:152-180 | Adding a new object and removing it again gives back the same non-null objects in the same order. |
| SceneRegistry.RemoveFromFullThenAddIsOutOfRange | Engine/Core/Scene.cpp:164-180 | As written, after removing from a full registry the next `Add` of a new object writes past the end. |
| SceneRegistry.FullRegistryCounterexample | Engine/Core/Scene.cpp:164-180 | Concrete case: ten objects, remove the first, add another; the write goes to index 10 of a 9-slot vector. |
| SceneRegistry.RemoveFixed | Engine/Core/Scene.cpp:170-180 | Corrected removal: the same slots as `Remove`, but the cursor is lowered so the registry stays well-formed. |
| SceneRegistry.FixedRemoveThenAddStored | Engine/Core/Scene.cpp:152-180 | With the corrected removal, every later `Add` stores. |
| SceneRender.PartitionCameras | Engine/Core/Scene.cpp:196-213 | An object with both a camera and a transform is a render-texture camera iff its target texture is set, and a screen camera otherwise. Objects missing either component are in neither list. |
| SceneRender.PartitionIsExact | Engine/Core/Scene.cpp:196-213 | The two lists together hold every camera-and-transform object exactly once (multiset equality). |
| SceneRender.InsertByRenderOrder | Engine/Core/Scene.cpp:215-217 | Inserting into a list sorted by render order keeps it sorted and adds exactly that object. |
| SceneRender.SortByRenderOrder | Engine/Core/Scene.cpp:215-217 | Screen cameras come out non-decreasing by render order and form a permutation of the input. Tie order is not specified. |
| SceneRender.CubeFaceAimsDistinct | Engine/Core/Scene.cpp:226-250 | The six fixed direction/up pairs of the cube faces are pairwise different. |
| SceneRender.CubePasses | Engine/Core/Scene.cpp:224-252 | From a given face on, one pass per remaining face, in face order, each with that face's fixed aim. |
| SceneRender.RenderTargetCameraPasses | Engine/Core/Scene.cpp:219-257 | A cube-target camera is rendered exactly six times, faces 0..5 in order with their fixed aims. A 2D target is rendered once, with face 0. |
| SceneRender.RenderTargetPassCount | Engine/Core/Scene.cpp:219-257 | The render-texture stage has one pass per camera plus five more per cube camera. |
| SceneRender.RenderTargetPasses | Engine/Core/Scene.cpp:219-257 | Every render-texture pass is a colour pass of one of the render-texture cameras. |
| SceneRender.CasterPass | Engine/Core/Scene.cpp:288-328 | A caster with a directional light gets a directional pass into that light's shadow map. Otherwise it gets a spot pass into the spot light's map. |
| SceneRender.IsShadowCaster | Engine/Core/Scene.cpp:277-288 | The shadow loop's test: a non-null object with a transform and a directional or spot light that casts shadows. |
| SceneRender.CasterBranchQuirk | Engine/Core/Scene.cpp:288-328 | An object whose directional light casts no shadow, but whose spot light does, is a caster and still takes the directional branch. |
| SceneRender.CasterPasses | Engine/Core/Scene.cpp:261-347 | One shadow pass per caster, in caster order. |
| SceneRender.ScreenPassBlock | Engine/Core/Scene.cpp:261-347 | The k-th screen camera's block of the frame is exactly its shadow passes followed by its own pass. |
| SceneRender.ScreenPassesLayout | Engine/Core/Scene.cpp:261-347 | The screen stage has (casters + 1) passes per camera, and camera k owns the k-th block. |
| SceneRender.ScreenPasses | Engine/Core/Scene.cpp:261-347 | The screen stage has (casters + 1) passes per screen camera. |
| SceneRender.FrameSchedule | Engine/Core/Scene.cpp:182-347 | The frame has (render-texture cameras + 5 × cube cameras) + screen cameras × (casters + 1) passes. |
| SceneRender.ShadowCameraCreations | Engine/Core/Scene.cpp:312-317 | Once the shadow camera exists it is never created again. Any run of set-ups creates it at most once, and the flag ends set exactly when it was set or a set-up happened. |
| SceneRender.ShadowCameraCreatedOnce | Engine/Core/Scene.cpp:312-317 | The shadow camera is created at most once, on the first shadow set-up, and the flag stays set. |
| SceneRender.ScreenPassesShadowCount | Engine/Core/Scene.cpp:261-347 | The screen stage holds exactly one shadow pass per screen camera and caster. |
| SceneRender.FrameShadowPassCount | Engine/Core/Scene.cpp:219-347 | A frame holds exactly (screen cameras × casters) shadow set-ups. The render-texture stage has none. |
| SceneRender.FrameScheduleLayout | Engine/Core/Scene.cpp:219-347 | The frame has (render-texture cameras + 5 × cube cameras) + screen cameras × (casters + 1) passes. The render-texture stage comes first, and sorted screen camera k owns block k after it. |
| SceneRender.FrameShadowCameraCreations | Engine/Core/Scene.cpp:261-317 | Over a frame, the shadow camera is created exactly once when it did not exist and there is a screen camera and a caster. Otherwise it is never created, and the flag is set exactly when it was or a set-up happened. |
| SceneRender.MainClearBits | Engine/Core/Scene.cpp:366-381 | The colour bit is set iff the flag is DepthAndColor. The depth bit is set iff the flag is DepthAndColor or Depth. DontClear maps to the no-clear value. Any other flag asserts. |
| SceneRender.ShadowClearBits | Engine/Core/Scene.cpp:542-545 | The shadow pass clears, colour and depth, only for DepthAndColor. |
| SceneRender.ClearFlagReachesDevice | Engine/Core/Scene.cpp:366-381 | Through `ClearScreen`, a colour clear happens iff the flag is DepthAndColor, and a depth clear iff it is DepthAndColor or Depth. |
| SceneRender.VisibleMeshes | Engine/Core/Scene.cpp:439-473 | The colour draw list holds exactly the non-null objects that have a mesh renderer and whose layer shares a bit with the camera's mask. |
| SceneRender.ShadowMeshes | Engine/Core/Scene.cpp:578-593 | The shadow draw list holds exactly the non-null objects that have a mesh renderer, whatever their layer. |
| SceneRender.ScreenSpaceDraws | Engine/Core/Scene.cpp:443-465 | Sprites and texts are drawn exactly for the non-null objects that have them and are in the camera's layers. |
| SceneRender.RenderWithCamera | Engine/Core/Scene.cpp:352-532 | A face outside 0..5 asserts, and so does an unknown clear flag. Otherwise the pass uses the flag's clear bits and the masked draw list. A depth-normals pass, which clears colour and depth and uses the same list, happens iff the camera has a depth-normals texture. |
| SceneRender.RenderShadowsWithCamera | Engine/Core/Scene.cpp:534-617 | Clears colour and depth iff the shadow camera's flag is DepthAndColor, and draws every object that has a mesh renderer. |
| SceneRender.LayerMaskAsymmetry | Engine/Core/Scene.cpp:439-473 | Every mesh drawn in the colour pass is drawn in the shadow pass. A mesh outside the camera's layers is left out of the colour pass but still casts a shadow. |
| SceneBounds.Grow | Engine/Core/Scene.cpp:976-1019 | A non-contributing object leaves the box as it is. A contributor lowers each min and raises each max to include its transformed bounds. |
| SceneBounds.GenerateAABB | Engine/Core/Scene.cpp:964-1021 | The box contains every contributor's transformed bounds. Each coordinate is either the sentinel or attained by some contributor. Objects lacking a mesh renderer or a transform do not count, and a mesh renderer without a mesh contributes the unit box. |
| SceneBounds.NoContributorsKeepsSentinels | Engine/Core/Scene.cpp:964-1021 | With no contributor the result is the sentinel box, (1e8, …) to (−1e8, …). |
| SceneBounds.AppendNonContributor | Engine/Core/Scene.cpp:976-981 | Adding a null slot or a non-contributing object does not change the result. |
| SceneBounds.SpotShadowCamera | Engine/Core/Scene.cpp:65-71 | The spot shadow camera sits at the light, looks 200 units along the light direction with +Y up, and uses a 45-degree, aspect-1 perspective from 1 to 200. |
| SceneBounds.SpotTargetOnFarPlane | Engine/Core/Scene.cpp:65-71 | For a unit light direction the look-at target is exactly the far-plane distance from the eye. |
| SceneBounds.SpotShadowCameraTranslates | Engine/Core/Scene.cpp:65-71 | Moving the light shifts the eye and target by the same amount and leaves the up vector and projection unchanged. |
| SceneBounds.SceneCorners | Engine/Core/Scene.cpp:125-135 | Eight corners, each coordinate taken from the scene min or max. |
| SceneBounds.SceneCornersComplete | Engine/Core/Scene.cpp:125-135 | Every one of the eight min/max combinations is a corner. |
| SceneBounds.DirectionalOrtho | Engine/Core/Scene.cpp:146-149 | The x/y range and the far value come only from the view box in light space. Near is the minimum of the two candidate values, −viewMax.z and −sceneMax.z. |
| SceneBounds.SceneBoxOnlyMovesNear | Engine/Core/Scene.cpp:146-149 | Changing the scene box changes only near, and a scene box no nearer than the view box leaves near at −viewMax.z. |
| SceneBounds.DirectionalShadowSetup | Engine/Core/Scene.cpp:73-149 | The set-up asserts unless the camera has a target texture and the light direction is roughly unit length. Otherwise it yields the combined orthographic projection. |
| SceneSerialize.EmissionOrderComplete | Engine/Core/Scene.cpp:637-674 | The fixed emission order lists every component kind once, in strictly increasing rank. |
| SceneSerialize.PartsFrom | Engine/Core/Scene.cpp:637-674 | The component pieces emitted are exactly those of the kinds the object has, in emission order. |
| SceneSerialize.ObjectPieces | Engine/Core/Scene.cpp:633-675 | An object writes its own header first, then one piece for each component it has, each once, in the fixed order. |
| SceneSerialize.SerializedAppend | Engine/Core/Scene.cpp:629-677 | The output for two slot ranges back to back is the two outputs concatenated. |
| SceneSerialize.NullsSerializeToNothing | Engine/Core/Scene.cpp:633-636 | Null slots contribute nothing. |
| SceneSerialize.SerializedHeaders | Engine/Core/Scene.cpp:629-677 | The object headers in the output are the names of the non-null objects, in slot order. |
| SceneSerialize.GetSerialized | Engine/Core/Scene.cpp:629-677 | The scene text is empty if and only if every slot is null. |
| SceneDeserialize.DigitRun | Engine/Core/Scene.cpp:727-729 | Reads the longest all-digit prefix of a field, as stream extraction of an integer does. |
| SceneDeserialize.ShadowFlag | Engine/Core/Scene.cpp:727-729 | A present `shadow` field counts as on when it starts with 1-9. It counts as off when it is all zeros, or when its first character is neither a sign nor a digit (a failed conversion stores 0). |
| SceneDeserialize.SetLast | Engine/Core/Scene.cpp:708-950 | Only the last object changes, and the rest of the state is kept. |
| SceneDeserialize.BindMaterial | Engine/Core/Scene.cpp:938-947 | Every submesh index whose name matches the line's mesh name, and only those, ends up bound to the looked-up material. Other bindings are kept. This rests on the `SetMaterial` assumption under Left out. |
| SceneDeserialize.MeshMaterialLine | Engine/Core/Scene.cpp:914-950 | Fails for a missing mesh renderer, and for a renderer without a mesh. Otherwise only the last object's materials and the material table change, and the table only gains names. |
| SceneDeserialize.ParamTextureLine | Engine/Core/Scene.cpp:951-960 | A null dereference iff the current material is unknown or null. Otherwise only the texture table and the material's bindings change, and textures are only added. |
| SceneDeserialize.ComponentLine | Engine/Core/Scene.cpp:708-893 | position/rotation/scale without a transform are a ParseError, and so is an unknown projection name. shadow without a directional light, or a camera line without a camera, dereferences null. A numeric line whose component is present reads uninitialised values if and only if it has fewer fields than it extracts (1 for shadow and scale, 3 for clearcolor and position, 4 for persp and rotation, 6 for ortho). Otherwise it stores exactly its leading fields and changes nothing else of the component. dirlight/camera/transform always leave the component present, and leave an object that had it unchanged (the `AddComponent` assumption under Left out). shadow sets the flag and a 512 map. projection sets the type. |
| SceneDeserialize.ShadowLineNeedsField | Engine/Core/Scene.cpp:718-729 | A `shadow` line on an object with a directional light crashes (an uninitialised read) if and only if it has no field. With the field, the light's flag is the field read as an integer, with a 512 map. |
| SceneDeserialize.NumericLineNeedsFields | Engine/Core/Scene.cpp:719-893 | A numeric line whose component is present crashes the run (an uninitialised read) if and only if it has fewer fields than it extracts. With enough fields the run carries on from the updated state. |
| SceneDeserialize.MeshRendererLine | Engine/Core/Scene.cpp:818-834 | Appends exactly one mesh, named by the line's file, to the mesh list. The last object then has a renderer whose mesh is that new entry, and no other object or state field changes. Keeping an existing renderer's materials rests on the `SetMesh` assumption under Left out. |
| SceneDeserialize.ObjectLine | Engine/Core/Scene.cpp:708-950 | Exactly the source's error conditions for a line that acts on the last object. When it continues, the object count and the earlier objects are kept, and assets are only added. |
| SceneDeserialize.Step | Engine/Core/Scene.cpp:686-961 | A line that needs an object before any `gameobject` is a ParseError. So are: a missing transform, an unknown projection, and `mesh_material` without a renderer or without a mesh. A line is an uninitialised read exactly when it is a numeric line, its component is present, and it is short. Unknown tokens are ignored. Only `gameobject` adds an object. |
| SceneDeserialize.RunAppend | Engine/Core/Scene.cpp:686-961 | Reading a concatenation continues from where the first part ended, and stops where the first part stops. |
| SceneDeserialize.UnknownLineIgnored | Engine/Core/Scene.cpp:686-961 | Inserting a line with an unknown token anywhere changes nothing. |
| SceneDeserialize.ObjectsPerGameObjectLine | Engine/Core/Scene.cpp:700-706 | A successful read adds one object per `gameobject` line. |
| SceneDeserialize.DeserializeObjectCount | Engine/Core/Scene.cpp:679-706 | On success the output list holds exactly one object per `gameobject` line, because it is cleared first. |
| SceneDeserialize.StepOnlyAdds | Engine/Core/Scene.cpp:819-960 | A line never removes a texture, material or mesh. |
| SceneDeserialize.RunKeepsAssets | Engine/Core/Scene.cpp:686-961 | A successful read keeps every texture, material and mesh it started with. |
| SceneDeserialize.ParseErrorKeepsPartialResult | Engine/Core/Scene.cpp:686-961 | A ParseError leaves the state built by the lines before the failing one, and that line fails with the reported kind. |
| SceneDeserialize.StepKeepsMeshesAttached | Engine/Core/Scene.cpp:819-933 | Every mesh renderer the reader creates has a mesh. So a line never fails with "no mesh" and never breaks that. |
| SceneDeserialize.NoMeshErrorUnreachable | Engine/Core/Scene.cpp:929-933 | The "mesh renderer without a mesh" ParseError cannot occur when starting from a state without such renderers. |
| SceneDeserialize.ObjectTokenBeforeGameObject | Engine/Core/Scene.cpp:686-961 | An object-level token before any `gameobject` ends the read with a ParseError naming that token, with no objects built. |
| SceneDeserialize.ObjectTokenBeforeGameObjectOrCrash | Engine/Core/Scene.cpp:686-961 | With `param_texture` lines allowed before the first object token, the read either crashes on one of them or ends with the ParseError naming that token and no objects. |
| SceneDeserialize.Run | Engine/Core/Scene.cpp:686-961 | A successful read adds exactly one object per `gameobject` line to those it started with. A parse error never loses objects. |
| SceneDeserialize.Deserialize | Engine/Core/Scene.cpp:679-962 | The caller's object list is replaced: on success it holds exactly one object per `gameobject` line. The caller's texture and material names and meshes are kept. |
| MeshLoader.Take | Engine/Core/Mesh.cpp:85-138 | A read of n bytes succeeds iff that many remain, and splits them off the front. |
| MeshLoader.TakeU16 | Engine/Core/Mesh.cpp:96-97 | A u16 read needs two bytes and yields a value below 65536. |
| MeshLoader.TakeElements | Engine/Core/Mesh.cpp:125-138 | count elements of the given size each. |
| MeshLoader.ReadHeader | Engine/Core/Mesh.cpp:104-112 | A submesh header is two bounds, a u16 length and exactly that many name bytes. The name buffer of length+1 is allocated between the length and the name, and its failure throws exactly when the length was read and the allocation fails. |
| MeshLoader.ReadArray | Engine/Core/Mesh.cpp:114-138 | A counted array has fewer than 65536 elements, each of the element size, and only when the resize succeeded. A resize to zero elements allocates nothing and cannot fail. |
| MeshLoader.ReadSubMesh | Engine/Core/Mesh.cpp:102-140 | A fully read submesh has its vertex buffer generated. The submesh throws exactly when its name buffer throws. |
| MeshLoader.ReadSubMeshes | Engine/Core/Mesh.cpp:102-141 | Success reads exactly count submeshes, each generated. Out of memory stops inside one of them. |
| MeshLoader.Load | Engine/Core/Mesh.cpp:47-144 | A wrong magic returns Corrupted with the mesh untouched. Otherwise the mesh bounds are the bytes after the magic. The submesh list is replaced by one of exactly the u16 count read next. On Success every submesh is generated. An uncaught `bad_alloc` happens only after a full header. When the list resize succeeded, it comes from the submesh loop, so the count is non-zero. |
| MeshLoader.Finish | Engine/Core/Mesh.cpp:99-143 | After the header, the submesh list has the count's length whether the loop succeeds or runs out of memory. A throw in the loop leaves `Load` by exception. |
| MeshLoader.EncodeU16 | Engine/Core/Mesh.cpp:96-97 | The little-endian u16 layout: two bytes, low byte first. |
| MeshLoader.TakeU16Exact | Engine/Core/Mesh.cpp:96-97 | Reading an encoded u16 gives back the value and the rest. |
| MeshLoader.TakeElementsExact | Engine/Core/Mesh.cpp:125-138 | Reading concatenated elements gives back exactly those elements. |
| MeshLoader.ReadHeaderExact | Engine/Core/Mesh.cpp:104-112 | Reading an encoded submesh header gives back its bounds and exactly its name when the name buffer can be allocated, and throws otherwise. |
| MeshLoader.ReadArrayExact | Engine/Core/Mesh.cpp:114-138 | Reading an encoded counted array gives back exactly its elements. |
| MeshLoader.ReadSubMeshExact | Engine/Core/Mesh.cpp:102-140 | Fields are read in the order bounds, name, vertices, faces. An encoded submesh decodes to itself with exactly its vertex and face counts. |
| MeshLoader.ReadSubMeshesExact | Engine/Core/Mesh.cpp:102-141 | Encoded submeshes decode to themselves, in order. |
| MeshLoader.LoadHeaderExact | Engine/Core/Mesh.cpp:85-100 | For an encoded file, the magic, the mesh bounds and the count are read in that order. The resize of the submesh list then either throws or hands over to the submesh loop. It cannot throw when the count is at most the previous list length, because `clear` keeps the capacity. |
| MeshLoader.LoadEncoded | Engine/Core/Mesh.cpp:47-144 | Round trip: loading an encoded mesh file returns Success with exactly the file's bounds and submeshes, whatever the mesh held before. |
| MeshLoader.ReadSubMeshNoMemory | Engine/Core/Mesh.cpp:110-123 | When the name buffer is allocated but the vertex resize fails, the submesh stops after its name with OutOfMemory. |
| MeshLoader.ReadSubMeshesNoMemory | Engine/Core/Mesh.cpp:110-123 | The exact outcome in one instance of ReadSubMeshesOutcome: a failed vertex allocation in the first submesh (after its name buffer) ends the loop there, with that submesh's bounds and name read and no buffer. |
| MeshLoader.AllocationFailureIsOutOfMemory | Engine/Core/Mesh.cpp:99-136 | The exact mesh when the submesh list and the first name buffer are allocated and the first vertex resize fails: OutOfMemory, never a truncated Success. The list keeps the count's length, and the unreached submeshes are default. |
| MeshLoader.ReadSubMeshFaceNoMemory | Engine/Core/Mesh.cpp:127-136 | A failed face allocation after a successful name buffer and vertex resize stops the submesh with its bounds and name read and no buffer. |
| MeshLoader.ReadSubMeshOutcome | Engine/Core/Mesh.cpp:102-140 | An encoded submesh is read back whole exactly when all three of its allocations succeed. A failed name buffer throws. A failed resize after it ends in OutOfMemory. |
| MeshLoader.ReadSubMeshNameThrows | Engine/Core/Mesh.cpp:107-112 | A failed allocation of the name buffer throws out of the submesh before its name is read. |
| MeshLoader.ReadSubMeshesOutcome | Engine/Core/Mesh.cpp:102-141 | The loop over encoded submeshes completes if and only if every submesh's name, vertex and face allocations succeed, and then gives back exactly the submeshes. It throws if and only if the first failing submesh fails at its name buffer. It never runs short of data. |
| MeshLoader.LoadSuccessIffAllocates | Engine/Core/Mesh.cpp:47-144 | For an encoded file, Load throws if and only if the submesh list cannot grow to the count, or the first failing submesh fails at its name buffer. Otherwise it returns Success if and only if every allocation succeeds, and OutOfMemory if not. When it returns, the mesh has the file's bounds and a submesh list of the file's count. |
| MeshLoader.NoAllocationThrows | Engine/Core/Mesh.cpp:99-112 | When no allocation can succeed, a file with a submesh never returns: `bad_alloc` from the list resize or the first name buffer leaves Load. |
| ModifyTransform.NewCommand | Tools/Editor/ModifyTransformCommand.cpp:5-13 | The command holds the target index and the new values it was built with, and nothing saved yet. |
| ModifyTransform.Execute | Tools/Editor/ModifyTransformCommand.cpp:15-28 | An index outside the object list (negative or past the end) is the out-of-range throw of the object lookup, and only such an index is. With a transform, sets exactly the command's values and saves the old ones. Without one, nothing changes. Other objects and the command's own values are never modified. |
| ModifyTransform.Undo | Tools/Editor/ModifyTransformCommand.cpp:30-41 | An index outside the object list throws, and only such an index does. Restores the saved values into the target. Without a transform, nothing changes. With nothing saved yet, no world is produced. |
| ModifyTransform.ExecuteThenUndoRestores | Tools/Editor/ModifyTransformCommand.cpp:15-41 | For an index naming an object, Execute succeeds and Undo after it gives back the original world. |
| ModifyTransform.DoubleExecuteThenUndo | Tools/Editor/ModifyTransformCommand.cpp:20-23 | After two Executes, Undo yields the new values, not the originals. |
| ModifyTransform.UndoAfterRemovalThrows | Tools/Editor/SceneWidget.hpp:40-55 | When objects are removed so that the command's index no longer names one, Undo throws out-of-range. |
| GfxDevice.ToUint32 | Engine/Video/D3D12/GfxDeviceD3D12.cpp:1015 | The `int` to `UINT` conversion: identity on 0..2^32−1, wrap-around for negative values. |
| GfxDevice.TransitionResource | Engine/Video/D3D12/GfxDeviceD3D12.cpp:155-186 | The same state issues no barrier and changes nothing. Otherwise exactly one barrier goes from the old state to the new one, and the barrier counter goes up by one. The barrier is END_ONLY iff the new state is the transitioning one, which is then reset to −1. |
| GfxDevice.TransitionAll | Engine/Video/D3D12/GfxDeviceD3D12.cpp:155-186 | After a run of transitions, the resource is in the last state. |
| GfxDevice.TransitionAllCountsChanges | Engine/Video/D3D12/GfxDeviceD3D12.cpp:155-186 | A run of transitions adds one barrier call per actual state change, and touches no other counter. |
| GfxDevice.TransitionIdempotent | Engine/Video/D3D12/GfxDeviceD3D12.cpp:157-162 | Repeating a transition issues no second barrier. |
| GfxDevice.CreateSamplers | Engine/Video/D3D12/GfxDeviceD3D12.cpp:271-312 | Four samplers are written to the heap. |
| GfxDevice.SamplerSlotsMatchCreation | Engine/Video/D3D12/GfxDeviceD3D12.cpp:541-565 | The slot `GetSampler` picks holds exactly the sampler created for that wrap and filter, and different settings get different slots. |
| GfxDevice.GetSamplerSlot | Engine/Video/D3D12/GfxDeviceD3D12.cpp:541-565 | The slot is one of four. Its low bit is set exactly for clamping, and it is 2 or more exactly for nearest filtering. |
| GfxDevice.InitialDevice | Engine/Video/D3D12/GfxDeviceD3D12.cpp:83-121 | The device starts with one sample, an empty PSO cache, no render target and a 640×400 back buffer. The render-target format global has no initialiser, so it starts zeroed, at `DXGI_FORMAT_UNKNOWN`. |
| GfxDevice.FirstDrawFormat | Engine/Video/D3D12/GfxDeviceD3D12.cpp:799-806 | A draw before any `SetRenderTarget` hashes the unknown format (0) with one sample. After `SetRenderTarget(nullptr)`, the same draw hashes the sRGB back-buffer format. |
| GfxDevice.TransitionCurrent | Engine/Video/D3D12/GfxDeviceD3D12.cpp:1151-1156 | Moves either the bound texture or the current back buffer, issuing at most one barrier. |
| GfxDevice.ClearScreen | Engine/Video/D3D12/GfxDeviceD3D12.cpp:1144-1215 | DontClear issues nothing. Otherwise a colour clear of the chosen view happens iff the colour bit is set, and a depth clear iff the depth bit is set. |
| GfxDevice.CreateRenderer | Engine/Video/D3D12/GfxDeviceD3D12.cpp:598-603 | The sample count is taken only when it is in 1..16, and kept otherwise. |
| GfxDevice.CreateRendererInRange | Engine/Video/D3D12/GfxDeviceD3D12.cpp:598-603 | A sample count in 1..16 stays in 1..16 whatever count is requested. So from the initial single sample the device never holds an invalid count. |
| GfxDevice.ResetFrameStatistics | Engine/Video/D3D12/GfxDeviceD3D12.cpp:1048-1055 | Zeroes every per-frame counter except shader binds. |
| GfxDevice.IncDrawCalls | Engine/Video/D3D12/GfxDeviceD3D12.cpp:1033-1036 | Draw calls go up by one, and no other counter changes. |
| GfxDevice.ResetForgetsDraws | Engine/Video/D3D12/GfxDeviceD3D12.cpp:1033-1055 | A frame reset forgets the draw calls counted since the previous reset. |
| GfxDevice.Draw | Engine/Video/D3D12/GfxDeviceD3D12.cpp:788-1017 | Asserts iff no constant buffer is set up. Otherwise the PSO cache afterwards contains the hash, drawCalls goes up by one, and it draws 3·(end−start) indices from 3·start, as UINT. |
| GfxDevice.DrawCachesPso | Engine/Video/D3D12/GfxDeviceD3D12.cpp:806-811 | A PSO is created iff its hash was not cached, and a second identical draw finds it cached. |
| GfxDevice.DrawIndexRange | Engine/Video/D3D12/GfxDeviceD3D12.cpp:1015 | For a face range in bounds, the draw uses 3·(end−start) indices from 3·start. |
| GfxDevice.SetRenderTarget | Engine/Video/D3D12/GfxDeviceD3D12.cpp:1316-1346 | A non-render texture asserts, and so does a face of 6 or more. Binding a texture moves it to the render-target state, and a cube binds that face's views. Unbinding restores the sRGB back-buffer format. |
| GfxDevice.SetRenderTargetIdempotent | Engine/Video/D3D12/GfxDeviceD3D12.cpp:1316-1346 | Binding the same target again gives the same device, with no second barrier. A binding changes no resource other than the target's and adds no resource. |
| ComputeShader.SetUniform | Engine/Video/D3D12/ComputeShaderD3D12.cpp:56-63 | Only TilesZW changes anything, and then only the z/w tile values. |
| ComputeShader.SetUniformLastWins | Engine/Video/D3D12/ComputeShaderD3D12.cpp:56-63 | Setting the tile uniform twice keeps only the second values. |
| ComputeShader.SetSlot | Engine/Video/D3D12/ComputeShaderD3D12.cpp:177-226 | An in-range slot gets the value. Every other slot, and every slot when out of range, is unchanged. |
| ComputeShader.SetCBV | Engine/Video/D3D12/ComputeShaderD3D12.cpp:189-199 | An in-range slot writes exactly that uniform buffer. Out of range changes nothing. |
| ComputeShader.SetSRV | Engine/Video/D3D12/ComputeShaderD3D12.cpp:201-212 | An in-range slot writes exactly that texture buffer and its view description. Out of range changes nothing. |
| ComputeShader.SetUAV | Engine/Video/D3D12/ComputeShaderD3D12.cpp:214-226 | An in-range slot writes that UAV slot and also overwrites the global `uav1` and its description. Out of range changes nothing. |
| ComputeShader.SetRenderTexture | Engine/Video/D3D12/ComputeShaderD3D12.cpp:177-187 | An in-range slot writes exactly that render texture. Out of range changes nothing. |
| ComputeShader.Load | Engine/Video/D3D12/ComputeShaderD3D12.cpp:151-175 | Every uniform, texture and UAV slot is null before loading, other fields are kept, and a loaded blob is recorded. |
| ComputeShader.NextHeap | Engine/Video/D3D12/ComputeShaderD3D12.cpp:67-68 | The heap index stays in 0..2. |
| ComputeShader.HeapCycle | Engine/Video/D3D12/ComputeShaderD3D12.cpp:67-68 | From 0, the n-th dispatch uses heap n mod 3, so the index cycles 1, 2, 0, …. |
| ComputeShader.DepthNormalsBarriers | Engine/Video/D3D12/ComputeShaderD3D12.cpp:109-128 | The depth-normals target goes to non-pixel-shader resource and back, costing two barrier calls. |
| ComputeShader.Dispatch | Engine/Video/D3D12/ComputeShaderD3D12.cpp:65-129 | Asserts if and only if the command list or the next heap is missing. Past the asserts, it dereferences null exactly when a PSO must be built without a blob, or when there is no current constant buffer. Otherwise it runs. The PSO is created and appended to the list only when none exists, and is then cached. The current constant buffer goes to slot 0. The barrier pair happens if and only if texture slot 1 is set. |
| ComputeShader.PsoCreatedOnce | Engine/Video/D3D12/ComputeShaderD3D12.cpp:72-82 | A second dispatch reuses the first PSO, so at most one is created per shader. |
| ComputeShader.DispatchNeedsLoadedBlob | Engine/Video/D3D12/ComputeShaderD3D12.cpp:72-89 | A shader with no PSO and no blob whose load failed dereferences the null blob on its first dispatch. After a successful load, the dispatch runs exactly when a constant buffer is current. |
| WindowEvents.ToInt32 | Engine/Video/WindowWin32.cpp:38 | The `static_cast<int>` of a WPARAM is in int range and congruent to it mod 2^32. |
| WindowEvents.WindowProc | Engine/Video/WindowWin32.cpp:21-71 | Only KEYDOWN, SYSKEYDOWN and CLOSE push, and a push changes only the new top slot. A key press pushes KeyDown with the key code. CLOSE sets the type only. Every other message changes nothing. |
| WindowEvents.PollEvent | Engine/Video/WindowWin32.cpp:125-135 | An empty stack yields nothing and changes nothing. Otherwise it yields the top event and pops it. |
| WindowEvents.PushThenPoll | Engine/Video/WindowWin32.cpp:33-40 | A key press followed by a poll returns that key event and restores the index. |
| WindowEvents.LastInFirstOut | Engine/Video/WindowWin32.cpp:125-135 | Two pushes are polled back in reverse order. |
| WindowEvents.CloseKeepsStaleKeyCode | Engine/Video/WindowWin32.cpp:67-71 | A Close pushed into a slot that held a key event carries that stale key code. |
| WindowEvents.WindowSize | Engine/Video/WindowWin32.cpp:81-82 | A zero width or height is replaced by the screen size, and a non-zero one is kept. |
| WindowEvents.WindowSizeNonZero | Engine/Video/WindowWin32.cpp:81-82 | When the screen size is non-zero, the chosen window size is never zero. |

## Left out

- GPU and OS calls are not modelled: D3D12, DXGI, GL and Win32 resource creation, command lists, fences, present, the swap chain and message pumping. The device functions return the commands they would record instead.
- Floating-point, matrix and quaternion math is not modelled. This covers `LookAt`, `TransformPoint`, frustum construction, the NaN asserts and `Floor`. Transforms are a function parameter and coordinates are `real`.
- SceneBounds.DirectionalShadowSetup: models the length assert as 0.81 < |d|² < 1.21, the square of the source's 0.9..1.1 bound on |d|. The NaN asserts are left out.
- MeshLoader.Load: the source's raw struct reads are native-endian and unchecked. The model assumes little-endian fields of parameter sizes, and a read past the end is `Undefined` rather than a guessed value. A zero-length vertex or face array (`&vertices[0]` on an empty vector) is treated as harmless.
- MeshLoader.Load: after an uncaught `bad_alloc` the model keeps no mesh (`Thrown`). It does not model what the mesh holds when the exception leaves, or whether any caller catches it. The other allocations `Load` makes are assumed to succeed: the stream's copy of the data, the `std::string` built from the name, and those inside `VertexBuffer::Generate`.
- Mesh file loading, texture loading and `VertexBuffer::Generate` are outside the model. `Generate` is represented by the arrays it receives.
- The mesh-grouping sorts before drawing (`Engine/Core/Scene.cpp:475-477`, `595-597`) use a comparator that is not a strict weak ordering. The draw lists are modelled as the filtered slot indices, and no grouping is claimed.
- SceneRender.SortByRenderOrder: an insertion sort stands in for `std::sort`. The order among cameras with equal render order is not specified by the source and is not claimed.
- The PSO hash `MathUtil::GetHash` is not visible. It is a function parameter, so caching is stated up to that hash.
- Audio listener updates, skybox rendering, `Material::SetGlobalRenderTexture` and shader compilation are calls into code outside the model and are left out. ComputeShader.Load merges the compile and bytecode branches into one optional loaded blob.
- SceneDeserialize: numeric fields are kept as their text. The reader works on lines already split into a token and fields. Loading a mesh yields its file name, and `submeshNames` stands for the names that file would contain.
- SceneDeserialize.Step: an unchecked null dereference (shadow without a directional light, camera lines without a camera, `param_texture` without a current material) is reported as `NullDeref`/`Crashed` rather than modelled as a crash.
- SceneDeserialize.ComponentLine: numeric fields are kept as their text, and whether a field is a valid number is not modelled. In the source, a field that fails to convert stores 0 and leaves every later field of that line uninitialised. The model reports an uninitialised read only for a line that is too short, and stores a non-numeric field's text.
- SceneDeserialize.ComponentLine: assumes `GameObject::AddComponent` returns the existing component when the object already has one of that type. Its body is not part of this model.
- SceneDeserialize.MeshRendererLine: assumes `MeshRendererComponent::SetMesh` only replaces the mesh and keeps the materials already bound. Its body is not part of this model.
- SceneDeserialize.BindMaterial: assumes `MeshRendererComponent::SetMaterial( m, i )` stores `m` for submesh `i` and changes no other binding. Its body is not part of this model.
- GfxDevice: the `GpuResource` default transitioning state is assumed to be −1, the `ClearFlags` bit values are assumed to be 1/2/4, and `SLOT_COUNT` in the compute shader is assumed to be 3. Their declarations are not part of this model.
- GfxDevice.SetRenderTarget: a tracked resource stands for a GPU resource that has a D3D resource, so the assert on a 2D render texture without one (`GfxDeviceD3D12.cpp:1335`) is not modelled.
- GfxDevice.Draw: the index count `endFace * 3 - startFace * 3` is signed `int` arithmetic in the source, and its overflow is undefined behaviour. The model computes it without overflow and only wraps the result to `UINT`.
- `Engine/Video/VertexBufferGL.cpp`, the declaration-only headers, the Qt editor widgets and the sample application are outside the model.
- ModifyTransform.Undo: an `Undo` before any `Execute` would write the command's uninitialised saved members. The model returns no world for it rather than inventing those values.
- ModifyTransform.Execute: a game-object slot holding a null pointer is not modelled. Every listed object is assumed to exist, and only its transform may be missing.
- WindowEvents.WindowProc: models only the messages the procedure lists. The calls it makes for size, activation, cursor and mouse messages are left out, and a push on a full stack is excluded by a precondition because the source writes past the array.
- `Window::Create`'s Win32 window and context creation is left out. Only its size selection is modelled (WindowEvents.WindowSize).

## Findings

| source | as written | input that shows it | evidently intended | confidence | as-written member | corrected member |
|---|---|---|---|---|---|---|
| Engine/Core/Scene.cpp:170-180 | `Remove` erases a slot but never lowers `nextFreeGameObject` | Add 10 objects (the vector is full, cursor 10). Remove one (9 slots, cursor 10). Add a new object: `gameObjects[10]` is written in a 9-slot vector. | Removal keeps the cursor within the vector, so the next `Add` stores the object | not executed | SceneRegistry.RemoveFromFullThenAddIsOutOfRange, SceneRegistry.FullRegistryCounterexample | SceneRegistry.RemoveFixed, SceneRegistry.FixedRemoveThenAddStored |

=== FILE: common.dfy ===
/** Shared value types: an optional value (an absent value, or a null
    pointer) and a three-component vector over the reals. */
module Common {

  /** A value that may be absent; for a pointer, `None` is null. */
  datatype Option<+T> = None | Some(value: T)

  /** The outcome of code guarded by `System::Assert`: the value, or the
      assertion that fired. */
  datatype Checked<+T> = Ok(value: T) | AssertFailed(reason: string)

  /** `n` null pointers: the padding a vector of pointers is resized or
      reset with. */
  function Nulls<T>(n: nat): (s: seq<Option<T>>)
    ensures |s| == n && forall i :: 0 <= i < n ==> s[i] == None
  {
    seq(n, _ => None)
  }

  /** A point or direction; the engine's float triple, with real coordinates. */
  datatype Vec3 = Vec3(x: real, y: real, z: real)

  function Min(a: real, b: real): (r: real)
    ensures r <= a && r <= b
    ensures r == a || r == b
  {
    if a < b then a else b
  }

  function Max(a: real, b: real): (r: real)
    ensures r >= a && r >= b
    ensures r == a || r == b
  {
    if a > b then a else b
  }
}

=== FILE: compute_shader.dfy ===
/** The D3D12 `ComputeShader`: three slots each of constant buffers, shader
    resources, unordered-access buffers and render textures, the
    process-wide descriptor-heap rotation of `Dispatch`, its lazily created
    pipeline state, and the barriers around the depth-normals texture.
    Resources are identified by number; descriptor creation and the
    command-list calls themselves are not modelled. */
module ComputeShader {
  import opened Common
  import GfxDevice

  const SlotCount: nat := 3
  const HeapCount: nat := 3

  datatype Shader = Shader(
    uniformBuffers: seq<Option<nat>>,
    textureBuffers: seq<Option<nat>>,
    srvDescs: seq<nat>,
    uavBuffers: seq<Option<nat>>,
    renderTextures: seq<Option<nat>>,
    pso: Option<nat>,
    blob: Option<nat>)

  ghost predicate Valid(s: Shader) {
    |s.uniformBuffers| == SlotCount && |s.textureBuffers| == SlotCount && |s.srvDescs| == SlotCount
    && |s.uavBuffers| == SlotCount && |s.renderTextures| == SlotCount
  }

  /** Process-wide state the shader touches: `GfxDeviceGlobal`'s UAV
      descriptor and resource, the pipeline list, the compiled shader list,
      the per-object uniform block's `tilesXY.z`/`.w`, the static heap
      index of `Dispatch`, the cached pipeline state and the counters. */
  datatype Globals = Globals(
    uav1Desc: nat,
    uav1: Option<nat>,
    psos: seq<nat>,
    computeShaders: seq<nat>,
    tilesZ: real,
    tilesW: real,
    heapIndex: nat,
    cachedPso: Option<nat>,
    stats: GfxDevice.Stats)

  datatype UniformName = TilesZW | OtherUniform(code: nat)

  /** `SetUniform`: only `TilesZW` is handled. */
  function SetUniform(g: Globals, uniform: UniformName, x: real, y: real): (r: Globals)
    ensures uniform == TilesZW ==> r == g.(tilesZ := x, tilesW := y)
    ensures uniform != TilesZW ==> r == g
  {
    if uniform == TilesZW then g.(tilesZ := x, tilesW := y) else g
  }

  /** Setting the tile uniform twice keeps only the second values. */
  lemma SetUniformLastWins(g: Globals, x1: real, y1: real, x2: real, y2: real)
    ensures SetUniform(SetUniform(g, TilesZW, x1, y1), TilesZW, x2, y2) == SetUniform(g, TilesZW, x2, y2)
  {
  }

  /** A slot write guarded by `slot < SLOT_COUNT`; out of range the call
      only prints. */
  function SetSlot<T>(slots: seq<T>, slot: nat, value: T): (r: seq<T>)
    ensures |r| == |slots|
    ensures slot < SlotCount && slot < |slots| ==> r[slot] == value
    ensures forall i :: 0 <= i < |slots| && (i != slot || slot >= SlotCount) ==> r[i] == slots[i]
  {
    if slot < SlotCount && slot < |slots| then slots[slot := value] else slots
  }

  function SetCBV(s: Shader, slot: nat, buffer: Option<nat>): (r: Shader)
    requires Valid(s)
    ensures Valid(r) && r == s.(uniformBuffers := r.uniformBuffers)
    ensures slot < SlotCount ==> r.uniformBuffers == s.uniformBuffers[slot := buffer]
    ensures slot >= SlotCount ==> r == s
  {
    s.(uniformBuffers := SetSlot(s.uniformBuffers, slot, buffer))
  }

  function SetSRV(s: Shader, slot: nat, buffer: Option<nat>, desc: nat): (r: Shader)
    requires Valid(s)
    ensures Valid(r) && r == s.(textureBuffers := r.textureBuffers, srvDescs := r.srvDescs)
    ensures slot < SlotCount ==>
      r.textureBuffers == s.textureBuffers[slot := buffer] && r.srvDescs == s.srvDescs[slot := desc]
    ensures slot >= SlotCount ==> r == s
  {
    s.(textureBuffers := SetSlot(s.textureBuffers, slot, buffer), srvDescs := SetSlot(s.srvDescs, slot, desc))
  }

  /** `SetUAV`: an in-range write also replaces the global UAV descriptor
      and resource, whichever slot it targets. */
  function SetUAV(s: Shader, g: Globals, slot: nat, buffer: Option<nat>, desc: nat): (r: (Shader, Globals))
    requires Valid(s)
    ensures Valid(r.0) && r.0 == s.(uavBuffers := r.0.uavBuffers)
    ensures slot < SlotCount ==>
      r.0.uavBuffers == s.uavBuffers[slot := buffer] && r.1 == g.(uav1Desc := desc, uav1 := buffer)
    ensures slot >= SlotCount ==> r == (s, g)
  {
    if slot < SlotCount then (s.(uavBuffers := s.uavBuffers[slot := buffer]), g.(uav1Desc := desc, uav1 := buffer))
    else (s, g)
  }

  function SetRenderTexture(s: Shader, slot: nat, texture: Option<nat>): (r: Shader)
    requires Valid(s)
    ensures Valid(r) && r == s.(renderTextures := r.renderTextures)
    ensures slot < SlotCount ==> r.renderTextures == s.renderTextures[slot := texture]
    ensures slot >= SlotCount ==> r == s
  {
    s.(renderTextures := SetSlot(s.renderTextures, slot, texture))
  }

  /** `Load( metalShaderName, dataHLSL, dataSPIRV )`: every uniform, texture
      and UAV slot is nulled, then the shader is compiled or read as
      bytecode; `loaded` is that step's blob, `None` on failure, which is
      only reported. Render-texture slots and SRV descriptors are kept. */
  function Load(s: Shader, g: Globals, loaded: Option<nat>): (r: (Shader, Globals))
    requires Valid(s)
    ensures Valid(r.0)
    ensures forall i :: 0 <= i < SlotCount ==>
      r.0.uniformBuffers[i].None? && r.0.textureBuffers[i].None? && r.0.uavBuffers[i].None?
    ensures r.0.renderTextures == s.renderTextures && r.0.srvDescs == s.srvDescs && r.0.pso == s.pso
    ensures loaded.Some? ==> r.0.blob == loaded && r.1 == g.(computeShaders := g.computeShaders + [loaded.value])
    ensures loaded.None? ==> r.0.blob == s.blob && r.1 == g
  {
    var cleared := s.(uniformBuffers := Nulls(SlotCount), textureBuffers := Nulls(SlotCount), uavBuffers := Nulls(SlotCount));
    if loaded.Some? then (cleared.(blob := loaded), g.(computeShaders := g.computeShaders + [loaded.value]))
    else (cleared, g)
  }

  /** The rotation of the static heap index. */
  function NextHeap(h: nat): (r: nat)
    ensures r < HeapCount
    ensures r == (h + 1) % HeapCount
  {
    (h + 1) % HeapCount
  }

  /** Heap index after `n` dispatches starting from `h`. */
  function HeapAfter(h: nat, n: nat): nat {
    if n == 0 then h else NextHeap(HeapAfter(h, n - 1))
  }

  /** From its initial 0 the heap index runs 1, 2, 0, 1, ...: after `n`
      dispatches it is `n mod 3`. */
  lemma {:induction false} HeapCycle(n: nat)
    ensures HeapAfter(0, n) == n % HeapCount
  {
    if n > 0 {
      HeapCycle(n - 1);
    }
  }

  /** What one `Dispatch` did besides the state change: the barriers
      recorded around the depth-normals texture. */
  datatype Dispatched = Dispatched(shader: Shader, globals: Globals, barriers: seq<GfxDevice.Barrier>)

  /** The transitions of the local `GpuResource` wrapping the depth-normals
      texture: render target to non-pixel shader resource before the
      dispatch and back after. It starts in the render-target state with no
      split transition pending. */
  function DepthNormalsBarriers(stats: GfxDevice.Stats): (r: (seq<GfxDevice.Barrier>, GfxDevice.Stats))
    ensures r.0 == [GfxDevice.Barrier(GfxDevice.StateRenderTarget, GfxDevice.StateNonPixelShaderResource, GfxDevice.FlagNone),
                    GfxDevice.Barrier(GfxDevice.StateNonPixelShaderResource, GfxDevice.StateRenderTarget, GfxDevice.FlagNone)]
    ensures r.1 == stats.(barrierCalls := stats.barrierCalls + 2)
  {
    var res := GfxDevice.GpuResource(GfxDevice.StateRenderTarget, GfxDevice.NoTransition);
    var t1 := GfxDevice.TransitionResource(res, GfxDevice.StateNonPixelShaderResource, stats);
    var t2 := GfxDevice.TransitionResource(t1.resource, GfxDevice.StateRenderTarget, t1.stats);
    ([t1.barrier.value, t2.barrier.value], t2.stats)
  }

  /** How a `Dispatch` ends: it runs, one of its two assertions fires, or
      it dereferences a null pointer (the shader blob when a pipeline state
      has to be built, or the current constant buffer bound to slot 0). */
  datatype DispatchOutcome =
    | Ran(value: Dispatched)
    | Asserted(reason: string)
    | NullDeref(pointer: string)

  /** `Dispatch`. The heap index advances before the assertions on the
      command list and the selected heap; `heapReady[h]` says whether heap
      `h` exists. `newPso` is the pipeline state created when the shader has
      none yet; `currentConstantBuffer` is the device's current constant
      buffer, bound to slot 0 and then read for its GPU address. */
  function Dispatch(s: Shader, g: Globals, commandListReady: bool, heapReady: seq<bool>,
                    newPso: nat, currentConstantBuffer: Option<nat>): (r: DispatchOutcome)
    requires Valid(s) && |heapReady| == HeapCount
    ensures r.Asserted? <==> !commandListReady || !heapReady[NextHeap(g.heapIndex)]
    ensures r.NullDeref? <==>
      && commandListReady && heapReady[NextHeap(g.heapIndex)]
      && ((s.pso.None? && s.blob.None?) || currentConstantBuffer.None?)
    ensures r.Ran? <==>
      && commandListReady && heapReady[NextHeap(g.heapIndex)]
      && (s.pso.Some? || s.blob.Some?) && currentConstantBuffer.Some?
    ensures r.Ran? ==>
      var d := r.value;
      && Valid(d.shader)
      && d.globals.heapIndex == (g.heapIndex + 1) % HeapCount
      && (s.pso.None? ==> d.shader.pso == Some(newPso) && d.globals.psos == g.psos + [newPso])
      && (s.pso.Some? ==> d.shader.pso == s.pso && d.globals.psos == g.psos)
      && d.globals.cachedPso == d.shader.pso
      && d.shader.uniformBuffers == s.uniformBuffers[0 := currentConstantBuffer]
      && (s.textureBuffers[1].Some? <==> |d.barriers| == 2)
      && (s.textureBuffers[1].None? ==> d.barriers == [] && d.globals.stats == g.stats)
      && (s.textureBuffers[1].Some? ==>
            && d.barriers[0].before == GfxDevice.StateRenderTarget
            && d.barriers[0].after == GfxDevice.StateNonPixelShaderResource
            && d.barriers[1].before == GfxDevice.StateNonPixelShaderResource
            && d.barriers[1].after == GfxDevice.StateRenderTarget
            && d.globals.stats.barrierCalls == g.stats.barrierCalls + 2)
  {
    var h := NextHeap(g.heapIndex);
    if !commandListReady then Asserted("graphics command list not initialized")
    else if !heapReady[h] then Asserted("heap not initialized")
    else if s.pso.None? && s.blob.None? then NullDeref("blobShader")
    else if currentConstantBuffer.None? then NullDeref("uniformBuffers[ 0 ]")
    else
      var pso := if s.pso.Some? then s.pso else Some(newPso);
      var psos := if s.pso.Some? then g.psos else g.psos + [newPso];
      var s1 := SetCBV(s.(pso := pso), 0, currentConstantBuffer);
      var (barriers, stats) := if s.textureBuffers[1].Some? then DepthNormalsBarriers(g.stats) else ([], g.stats);
      Ran(Dispatched(s1, g.(heapIndex := h, psos := psos, cachedPso := pso, stats := stats), barriers))
  }

  /** The pipeline state is created once per shader: a second dispatch
      reuses it and leaves the pipeline list alone. */
  lemma PsoCreatedOnce(s: Shader, g: Globals, heapReady: seq<bool>, pso1: nat, pso2: nat, cb1: Option<nat>, cb2: Option<nat>)
    requires Valid(s) && s.pso.None? && |heapReady| == HeapCount
    requires Dispatch(s, g, true, heapReady, pso1, cb1).Ran?
    ensures
      var d1 := Dispatch(s, g, true, heapReady, pso1, cb1).value;
      var second := Dispatch(d1.shader, d1.globals, true, heapReady, pso2, cb2);
      second.Ran? ==> second.value.shader.pso == Some(pso1) && second.value.globals.psos == g.psos + [pso1]
  {
  }

  /** A shader that never had a pipeline state or a blob and whose load
      failed dereferences the null blob on its first dispatch; one whose
      load succeeded gets past it, failing only for a missing constant
      buffer. */
  lemma DispatchNeedsLoadedBlob(s: Shader, g: Globals, loaded: Option<nat>, heapReady: seq<bool>,
                                newPso: nat, cb: Option<nat>)
    requires Valid(s) && s.pso.None? && s.blob.None? && |heapReady| == HeapCount
    requires heapReady[NextHeap(Load(s, g, loaded).1.heapIndex)]
    ensures
      var (s1, g1) := Load(s, g, loaded);
      var r := Dispatch(s1, g1, true, heapReady, newPso, cb);
      && (loaded.None? ==> r == NullDeref("blobShader"))
      && (loaded.Some? ==> (r.Ran? <==> cb.Some?))
  {
  }
}

=== FILE: gfx_device.dfy ===
/** Bookkeeping of the D3D12 device (`GfxDeviceD3D12.cpp`): resource-state
    transitions and barrier counting, the sampler heap layout, which clears
    `ClearScreen` issues, the sample-count check, frame statistics, the PSO
    cache and index arithmetic of `Draw`, and the render-target binding.
    GPU calls become commands in a returned list. */
module GfxDevice {
  import opened Common

  /** `D3D12_RESOURCE_STATES` values used by the core (from d3d12.h). */
  const StateCommon: int := 0
  const StatePresent: int := 0
  const StateRenderTarget: int := 0x4
  const StateNonPixelShaderResource: int := 0x40
  /** `(D3D12_RESOURCE_STATES)-1`: no split transition in flight. */
  const NoTransition: int := -1

  /** `GfxDevice::ClearFlags` bits. */
  const DontClear: bv32 := 1
  const ColorBit: bv32 := 2
  const DepthBit: bv32 := 4

  /** `DXGI_FORMAT` values used by the core. */
  /** `DXGI_FORMAT_UNKNOWN`, the value of a zero-initialised format global. */
  const FormatUnknown: int := 0
  const FormatRgba8Unorm: int := 28
  const FormatRgba8UnormSrgb: int := 29

  const TwoTo32: int := 0x1_0000_0000

  /** Conversion of a C++ `int` to `UINT` (two's-complement wrap-around). */
  function ToUint32(x: int): (r: nat)
    ensures r < TwoTo32
    ensures 0 <= x < TwoTo32 ==> r == x
    ensures x < 0 && x >= -TwoTo32 ==> r == x + TwoTo32
  {
    x % TwoTo32
  }

  datatype GpuResource = GpuResource(usageState: int, transitioningState: int)

  datatype BarrierFlag = FlagNone | FlagEndOnly
  datatype Barrier = Barrier(before: int, after: int, flag: BarrierFlag)

  /** The `Stats` counters. */
  datatype Stats = Stats(
    drawCalls: int, vaoBinds: int, textureBinds: int, shaderBinds: int,
    barrierCalls: int, fenceCalls: int, createConstantBufferCalls: int)

  datatype Transition = Transition(resource: GpuResource, barrier: Option<Barrier>, stats: Stats)

  /** `TransitionResource`: a barrier only when the state changes; it closes a
      split transition (END_ONLY) when the new state is the one being
      transitioned to. */
  function TransitionResource(res: GpuResource, newState: int, stats: Stats): (t: Transition)
    ensures t.resource.usageState == newState
    ensures newState == res.usageState <==> t.barrier.None?
    ensures newState == res.usageState ==> t.resource == res && t.stats == stats
    ensures newState != res.usageState ==>
      && t.barrier.value.before == res.usageState
      && t.barrier.value.after == newState
      && t.stats == stats.(barrierCalls := stats.barrierCalls + 1)
    ensures newState != res.usageState ==>
      (t.barrier.value.flag == FlagEndOnly <==> newState == res.transitioningState)
    ensures newState != res.usageState && newState == res.transitioningState ==>
      t.resource.transitioningState == NoTransition
    ensures newState != res.transitioningState ==> t.resource.transitioningState == res.transitioningState
  {
    if res.usageState == newState then Transition(res, None, stats)
    else
      var endOnly := newState == res.transitioningState;
      var flag := if endOnly then FlagEndOnly else FlagNone;
      var ts := if endOnly then NoTransition else res.transitioningState;
      Transition(GpuResource(newState, ts), Some(Barrier(res.usageState, newState, flag)),
                 stats.(barrierCalls := stats.barrierCalls + 1))
  }

  /** Applies a sequence of transitions to one resource. */
  function TransitionAll(res: GpuResource, states: seq<int>, stats: Stats): (t: Transition)
    ensures |states| > 0 ==> t.resource.usageState == states[|states| - 1]
    decreases |states|
  {
    if |states| == 0 then Transition(res, None, stats)
    else
      var t := TransitionResource(res, states[0], stats);
      TransitionAll(t.resource, states[1..], t.stats)
  }

  /** Number of entries of `states` that differ from their predecessor,
      starting from `from`. */
  function Changes(from: int, states: seq<int>): nat
    decreases |states|
  {
    if |states| == 0 then 0
    else (if states[0] != from then 1 else 0) + Changes(states[0], states[1..])
  }

  /** Barrier counting: a run of transitions adds one barrier call per actual
      state change and touches no other counter. */
  lemma {:induction false} TransitionAllCountsChanges(res: GpuResource, states: seq<int>, stats: Stats)
    ensures TransitionAll(res, states, stats).stats
         == stats.(barrierCalls := stats.barrierCalls + Changes(res.usageState, states))
    decreases |states|
  {
    if |states| > 0 {
      var t := TransitionResource(res, states[0], stats);
      TransitionAllCountsChanges(t.resource, states[1..], t.stats);
    }
  }

  /** Repeating a transition is free: the second call issues no barrier. */
  lemma TransitionIdempotent(res: GpuResource, s: int, stats: Stats)
    ensures
      var t1 := TransitionResource(res, s, stats);
      var t2 := TransitionResource(t1.resource, s, t1.stats);
      t2.barrier.None? && t2.resource == t1.resource && t2.stats == t1.stats
  {
  }

  // ---- Samplers

  datatype TextureWrap = Repeat | Clamp
  datatype TextureFilter = Linear | Nearest
  datatype SamplerDesc = SamplerDesc(filter: TextureFilter, address: TextureWrap)

  /** `CreateSampler`: the descriptors it writes at consecutive sampler-heap
      slots, in order. */
  function CreateSamplers(): (heap: seq<SamplerDesc>)
    ensures |heap| == 4
  {
    [SamplerDesc(Linear, Repeat), SamplerDesc(Linear, Clamp),
     SamplerDesc(Nearest, Repeat), SamplerDesc(Nearest, Clamp)]
  }

  /** `GetSampler`: slot offset, in descriptor increments, from the heap
      start; the four independent tests of the source, summed. */
  function GetSamplerSlot(wrap: TextureWrap, filter: TextureFilter): (slot: nat)
    ensures slot < 4
    ensures slot % 2 == 1 <==> wrap == Clamp
    ensures slot >= 2 <==> filter == Nearest
  {
    (if wrap == Clamp && filter == Linear then 1 else 0)
    + (if wrap == Clamp && filter == Nearest then 3 else 0)
    + (if wrap == Repeat && filter == Linear then 0 else 0)
    + (if wrap == Repeat && filter == Nearest then 2 else 0)
  }

  /** The slot `GetSampler` picks holds exactly the sampler `CreateSampler`
      wrote for that wrap and filter, and distinct settings get distinct
      slots. */
  lemma SamplerSlotsMatchCreation(wrap: TextureWrap, filter: TextureFilter)
    ensures GetSamplerSlot(wrap, filter) < |CreateSamplers()|
    ensures CreateSamplers()[GetSamplerSlot(wrap, filter)] == SamplerDesc(filter, wrap)
    ensures forall w: TextureWrap, f: TextureFilter ::
      GetSamplerSlot(w, f) == GetSamplerSlot(wrap, filter) ==> w == wrap && f == filter
  {
  }

  // ---- Device state

  /** A render texture as the device sees it. */
  datatype RenderTexture = RenderTexture(
    resource: nat, isCube: bool, isRenderTexture: bool, format: int, width: int, height: int)

  datatype RtvHandle = TargetRtv(resource: nat) | CubeRtv(resource: nat, face: nat) | MsaaRtv | BackBufferRtv(index: nat)
  datatype DsvHandle = TargetDsv(resource: nat) | CubeDsv(resource: nat, face: nat) | MsaaDsv | MainDsv

  datatype Command =
    | ResourceBarrier(barrier: Barrier)
    | SetViewport(width: int, height: int)
    | ClearRenderTargetView(rtv: RtvHandle)
    | ClearDepthStencilView(dsv: DsvHandle)
    | SetRenderTargets(rtv: RtvHandle, dsv: DsvHandle)
    | SetPipelineState(psoHash: nat)
    | DrawIndexed(indexCount: nat, startIndex: nat)

  datatype Device = Device(
    resources: map<nat, GpuResource>,
    currentRenderTarget: Option<nat>,
    currentFormat: int,
    currentRtv: RtvHandle,
    currentDsv: DsvHandle,
    backBuffers: seq<GpuResource>,
    backBufferIndex: nat,
    backBufferWidth: int,
    backBufferHeight: int,
    renderTexture0: Option<RenderTexture>,
    sampleCount: int,
    psoCache: set<nat>,
    frameConstantBuffers: nat,
    stats: Stats)

  /** The device state the source's globals start in. The render-target
      format global has no initialiser, so as a namespace-scope variable it
      starts zeroed, at `DXGI_FORMAT_UNKNOWN`, until `SetRenderTarget`
      writes it. */
  function InitialDevice(backBuffers: seq<GpuResource>): (d: Device)
    ensures d.sampleCount == 1 && d.psoCache == {} && d.currentRenderTarget.None?
    ensures d.currentFormat == FormatUnknown
    ensures d.backBufferWidth == 640 && d.backBufferHeight == 400
  {
    Device(map[], None, FormatUnknown, BackBufferRtv(0), MainDsv, backBuffers, 0, 640, 400,
           None, 1, {}, 0, Stats(0, 0, 0, 0, 0, 0, 0))
  }

  /** The pointers `ClearScreen` dereferences are valid. */
  ghost predicate ClearTargetsValid(d: Device) {
    && d.backBufferIndex < |d.backBuffers|
    && (d.currentRenderTarget.Some? ==> d.currentRenderTarget.value in d.resources)
  }

  /** Moves the resource currently rendered to (the bound texture, or the
      current back buffer) to `state`. */
  function TransitionCurrent(d: Device, state: int): (r: (Device, seq<Command>))
    requires ClearTargetsValid(d)
    ensures ClearTargetsValid(r.0)
    ensures r.0.sampleCount == d.sampleCount && r.0.currentRenderTarget == d.currentRenderTarget
    ensures r.0.backBufferIndex == d.backBufferIndex
    ensures |r.1| <= 1 && forall i :: 0 <= i < |r.1| ==> r.1[i].ResourceBarrier?
  {
    match d.currentRenderTarget
    case Some(id) =>
      var t := TransitionResource(d.resources[id], state, d.stats);
      (d.(resources := d.resources[id := t.resource], stats := t.stats),
       if t.barrier.Some? then [ResourceBarrier(t.barrier.value)] else [])
    case None =>
      var t := TransitionResource(d.backBuffers[d.backBufferIndex], state, d.stats);
      (d.(backBuffers := d.backBuffers[d.backBufferIndex := t.resource], stats := t.stats),
       if t.barrier.Some? then [ResourceBarrier(t.barrier.value)] else [])
  }

  function ViewportSize(d: Device): (int, int) {
    if d.currentRenderTarget.Some? && d.renderTexture0.Some?
    then (d.renderTexture0.value.width, d.renderTexture0.value.height)
    else (d.backBufferWidth, d.backBufferHeight)
  }

  function ClearRtv(d: Device): RtvHandle {
    if d.currentRenderTarget.Some? then d.currentRtv
    else if d.sampleCount > 1 then MsaaRtv
    else BackBufferRtv(d.backBufferIndex)
  }

  function ClearDsv(d: Device): DsvHandle {
    if d.sampleCount > 1 && d.currentRenderTarget.None? then MsaaDsv
    else if d.currentRenderTarget.Some? then d.currentDsv
    else MainDsv
  }

  predicate IsColorClear(c: Command) { c.ClearRenderTargetView? }
  predicate IsDepthClear(c: Command) { c.ClearDepthStencilView? }

  /** `GfxDevice::ClearScreen`. */
  function ClearScreen(d: Device, flags: bv32): (r: (Device, seq<Command>))
    requires ClearTargetsValid(d)
    ensures flags == DontClear ==> r == (d, [])
    ensures flags != DontClear ==>
      ((exists i :: 0 <= i < |r.1| && r.1[i] == ClearRenderTargetView(ClearRtv(d))) <==> flags & ColorBit != 0)
    ensures flags != DontClear ==>
      ((exists i :: 0 <= i < |r.1| && r.1[i] == ClearDepthStencilView(ClearDsv(d))) <==> flags & DepthBit != 0)
    ensures (exists i :: 0 <= i < |r.1| && IsColorClear(r.1[i])) <==> flags != DontClear && flags & ColorBit != 0
    ensures (exists i :: 0 <= i < |r.1| && IsDepthClear(r.1[i])) <==> flags != DontClear && flags & DepthBit != 0
  {
    if flags == DontClear then (d, [])
    else
      var (d1, barriers) := TransitionCurrent(d, StateRenderTarget);
      var (w, h) := ViewportSize(d);
      var rtv := ClearRtv(d);
      var dsv := ClearDsv(d);
      var colorClear := if flags & ColorBit != 0 then [ClearRenderTargetView(rtv)] else [];
      var depthClear := if flags & DepthBit != 0 then [ClearDepthStencilView(dsv)] else [];
      var cmds := barriers + [SetViewport(w, h)] + colorClear + depthClear + [SetRenderTargets(rtv, dsv)];
      assert flags & ColorBit != 0 ==> cmds[|barriers| + 1] == ClearRenderTargetView(rtv);
      assert flags & DepthBit != 0 ==> cmds[|barriers| + 1 + |colorClear|] == ClearDepthStencilView(dsv);
      (d1, cmds)
  }

  /** `CreateRenderer`: only 1..16 samples are taken; anything else keeps
      the previous count. */
  function CreateRenderer(sampleCount: int, samples: int): (r: int)
    ensures 0 < samples < 17 ==> r == samples
    ensures !(0 < samples < 17) ==> r == sampleCount
  {
    if samples > 0 && samples < 17 then samples else sampleCount
  }

  /** A count in 1..16 stays in 1..16 whatever is requested, so from the
      initial single sample every count the device holds is valid. */
  lemma CreateRendererInRange(sampleCount: int, samples: int)
    requires 1 <= sampleCount <= 16
    ensures 1 <= CreateRenderer(sampleCount, samples) <= 16
  {
  }

  /** `ResetFrameStatistics`: every per-frame counter back to zero; shader
      binds are not reset. */
  function ResetFrameStatistics(s: Stats): (r: Stats)
    ensures r.drawCalls == 0 && r.vaoBinds == 0 && r.textureBinds == 0
    ensures r.barrierCalls == 0 && r.fenceCalls == 0 && r.createConstantBufferCalls == 0
    ensures r.shaderBinds == s.shaderBinds
  {
    s.(drawCalls := 0, vaoBinds := 0, textureBinds := 0, barrierCalls := 0, fenceCalls := 0,
       createConstantBufferCalls := 0)
  }

  function IncDrawCalls(s: Stats): (r: Stats)
    ensures r.drawCalls == s.drawCalls + 1
    ensures r.(drawCalls := s.drawCalls) == s
  {
    s.(drawCalls := s.drawCalls + 1)
  }

  /** A reset forgets the draws counted since the previous one. */
  lemma ResetForgetsDraws(s: Stats)
    ensures ResetFrameStatistics(IncDrawCalls(s)) == ResetFrameStatistics(s)
  {
  }

  /** Inputs of `GetPSOHash`. */
  datatype PsoKey = PsoKey(
    vertexFormat: nat, shader: nat, blendMode: nat, depthFunc: nat, cullMode: nat,
    rtvFormat: int, sampleCount: int)

  /** The key `Draw` hashes: MSAA forces the UNORM format, and a bound render
      texture forces one sample. */
  function DrawPsoKey(d: Device, vertexFormat: nat, shader: nat, blendMode: nat, depthFunc: nat, cullMode: nat): PsoKey {
    var rtvFormat := if d.sampleCount > 1 then FormatRgba8Unorm else d.currentFormat;
    PsoKey(vertexFormat, shader, blendMode, depthFunc, cullMode, rtvFormat,
           if d.currentRenderTarget.Some? then 1 else d.sampleCount)
  }

  /** `GfxDevice::Draw`. `hash` is the PSO hash function, whose body is not
      part of this model. Fails when no shader has set up a constant buffer. */
  function Draw(d: Device, vertexFormat: nat, shader: nat, blendMode: nat, depthFunc: nat, cullMode: nat,
                startFace: int, endFace: int, hash: PsoKey -> nat): (r: Checked<(Device, seq<Command>)>)
    ensures d.frameConstantBuffers == 0 <==> r.AssertFailed?
    ensures r.Ok? ==>
      var h := hash(DrawPsoKey(d, vertexFormat, shader, blendMode, depthFunc, cullMode));
      && r.value.0.psoCache == d.psoCache + {h}
      && r.value.0.stats == IncDrawCalls(d.stats)
      && r.value.1 == [SetPipelineState(h), DrawIndexed(ToUint32(endFace * 3 - startFace * 3), ToUint32(startFace * 3))]
  {
    if d.frameConstantBuffers == 0 then AssertFailed("no shader has called Use()")
    else
      var h := hash(DrawPsoKey(d, vertexFormat, shader, blendMode, depthFunc, cullMode));
      var cache := if h !in d.psoCache then d.psoCache + {h} else d.psoCache;
      Ok((d.(psoCache := cache, stats := IncDrawCalls(d.stats)),
          [SetPipelineState(h), DrawIndexed(ToUint32(endFace * 3 - startFace * 3), ToUint32(startFace * 3))]))
  }

  /** A draw before any `SetRenderTarget` hashes the unknown format with
      one sample; once `SetRenderTarget(nullptr)` has run, the same draw
      hashes the sRGB back-buffer format instead. */
  lemma FirstDrawFormat(backBuffers: seq<GpuResource>, vertexFormat: nat, shader: nat, blendMode: nat, depthFunc: nat, cullMode: nat)
    ensures DrawPsoKey(InitialDevice(backBuffers), vertexFormat, shader, blendMode, depthFunc, cullMode).rtvFormat == FormatUnknown
    ensures DrawPsoKey(InitialDevice(backBuffers), vertexFormat, shader, blendMode, depthFunc, cullMode).sampleCount == 1
    ensures SetRenderTarget(InitialDevice(backBuffers), None, 0).Ok?
    ensures DrawPsoKey(SetRenderTarget(InitialDevice(backBuffers), None, 0).value, vertexFormat, shader, blendMode, depthFunc, cullMode).rtvFormat
      == FormatRgba8UnormSrgb
  {
  }

  /** Whether `Draw` had to create a pipeline state. */
  predicate DrawCreatesPso(d: Device, key: PsoKey, hash: PsoKey -> nat) {
    hash(key) !in d.psoCache
  }

  /** PSO caching: a draw creates a PSO only for an uncached hash, and a
      second identical draw finds it cached. */
  lemma DrawCachesPso(d: Device, vf: nat, sh: nat, bm: nat, df: nat, cm: nat, s: int, e: int, hash: PsoKey -> nat)
    requires d.frameConstantBuffers > 0
    ensures
      var key := DrawPsoKey(d, vf, sh, bm, df, cm);
      var d1 := Draw(d, vf, sh, bm, df, cm, s, e, hash).value.0;
      && DrawPsoKey(d1, vf, sh, bm, df, cm) == key
      && !DrawCreatesPso(d1, key, hash)
      && (DrawCreatesPso(d, key, hash) <==> |d1.psoCache| == |d.psoCache| + 1)
  {
  }

  /** Index arithmetic: a face range in bounds draws three indices per face,
      starting at three times the first face. */
  lemma DrawIndexRange(d: Device, vf: nat, sh: nat, bm: nat, df: nat, cm: nat, s: int, e: int, hash: PsoKey -> nat)
    requires d.frameConstantBuffers > 0
    requires 0 <= s <= e && 3 * e < TwoTo32
    ensures Draw(d, vf, sh, bm, df, cm, s, e, hash).value.1[1] == DrawIndexed(3 * (e - s), 3 * s)
  {
  }

  /** `GfxDevice::SetRenderTarget`. */
  function SetRenderTarget(d: Device, target: Option<RenderTexture>, cubeMapFace: nat): (r: Checked<Device>)
    requires target.Some? ==> target.value.resource in d.resources
    ensures (target.Some? && !target.value.isRenderTexture) || cubeMapFace >= 6 <==> r.AssertFailed?
    ensures r.Ok? ==> r.value.currentRenderTarget == (if target.Some? then Some(target.value.resource) else None)
    ensures r.Ok? && target.Some? ==>
      && target.value.resource in r.value.resources
      && r.value.resources[target.value.resource].usageState == StateRenderTarget
    ensures r.Ok? && target.Some? && target.value.isCube ==>
      r.value.currentRtv == CubeRtv(target.value.resource, cubeMapFace)
      && r.value.currentDsv == CubeDsv(target.value.resource, cubeMapFace)
    ensures r.Ok? && target.None? ==> r.value.currentFormat == FormatRgba8UnormSrgb
  {
    if target.Some? && !target.value.isRenderTexture then AssertFailed("target must be render texture")
    else if cubeMapFace >= 6 then AssertFailed("invalid cube map face")
    else match target
      case None => Ok(d.(currentRenderTarget := None, currentFormat := FormatRgba8UnormSrgb))
      case Some(t) =>
        var tr := TransitionResource(d.resources[t.resource], StateRenderTarget, d.stats);
        var rtv := if t.isCube then CubeRtv(t.resource, cubeMapFace) else TargetRtv(t.resource);
        var dsv := if t.isCube then CubeDsv(t.resource, cubeMapFace) else TargetDsv(t.resource);
        Ok(d.(currentRenderTarget := Some(t.resource), currentFormat := t.format,
              currentRtv := rtv, currentDsv := dsv,
              resources := d.resources[t.resource := tr.resource], stats := tr.stats))
  }

  /** Binding the same target again changes nothing: the resource is
      already in the render-target state, so no barrier is issued. Binding
      touches no resource other than the target's. */
  lemma SetRenderTargetIdempotent(d: Device, target: Option<RenderTexture>, cubeMapFace: nat)
    requires target.Some? ==> target.value.resource in d.resources
    ensures
      var r := SetRenderTarget(d, target, cubeMapFace);
      && (r.Ok? ==> SetRenderTarget(r.value, target, cubeMapFace) == r)
      && (r.Ok? ==> r.value.resources.Keys == d.resources.Keys)
      && (r.Ok? ==> forall k :: k in d.resources && (target.None? || k != target.value.resource) ==>
            r.value.resources[k] == d.resources[k])
  {
    var r := SetRenderTarget(d, target, cubeMapFace);
    if r.Ok? && target.Some? {
      var t := target.value;
      var tr := TransitionResource(d.resources[t.resource], StateRenderTarget, d.stats);
      TransitionIdempotent(d.resources[t.resource], StateRenderTarget, d.stats);
      assert r.value.resources[t.resource] == tr.resource;
      assert r.value.resources[t.resource := tr.resource] == r.value.resources;
    }
  }
}

=== FILE: math_util.dfy ===
/** `MathUtil::IsPowerOfTwo` from the scene module: the classic
    "clear the lowest set bit" test on a 32-bit unsigned value. */
module MathUtil {

  /** The source's test, on `unsigned` (32 bits, wrap-around subtraction). */
  predicate IsPowerOfTwo(i: bv32) {
    (i & (i - 1)) == 0
  }

  /** Number of set bits: an independent reference for the bit trick. */
  function PopCount(i: bv32): nat
    decreases i
  {
    if i == 0 then 0 else (if i & 1 == 1 then 1 else 0) + PopCount(i >> 1)
  }

  lemma {:induction false} PopCountZero(i: bv32)
    ensures PopCount(i) == 0 <==> i == 0
    decreases i
  {
    if i != 0 && i & 1 == 0 {
      assert i >> 1 != 0;
      PopCountZero(i >> 1);
    }
  }

  lemma OddStep(i: bv32)
    requires i & 1 == 1
    ensures (i & (i - 1) == 0) <==> (i >> 1 == 0)
  {
  }

  lemma EvenStep(i: bv32)
    requires i != 0 && i & 1 == 0
    ensures (i & (i - 1) == 0) <==> ((i >> 1) & ((i >> 1) - 1) == 0)
  {
  }

  /** The bit trick accepts exactly the values with at most one bit set:
      zero and the 32 powers of two. */
  lemma {:induction false} IsPowerOfTwoCorrect(i: bv32)
    ensures IsPowerOfTwo(i) <==> PopCount(i) <= 1
    decreases i
  {
    if i != 0 {
      var h := i >> 1;
      if i & 1 == 1 {
        OddStep(i);
        PopCountZero(h);
      } else {
        EvenStep(i);
        IsPowerOfTwoCorrect(h);
      }
    }
  }

  /** Zero passes the test although it is not a power of two. */
  lemma ZeroPassesTest()
    ensures IsPowerOfTwo(0) && PopCount(0) == 0
  {
  }
}

=== FILE: mesh_loader.dfy ===
/** `Mesh::Load`: the binary mesh format. The struct reads of the source
    are modelled as little-endian fields whose sizes are parameters
    (`Layout`); vector and vertex contents are kept as their raw bytes.
    Reading past the end of the data leaves fields uninitialised, which the
    model reports as `Undefined` instead of inventing values. Whether an
    allocation of a vector throws `bad_alloc` is a parameter. The vertex
    and face resizes catch it and return `OutOfMemory`; the resize of the
    submesh list and the name buffer do not, and the exception leaves
    `Load` (`Thrown`). */
module MeshLoader {
  import opened Common

  newtype byte = x: int | 0 <= x < 256

  /** Byte sizes of a `Vec3`, a `VertexPTNTC`, a `Face` and a `SubMesh`. */
  datatype Layout = Layout(vec3Size: nat, vertexSize: nat, faceSize: nat, subMeshSize: nat)

  const MagicFirst: byte := 0x61   // 'a'
  const MagicSecond: byte := 0x39  // '9'
  const U16Limit: nat := 0x1_0000

  /** What `VertexBuffer::Generate` was handed. */
  datatype VertexBuffer = VertexBuffer(vertices: seq<seq<byte>>, faces: seq<seq<byte>>)

  /** A submesh; empty byte strings and `None` stand for default-constructed
      fields. */
  datatype SubMesh = SubMesh(aabbMin: seq<byte>, aabbMax: seq<byte>, name: seq<byte>, buffer: Option<VertexBuffer>)

  const DefaultSubMesh: SubMesh := SubMesh([], [], [], None)

  datatype Mesh = Mesh(aabbMin: seq<byte>, aabbMax: seq<byte>, subMeshes: seq<SubMesh>)

  datatype LoadResult = Success | Corrupted | OutOfMemory

  /** The mesh after `Load` and what it returned; `Undefined` when the data
      ran out first; `Thrown` when an uncaught `bad_alloc` left `Load`. */
  datatype LoadOutcome = Done(result: LoadResult, mesh: Mesh) | Undefined | Thrown

  /** `resize( n )` of an empty vector of `size`-byte elements: zero
      elements need no allocation, so only a non-empty one can throw. */
  predicate Resizes(n: nat, size: nat, canAllocate: (nat, nat) -> bool) {
    n == 0 || canAllocate(n, size)
  }

  /** `subMeshes.clear(); subMeshes.resize( count )`: `clear` keeps the
      capacity, so growing back to at most the previous length allocates
      nothing; beyond it, whether the resize throws is the parameter. */
  predicate SubMeshListResizes(m: Mesh, count: nat, layout: Layout, canAllocate: (nat, nat) -> bool) {
    count <= |m.subMeshes| || canAllocate(count, layout.subMeshSize)
  }

  /** The u16 stored little-endian at `data[i..i + 2]`. */
  function U16At(data: seq<byte>, i: nat): (n: nat)
    requires i + 2 <= |data|
    ensures n < U16Limit
  {
    data[i] as nat + 256 * data[i + 1] as nat
  }

  // ---- Reading from the front of the remaining data

  datatype Read<T> = Got(value: T, rest: seq<byte>) | Short

  function Take(data: seq<byte>, n: nat): (r: Read<seq<byte>>)
    ensures r.Got? <==> n <= |data|
    ensures r.Got? ==> |r.value| == n && data == r.value + r.rest
  {
    if n <= |data| then Got(data[..n], data[n..]) else Short
  }

  function TakeU16(data: seq<byte>): (r: Read<nat>)
    ensures r.Got? <==> 2 <= |data|
    ensures r.Got? ==> r.value < U16Limit && data == data[..2] + r.rest
  {
    if 2 <= |data| then Got(data[0] as nat + 256 * data[1] as nat, data[2..]) else Short
  }

  /** `count` consecutive elements of `size` bytes; the source reads them
      with one call, which succeeds exactly when all of them fit. */
  function TakeElements(data: seq<byte>, size: nat, count: nat): (r: Read<seq<seq<byte>>>)
    ensures r.Got? ==> |r.value| == count && forall i :: 0 <= i < count ==> |r.value[i]| == size
    decreases count
  {
    if count == 0 then Got([], data)
    else
      match Take(data, size)
      case Short => Short
      case Got(e, rest) =>
        match TakeElements(rest, size, count - 1)
        case Short => Short
        case Got(es, rest') => Got([e] + es, rest')
  }

  /** Reading the bounds and name of a submesh: the header read, a
      `bad_alloc` from the name buffer, or a short read. */
  datatype HeaderStep = Header(sub: SubMesh, rest: seq<byte>) | NameThrown | HeaderShort

  /** Bounds and name of a submesh: two `Vec3`s, a u16 length, the
      allocation of a buffer one longer than the name, and exactly that
      many name bytes. */
  function ReadHeader(data: seq<byte>, layout: Layout, canAllocate: (nat, nat) -> bool): (r: HeaderStep)
    ensures r.Header? ==> r.sub.buffer.None? && canAllocate(|r.sub.name| + 1, 1)
    ensures r.NameThrown? <==>
      2 * layout.vec3Size + 2 <= |data| && !canAllocate(U16At(data, 2 * layout.vec3Size) + 1, 1)
  {
    match Take(data, layout.vec3Size)
    case Short => HeaderShort
    case Got(lo, d1) =>
      match Take(d1, layout.vec3Size)
      case Short => HeaderShort
      case Got(hi, d2) =>
        match TakeU16(d2)
        case Short => HeaderShort
        case Got(nameLength, d3) =>
          assert d2 == data[2 * layout.vec3Size..];
          if !canAllocate(nameLength + 1, 1) then NameThrown
          else
            match Take(d3, nameLength)
            case Short => HeaderShort
            case Got(name, d4) => Header(SubMesh(lo, hi, name, None), d4)
  }

  datatype ArrayStep = Array(elements: seq<seq<byte>>, rest: seq<byte>) | ArrayOutOfMemory | ArrayShort

  /** A u16 count, the `resize` that may throw, then the elements. */
  function ReadArray(data: seq<byte>, size: nat, canAllocate: (nat, nat) -> bool): (r: ArrayStep)
    ensures r.Array? ==> |r.elements| < U16Limit && Resizes(|r.elements|, size, canAllocate)
    ensures r.Array? ==> forall i :: 0 <= i < |r.elements| ==> |r.elements[i]| == size
  {
    match TakeU16(data)
    case Short => ArrayShort
    case Got(count, d1) =>
      if !Resizes(count, size, canAllocate) then ArrayOutOfMemory
      else
        match TakeElements(d1, size, count)
        case Short => ArrayShort
        case Got(es, d2) => Array(es, d2)
  }

  /** Reading one submesh: the read submesh, or the submesh as far as it was
      filled when a caught allocation failed, or an uncaught `bad_alloc`,
      or a short read. */
  datatype SubStep = One(sub: SubMesh, rest: seq<byte>) | OneOutOfMemory(partial: SubMesh) | OneThrown | OneShort

  function ReadSubMesh(data: seq<byte>, layout: Layout, canAllocate: (nat, nat) -> bool): (r: SubStep)
    ensures r.One? ==> r.sub.buffer.Some?
    ensures r.OneThrown? <==> ReadHeader(data, layout, canAllocate).NameThrown?
  {
    match ReadHeader(data, layout, canAllocate)
    case HeaderShort => OneShort
    case NameThrown => OneThrown
    case Header(named, d4) =>
      match ReadArray(d4, layout.vertexSize, canAllocate)
      case ArrayShort => OneShort
      case ArrayOutOfMemory => OneOutOfMemory(named)
      case Array(vertices, d6) =>
        match ReadArray(d6, layout.faceSize, canAllocate)
        case ArrayShort => OneShort
        case ArrayOutOfMemory => OneOutOfMemory(named)
        case Array(faces, d8) => One(named.(buffer := Some(VertexBuffer(vertices, faces))), d8)
  }

  /** A generated submesh in front of generated ones. */
  function Generated(sub: SubMesh, subs: seq<SubMesh>): (r: seq<SubMesh>)
    requires sub.buffer.Some? && forall i :: 0 <= i < |subs| ==> subs[i].buffer.Some?
    ensures r == [sub] + subs
    ensures |r| == |subs| + 1 && forall i :: 0 <= i < |r| ==> r[i].buffer.Some?
  {
    [sub] + subs
  }

  datatype SubsOutcome = SubsDone(subs: seq<SubMesh>) | SubsOutOfMemory(filled: seq<SubMesh>) | SubsThrown | SubsShort

  function ReadSubMeshes(data: seq<byte>, count: nat, layout: Layout, canAllocate: (nat, nat) -> bool): (r: SubsOutcome)
    ensures r.SubsDone? ==> |r.subs| == count
    ensures r.SubsDone? ==> forall i :: 0 <= i < count ==> r.subs[i].buffer.Some?
    ensures r.SubsOutOfMemory? ==> 1 <= |r.filled| <= count
    decreases count
  {
    if count == 0 then SubsDone([])
    else
      match ReadSubMesh(data, layout, canAllocate)
      case OneShort => SubsShort
      case OneOutOfMemory(partial) => SubsOutOfMemory([partial])
      case OneThrown => SubsThrown
      case One(sub, rest) =>
        match ReadSubMeshes(rest, count - 1, layout, canAllocate)
        case SubsShort => SubsShort
        case SubsThrown => SubsThrown
        case SubsOutOfMemory(filled) => SubsOutOfMemory([sub] + filled)
        case SubsDone(subs) => SubsDone(Generated(sub, subs))
  }

  function Defaults(n: nat): (r: seq<SubMesh>)
    ensures |r| == n && forall i :: 0 <= i < n ==> r[i] == DefaultSubMesh
  {
    if n == 0 then [] else [DefaultSubMesh] + Defaults(n - 1)
  }

  /** `Mesh::Load`. The magic test short-circuits, so a first byte other
      than 'a' is reported as corrupt even when the second is missing. */
  function Load(m: Mesh, data: seq<byte>, layout: Layout, canAllocate: (nat, nat) -> bool): (r: LoadOutcome)
    ensures |data| >= 2 && (data[0] != MagicFirst || data[1] != MagicSecond) ==> r == Done(Corrupted, m)
    ensures r.Done? && r.result == Corrupted ==> r.mesh == m
    ensures r.Done? && r.result != Corrupted ==>
      |data| >= 4 + 2 * layout.vec3Size && data[0] == MagicFirst && data[1] == MagicSecond
      && r.mesh.aabbMin == data[2..2 + layout.vec3Size]
      && r.mesh.aabbMax == data[2 + layout.vec3Size..2 + 2 * layout.vec3Size]
      && |r.mesh.subMeshes| == data[2 + 2 * layout.vec3Size] as nat + 256 * data[3 + 2 * layout.vec3Size] as nat
    ensures r.Done? && r.result == Success ==> forall i :: 0 <= i < |r.mesh.subMeshes| ==> r.mesh.subMeshes[i].buffer.Some?
    ensures r.Thrown? ==>
      && |data| >= 4 + 2 * layout.vec3Size && data[0] == MagicFirst && data[1] == MagicSecond
      && (SubMeshListResizes(m, U16At(data, 2 + 2 * layout.vec3Size), layout, canAllocate) ==>
            U16At(data, 2 + 2 * layout.vec3Size) > 0)
  {
    if |data| == 0 then Undefined
    else if data[0] != MagicFirst then Done(Corrupted, m)
    else if |data| == 1 then Undefined
    else if data[1] != MagicSecond then Done(Corrupted, m)
    else
      var d0 := data[2..];
      match Take(d0, layout.vec3Size)
      case Short => Undefined
      case Got(lo, d1) =>
        match Take(d1, layout.vec3Size)
        case Short => Undefined
        case Got(hi, d2) =>
          match TakeU16(d2)
          case Short => Undefined
          case Got(count, d3) =>
            assert data[2..2 + layout.vec3Size] == lo;
            assert data[2 + layout.vec3Size..2 + 2 * layout.vec3Size] == hi;
            assert data[2 + 2 * layout.vec3Size] == d2[0] && data[3 + 2 * layout.vec3Size] == d2[1];
            if !SubMeshListResizes(m, count, layout, canAllocate) then Thrown
            else Finish(lo, hi, count, ReadSubMeshes(d3, count, layout, canAllocate))
  }

  /** The mesh after the submesh loop: on `bad_alloc` the list was already
      resized to `count`, so the submeshes not reached stay default. */
  function Finish(lo: seq<byte>, hi: seq<byte>, count: nat, subs: SubsOutcome): (r: LoadOutcome)
    requires subs.SubsDone? ==> |subs.subs| == count && forall i :: 0 <= i < count ==> subs.subs[i].buffer.Some?
    requires subs.SubsOutOfMemory? ==> |subs.filled| <= count
    ensures r.Done? ==> r.result != Corrupted && r.mesh.aabbMin == lo && r.mesh.aabbMax == hi && |r.mesh.subMeshes| == count
    ensures r.Done? && r.result == Success ==> forall i :: 0 <= i < count ==> r.mesh.subMeshes[i].buffer.Some?
    ensures r.Thrown? <==> subs.SubsThrown?
  {
    match subs
    case SubsShort => Undefined
    case SubsThrown => Thrown
    case SubsOutOfMemory(filled) => Done(OutOfMemory, Mesh(lo, hi, filled + Defaults(count - |filled|)))
    case SubsDone(subs) => Done(Success, Mesh(lo, hi, subs))
  }

  /** After the magic, bounds and count of a well-formed file, `Load`
      throws if the submesh list cannot be resized, and is otherwise decided
      by the submesh loop. */
  lemma LoadHeaderExact(m: Mesh, f: MeshFile, layout: Layout, trailing: seq<byte>, canAllocate: (nat, nat) -> bool)
    requires Fits(f, layout)
    ensures Load(m, Encode(f, layout) + trailing, layout, canAllocate)
         == if !SubMeshListResizes(m, |f.subMeshes|, layout, canAllocate) then Thrown
            else Finish(f.aabbMin, f.aabbMax, |f.subMeshes|,
                        ReadSubMeshes(EncodeSubMeshes(f.subMeshes, layout) + trailing, |f.subMeshes|, layout, canAllocate))
  {
    var data := Encode(f, layout) + trailing;
    var d3 := EncodeSubMeshes(f.subMeshes, layout) + trailing;
    var d2 := EncodeU16(|f.subMeshes|) + d3;
    var d1 := f.aabbMax + d2;
    assert data == [MagicFirst, MagicSecond] + (f.aabbMin + d1);
    assert data[2..] == f.aabbMin + d1;
    TakeExact(f.aabbMin, d1);
    TakeExact(f.aabbMax, d2);
    TakeU16Exact(|f.subMeshes|, d3);
  }

  // ---- The format, written out

  /** A well-formed mesh file's content. */
  datatype SubMeshFile = SubMeshFile(aabbMin: seq<byte>, aabbMax: seq<byte>, name: seq<byte>,
                                     vertices: seq<seq<byte>>, faces: seq<seq<byte>>)

  datatype MeshFile = MeshFile(aabbMin: seq<byte>, aabbMax: seq<byte>, subMeshes: seq<SubMeshFile>)

  ghost predicate ElementsFit(es: seq<seq<byte>>, size: nat) {
    |es| < U16Limit && forall i :: 0 <= i < |es| ==> |es[i]| == size
  }

  ghost predicate SubMeshFits(s: SubMeshFile, layout: Layout) {
    |s.aabbMin| == layout.vec3Size && |s.aabbMax| == layout.vec3Size && |s.name| < U16Limit
    && ElementsFit(s.vertices, layout.vertexSize) && ElementsFit(s.faces, layout.faceSize)
  }

  ghost predicate Fits(f: MeshFile, layout: Layout) {
    |f.aabbMin| == layout.vec3Size && |f.aabbMax| == layout.vec3Size && |f.subMeshes| < U16Limit
    && forall i :: 0 <= i < |f.subMeshes| ==> SubMeshFits(f.subMeshes[i], layout)
  }

  function EncodeU16(n: nat): (r: seq<byte>)
    requires n < U16Limit
    ensures |r| == 2 && r[0] as nat + 256 * r[1] as nat == n
  {
    [(n % 256) as byte, (n / 256) as byte]
  }

  function Concat(es: seq<seq<byte>>): seq<byte> {
    if |es| == 0 then [] else es[0] + Concat(es[1..])
  }

  function EncodeSubMesh(s: SubMeshFile): seq<byte>
    requires |s.name| < U16Limit && |s.vertices| < U16Limit && |s.faces| < U16Limit
  {
    s.aabbMin + s.aabbMax + EncodeU16(|s.name|) + s.name
      + EncodeU16(|s.vertices|) + Concat(s.vertices) + EncodeU16(|s.faces|) + Concat(s.faces)
  }

  function EncodeSubMeshes(subs: seq<SubMeshFile>, layout: Layout): seq<byte>
    requires forall i :: 0 <= i < |subs| ==> SubMeshFits(subs[i], layout)
  {
    if |subs| == 0 then []
    else
      assert SubMeshFits(subs[0], layout);
      EncodeSubMesh(subs[0]) + EncodeSubMeshes(subs[1..], layout)
  }

  /** The bytes of a mesh file, in the order `Load` consumes them. */
  function Encode(f: MeshFile, layout: Layout): seq<byte>
    requires Fits(f, layout)
  {
    [MagicFirst, MagicSecond] + f.aabbMin + f.aabbMax + EncodeU16(|f.subMeshes|) + EncodeSubMeshes(f.subMeshes, layout)
  }

  function Decoded(s: SubMeshFile): SubMesh {
    SubMesh(s.aabbMin, s.aabbMax, s.name, Some(VertexBuffer(s.vertices, s.faces)))
  }

  function DecodedAll(subs: seq<SubMeshFile>): (r: seq<SubMesh>)
    ensures |r| == |subs| && forall i :: 0 <= i < |subs| ==> r[i] == Decoded(subs[i])
  {
    if |subs| == 0 then [] else [Decoded(subs[0])] + DecodedAll(subs[1..])
  }

  // ---- Round trip

  lemma TakeExact(a: seq<byte>, rest: seq<byte>)
    ensures Take(a + rest, |a|) == Got(a, rest)
  {
    assert (a + rest)[..|a|] == a;
    assert (a + rest)[|a|..] == rest;
  }

  lemma TakeU16Exact(n: nat, rest: seq<byte>)
    requires n < U16Limit
    ensures TakeU16(EncodeU16(n) + rest) == Got(n, rest)
  {
    assert (EncodeU16(n) + rest)[2..] == rest;
  }

  lemma {:induction false} TakeElementsExact(es: seq<seq<byte>>, size: nat, rest: seq<byte>)
    requires forall i :: 0 <= i < |es| ==> |es[i]| == size
    ensures TakeElements(Concat(es) + rest, size, |es|) == Got(es, rest)
  {
    if |es| > 0 {
      assert Concat(es) + rest == es[0] + (Concat(es[1..]) + rest);
      TakeExact(es[0], Concat(es[1..]) + rest);
      TakeElementsExact(es[1..], size, rest);
      assert [es[0]] + es[1..] == es;
    }
  }

  lemma ReadHeaderExact(s: SubMeshFile, layout: Layout, rest: seq<byte>, canAllocate: (nat, nat) -> bool)
    requires |s.aabbMin| == layout.vec3Size && |s.aabbMax| == layout.vec3Size && |s.name| < U16Limit
    ensures ReadHeader(s.aabbMin + s.aabbMax + EncodeU16(|s.name|) + s.name + rest, layout, canAllocate)
         == if canAllocate(|s.name| + 1, 1) then Header(SubMesh(s.aabbMin, s.aabbMax, s.name, None), rest) else NameThrown
  {
    var d3 := s.name + rest;
    var d2 := EncodeU16(|s.name|) + d3;
    var d1 := s.aabbMax + d2;
    assert s.aabbMin + s.aabbMax + EncodeU16(|s.name|) + s.name + rest == s.aabbMin + d1;
    TakeExact(s.aabbMin, d1);
    TakeExact(s.aabbMax, d2);
    TakeU16Exact(|s.name|, d3);
    TakeExact(s.name, rest);
  }

  lemma ReadArrayExact(es: seq<seq<byte>>, size: nat, rest: seq<byte>, canAllocate: (nat, nat) -> bool)
    requires ElementsFit(es, size) && Resizes(|es|, size, canAllocate)
    ensures ReadArray(EncodeU16(|es|) + Concat(es) + rest, size, canAllocate) == Array(es, rest)
  {
    assert EncodeU16(|es|) + Concat(es) + rest == EncodeU16(|es|) + (Concat(es) + rest);
    TakeU16Exact(|es|, Concat(es) + rest);
    TakeElementsExact(es, size, rest);
  }

  lemma ReadSubMeshExact(s: SubMeshFile, layout: Layout, rest: seq<byte>, canAllocate: (nat, nat) -> bool)
    requires SubMeshFits(s, layout)
    requires Allocates(s, layout, canAllocate)
    ensures ReadSubMesh(EncodeSubMesh(s) + rest, layout, canAllocate) == One(Decoded(s), rest)
  {
    var d6 := EncodeU16(|s.faces|) + Concat(s.faces) + rest;
    var d4 := EncodeU16(|s.vertices|) + Concat(s.vertices) + d6;
    assert EncodeSubMesh(s) + rest == s.aabbMin + s.aabbMax + EncodeU16(|s.name|) + s.name + d4;
    ReadHeaderExact(s, layout, d4, canAllocate);
    ReadArrayExact(s.vertices, layout.vertexSize, d6, canAllocate);
    ReadArrayExact(s.faces, layout.faceSize, rest, canAllocate);
  }

  lemma {:induction false} ReadSubMeshesExact(subs: seq<SubMeshFile>, layout: Layout, rest: seq<byte>, canAllocate: (nat, nat) -> bool)
    requires forall i :: 0 <= i < |subs| ==> SubMeshFits(subs[i], layout)
    requires forall n: nat, size: nat :: canAllocate(n, size)
    ensures ReadSubMeshes(EncodeSubMeshes(subs, layout) + rest, |subs|, layout, canAllocate) == SubsDone(DecodedAll(subs))
  {
    if |subs| > 0 {
      var tail := EncodeSubMeshes(subs[1..], layout) + rest;
      assert EncodeSubMeshes(subs, layout) + rest == EncodeSubMesh(subs[0]) + tail;
      ReadSubMeshExact(subs[0], layout, tail, canAllocate);
      ReadSubMeshesExact(subs[1..], layout, rest, canAllocate);
    }
  }

  /** Loading the bytes of a well-formed mesh file succeeds, whatever the
      mesh held before and whatever follows the file, and yields exactly
      the file's bounds and submeshes, the previous submesh list being
      replaced. */
  lemma LoadEncoded(m: Mesh, f: MeshFile, layout: Layout, trailing: seq<byte>, canAllocate: (nat, nat) -> bool)
    requires Fits(f, layout)
    requires forall n: nat, size: nat :: canAllocate(n, size)
    ensures Load(m, Encode(f, layout) + trailing, layout, canAllocate)
         == Done(Success, Mesh(f.aabbMin, f.aabbMax, DecodedAll(f.subMeshes)))
  {
    LoadHeaderExact(m, f, layout, trailing, canAllocate);
    ReadSubMeshesExact(f.subMeshes, layout, trailing, canAllocate);
  }

  lemma ReadSubMeshNoMemory(s: SubMeshFile, layout: Layout, rest: seq<byte>, canAllocate: (nat, nat) -> bool)
    requires SubMeshFits(s, layout)
    requires canAllocate(|s.name| + 1, 1) && !Resizes(|s.vertices|, layout.vertexSize, canAllocate)
    ensures ReadSubMesh(EncodeSubMesh(s) + rest, layout, canAllocate)
         == OneOutOfMemory(SubMesh(s.aabbMin, s.aabbMax, s.name, None))
  {
    var d4 := EncodeU16(|s.vertices|) + (Concat(s.vertices) + EncodeU16(|s.faces|) + Concat(s.faces) + rest);
    assert EncodeSubMesh(s) + rest == s.aabbMin + s.aabbMax + EncodeU16(|s.name|) + s.name + d4;
    ReadHeaderExact(s, layout, d4, canAllocate);
    TakeU16Exact(|s.vertices|, Concat(s.vertices) + EncodeU16(|s.faces|) + Concat(s.faces) + rest);
  }

  lemma ReadSubMeshesNoMemory(subs: seq<SubMeshFile>, layout: Layout, rest: seq<byte>, canAllocate: (nat, nat) -> bool)
    requires |subs| > 0 && forall i :: 0 <= i < |subs| ==> SubMeshFits(subs[i], layout)
    requires canAllocate(|subs[0].name| + 1, 1) && !Resizes(|subs[0].vertices|, layout.vertexSize, canAllocate)
    ensures ReadSubMeshes(EncodeSubMeshes(subs, layout) + rest, |subs|, layout, canAllocate)
         == SubsOutOfMemory([SubMesh(subs[0].aabbMin, subs[0].aabbMax, subs[0].name, None)])
  {
    var tail := EncodeSubMeshes(subs[1..], layout) + rest;
    EncodeSubMeshesCons(subs, layout, rest);
    ReadSubMeshNoMemory(subs[0], layout, tail, canAllocate);
    ReadSubMeshesFirstNoMemory(EncodeSubMesh(subs[0]) + tail, |subs|, layout, canAllocate,
                               SubMesh(subs[0].aabbMin, subs[0].aabbMax, subs[0].name, None));
  }

  /** The encoding of a non-empty list is its first submesh's encoding
      followed by the rest's. */
  lemma EncodeSubMeshesCons(subs: seq<SubMeshFile>, layout: Layout, rest: seq<byte>)
    requires |subs| > 0 && forall i :: 0 <= i < |subs| ==> SubMeshFits(subs[i], layout)
    ensures SubMeshFits(subs[0], layout)
    ensures EncodeSubMeshes(subs, layout) + rest == EncodeSubMesh(subs[0]) + (EncodeSubMeshes(subs[1..], layout) + rest)
  {
    assert SubMeshFits(subs[0], layout);
  }

  lemma ReadSubMeshesFirstNoMemory(data: seq<byte>, count: nat, layout: Layout, canAllocate: (nat, nat) -> bool, partial: SubMesh)
    requires count > 0 && ReadSubMesh(data, layout, canAllocate) == OneOutOfMemory(partial)
    ensures ReadSubMeshes(data, count, layout, canAllocate) == SubsOutOfMemory([partial])
  {
  }

  /** A failed vertex allocation is never reported as a shorter success:
      when the submesh list and the first name buffer are allocated but the
      first vertex resize throws, the file loads as OutOfMemory; the first
      submesh keeps the bounds and name already read and has no vertex
      buffer, and the list still has the announced length. */
  lemma AllocationFailureIsOutOfMemory(m: Mesh, f: MeshFile, layout: Layout, trailing: seq<byte>, canAllocate: (nat, nat) -> bool)
    requires Fits(f, layout) && |f.subMeshes| > 0
    requires SubMeshListResizes(m, |f.subMeshes|, layout, canAllocate)
    requires canAllocate(|f.subMeshes[0].name| + 1, 1)
    requires !Resizes(|f.subMeshes[0].vertices|, layout.vertexSize, canAllocate)
    ensures
      var s := f.subMeshes[0];
      Load(m, Encode(f, layout) + trailing, layout, canAllocate)
        == Done(OutOfMemory, Mesh(f.aabbMin, f.aabbMax,
                                  [SubMesh(s.aabbMin, s.aabbMax, s.name, None)] + Defaults(|f.subMeshes| - 1)))
  {
    var s := f.subMeshes[0];
    var filled := [SubMesh(s.aabbMin, s.aabbMax, s.name, None)];
    LoadHeaderExact(m, f, layout, trailing, canAllocate);
    ReadSubMeshesNoMemory(f.subMeshes, layout, trailing, canAllocate);
    FinishOutOfMemory(f.aabbMin, f.aabbMax, |f.subMeshes|, filled);
  }

  /** The mesh `Finish` leaves when the loop ran out of memory. */
  lemma FinishOutOfMemory(lo: seq<byte>, hi: seq<byte>, count: nat, filled: seq<SubMesh>)
    requires |filled| <= count
    ensures Finish(lo, hi, count, SubsOutOfMemory(filled)) == Done(OutOfMemory, Mesh(lo, hi, filled + Defaults(count - |filled|)))
  {
  }

  // ---- Which allocations decide the result

  /** Every allocation of a submesh succeeds: its name buffer and both
      `resize` calls. */
  predicate Allocates(s: SubMeshFile, layout: Layout, canAllocate: (nat, nat) -> bool) {
    && canAllocate(|s.name| + 1, 1)
    && Resizes(|s.vertices|, layout.vertexSize, canAllocate)
    && Resizes(|s.faces|, layout.faceSize, canAllocate)
  }

  /** The first submesh with a failing allocation fails at its name
      buffer, whose `bad_alloc` is not caught. */
  predicate NameFailsFirst(subs: seq<SubMeshFile>, layout: Layout, canAllocate: (nat, nat) -> bool)
    decreases |subs|
  {
    && |subs| > 0
    && if !Allocates(subs[0], layout, canAllocate) then !canAllocate(|subs[0].name| + 1, 1)
       else NameFailsFirst(subs[1..], layout, canAllocate)
  }

  ghost predicate AllAllocate(subs: seq<SubMeshFile>, layout: Layout, canAllocate: (nat, nat) -> bool) {
    forall i :: 0 <= i < |subs| ==> Allocates(subs[i], layout, canAllocate)
  }

  /** A failed face allocation stops the submesh after its name, like a
      failed vertex allocation. */
  lemma ReadSubMeshFaceNoMemory(s: SubMeshFile, layout: Layout, rest: seq<byte>, canAllocate: (nat, nat) -> bool)
    requires SubMeshFits(s, layout)
    requires canAllocate(|s.name| + 1, 1) && Resizes(|s.vertices|, layout.vertexSize, canAllocate)
    requires !Resizes(|s.faces|, layout.faceSize, canAllocate)
    ensures ReadSubMesh(EncodeSubMesh(s) + rest, layout, canAllocate)
         == OneOutOfMemory(SubMesh(s.aabbMin, s.aabbMax, s.name, None))
  {
    var d6 := EncodeU16(|s.faces|) + (Concat(s.faces) + rest);
    var d4 := EncodeU16(|s.vertices|) + Concat(s.vertices) + d6;
    assert EncodeSubMesh(s) + rest == s.aabbMin + s.aabbMax + EncodeU16(|s.name|) + s.name + d4;
    ReadHeaderExact(s, layout, d4, canAllocate);
    ReadArrayExact(s.vertices, layout.vertexSize, d6, canAllocate);
    TakeU16Exact(|s.faces|, Concat(s.faces) + rest);
  }

  /** A failed name allocation throws out of the submesh. */
  lemma ReadSubMeshNameThrows(s: SubMeshFile, layout: Layout, rest: seq<byte>, canAllocate: (nat, nat) -> bool)
    requires SubMeshFits(s, layout)
    requires !canAllocate(|s.name| + 1, 1)
    ensures ReadSubMesh(EncodeSubMesh(s) + rest, layout, canAllocate) == OneThrown
  {
    var d4 := EncodeU16(|s.vertices|) + Concat(s.vertices) + EncodeU16(|s.faces|) + Concat(s.faces) + rest;
    assert EncodeSubMesh(s) + rest == s.aabbMin + s.aabbMax + EncodeU16(|s.name|) + s.name + d4;
    ReadHeaderExact(s, layout, d4, canAllocate);
  }

  /** One encoded submesh reads back in full exactly when all of its
      allocations succeed. Otherwise a failed name buffer throws, and a
      failed resize ends in OutOfMemory. */
  lemma ReadSubMeshOutcome(s: SubMeshFile, layout: Layout, rest: seq<byte>, canAllocate: (nat, nat) -> bool)
    requires SubMeshFits(s, layout)
    ensures Allocates(s, layout, canAllocate) ==>
      ReadSubMesh(EncodeSubMesh(s) + rest, layout, canAllocate) == One(Decoded(s), rest)
    ensures !canAllocate(|s.name| + 1, 1) ==>
      ReadSubMesh(EncodeSubMesh(s) + rest, layout, canAllocate) == OneThrown
    ensures canAllocate(|s.name| + 1, 1) && !Allocates(s, layout, canAllocate) ==>
      ReadSubMesh(EncodeSubMesh(s) + rest, layout, canAllocate).OneOutOfMemory?
  {
    if !canAllocate(|s.name| + 1, 1) {
      ReadSubMeshNameThrows(s, layout, rest, canAllocate);
    } else if !Resizes(|s.vertices|, layout.vertexSize, canAllocate) {
      ReadSubMeshNoMemory(s, layout, rest, canAllocate);
    } else if !Resizes(|s.faces|, layout.faceSize, canAllocate) {
      ReadSubMeshFaceNoMemory(s, layout, rest, canAllocate);
    } else {
      ReadSubMeshExact(s, layout, rest, canAllocate);
    }
  }

  /** One loop step after a fully read submesh: the loop's outcome is the
      rest of the loop's, with that submesh in front. */
  lemma ReadSubMeshesCons(data: seq<byte>, count: nat, layout: Layout, canAllocate: (nat, nat) -> bool, x: SubMesh, tail: seq<byte>)
    requires count > 0 && ReadSubMesh(data, layout, canAllocate) == One(x, tail)
    ensures var r := ReadSubMeshes(data, count, layout, canAllocate);
      var rt := ReadSubMeshes(tail, count - 1, layout, canAllocate);
      && (r.SubsDone? <==> rt.SubsDone?)
      && (rt.SubsDone? ==> r.subs == [x] + rt.subs)
      && (r.SubsThrown? <==> rt.SubsThrown?)
      && (r.SubsShort? <==> rt.SubsShort?)
  {
  }

  lemma ReadSubMeshesStopsOnNoMemory(data: seq<byte>, count: nat, layout: Layout, canAllocate: (nat, nat) -> bool)
    requires count > 0 && ReadSubMesh(data, layout, canAllocate).OneOutOfMemory?
    ensures ReadSubMeshes(data, count, layout, canAllocate).SubsOutOfMemory?
  {
  }

  lemma AllAllocateCons(subs: seq<SubMeshFile>, layout: Layout, canAllocate: (nat, nat) -> bool)
    requires |subs| > 0
    ensures AllAllocate(subs, layout, canAllocate)
        <==> Allocates(subs[0], layout, canAllocate) && AllAllocate(subs[1..], layout, canAllocate)
  {
    forall i | 0 <= i < |subs[1..]|
      ensures subs[1..][i] == subs[i + 1]
    {
    }
  }

  /** The submesh loop over an encoded list completes iff every allocation
      succeeds. Otherwise the first failing submesh decides: a failed name
      buffer throws out of the loop, and a failed vertex or face resize
      ends it in OutOfMemory. It never ends in a short read. */
  lemma {:induction false} ReadSubMeshesOutcome(subs: seq<SubMeshFile>, layout: Layout, rest: seq<byte>, canAllocate: (nat, nat) -> bool)
    requires forall i :: 0 <= i < |subs| ==> SubMeshFits(subs[i], layout)
    ensures var r := ReadSubMeshes(EncodeSubMeshes(subs, layout) + rest, |subs|, layout, canAllocate);
      && (r.SubsDone? <==> AllAllocate(subs, layout, canAllocate))
      && (r.SubsDone? ==> r.subs == DecodedAll(subs))
      && (r.SubsThrown? <==> NameFailsFirst(subs, layout, canAllocate))
      && !r.SubsShort?
  {
    if |subs| > 0 {
      var tail := EncodeSubMeshes(subs[1..], layout) + rest;
      var data := EncodeSubMesh(subs[0]) + tail;
      assert SubMeshFits(subs[0], layout);
      assert EncodeSubMeshes(subs, layout) + rest == data;
      AllAllocateCons(subs, layout, canAllocate);
      ReadSubMeshOutcome(subs[0], layout, tail, canAllocate);
      if Allocates(subs[0], layout, canAllocate) {
        ReadSubMeshesOutcome(subs[1..], layout, rest, canAllocate);
        ReadSubMeshesCons(data, |subs|, layout, canAllocate, Decoded(subs[0]), tail);
      } else if canAllocate(|subs[0].name| + 1, 1) {
        ReadSubMeshesStopsOnNoMemory(data, |subs|, layout, canAllocate);
      }
    }
  }

  /** `Load` of a well-formed file throws exactly when the submesh list
      cannot grow to the announced count, or when the first submesh with a
      failing allocation fails at its name buffer. Otherwise it returns
      Success iff every allocation of every submesh succeeds, and
      OutOfMemory with the file's bounds and the announced submesh count
      if not, never a truncated Success. */
  lemma LoadSuccessIffAllocates(m: Mesh, f: MeshFile, layout: Layout, trailing: seq<byte>, canAllocate: (nat, nat) -> bool)
    requires Fits(f, layout)
    ensures var r := Load(m, Encode(f, layout) + trailing, layout, canAllocate);
      && (r.Thrown? <==>
            !SubMeshListResizes(m, |f.subMeshes|, layout, canAllocate) || NameFailsFirst(f.subMeshes, layout, canAllocate))
      && (r.Done? <==> !r.Thrown?)
      && (r.Done? ==>
            && (r.result == Success <==> AllAllocate(f.subMeshes, layout, canAllocate))
            && (r.result != Success ==> r.result == OutOfMemory)
            && r.mesh.aabbMin == f.aabbMin && r.mesh.aabbMax == f.aabbMax
            && |r.mesh.subMeshes| == |f.subMeshes|)
  {
    LoadHeaderExact(m, f, layout, trailing, canAllocate);
    ReadSubMeshesOutcome(f.subMeshes, layout, trailing, canAllocate);
  }

  /** When no allocation can succeed, a file with a submesh never returns
      at all: the name buffer of the first submesh, or already the submesh
      list, throws `bad_alloc` out of `Load`. */
  lemma NoAllocationThrows(m: Mesh, f: MeshFile, layout: Layout, trailing: seq<byte>, canAllocate: (nat, nat) -> bool)
    requires Fits(f, layout) && |f.subMeshes| > 0
    requires forall n: nat, size: nat :: !canAllocate(n, size)
    ensures Load(m, Encode(f, layout) + trailing, layout, canAllocate) == Thrown
  {
    LoadSuccessIffAllocates(m, f, layout, trailing, canAllocate);
    assert !Allocates(f.subMeshes[0], layout, canAllocate);
    assert NameFailsFirst(f.subMeshes, layout, canAllocate);
  }
}

=== FILE: modify_transform.dfy ===
/** The editor's `ModifyTransformCommand`: an undoable change of one game
    object's position, rotation and scale. The scene is reduced to the
    transform component of each object, indexed as the editor indexes
    game objects. */
module ModifyTransform {
  import opened Common
  import opened SceneModel

  /** Each game object's transform component, if it has one. */
  type World = seq<Option<Transform>>

  /** The command: target index and new values fixed at construction, and
      the values captured by the last `Execute`. Before any `Execute` the
      captured values are uninitialised members, modelled as `None`. */
  datatype Command = Command(
    index: int,
    position: Vec3,
    rotation: Quaternion,
    scale: real,
    saved: Option<Transform>)

  /** Result of a command step: `OutOfRange` is the `std::out_of_range`
      that `SceneWidget::GetGameObject` (`vector::at`) throws. */
  datatype Outcome<T> = Done(value: T) | OutOfRange(index: int)

  function NewCommand(index: int, position: Vec3, rotation: Quaternion, scale: real): (c: Command)
    ensures c.index == index && c.position == position && c.rotation == rotation && c.scale == scale
    ensures c.saved.None?
  {
    Command(index, position, rotation, scale, None)
  }

  function Target(c: Command): Transform {
    Transform(c.position, c.rotation, c.scale)
  }

  predicate InRange(c: Command, w: World) {
    0 <= c.index < |w|
  }

  /** `Execute`: when the object has a transform, capture its values and
      write the command's. An index outside the object list throws. */
  function Execute(c: Command, w: World): (r: Outcome<(Command, World)>)
    ensures r.OutOfRange? <==> !InRange(c, w)
    ensures r.OutOfRange? ==> r.index == c.index
    ensures r.Done? ==>
      && |r.value.1| == |w|
      && r.value.0.index == c.index && r.value.0.position == c.position
      && r.value.0.rotation == c.rotation && r.value.0.scale == c.scale
      && (w[c.index].Some? ==> r.value.1[c.index] == Some(Target(c)) && r.value.0.saved == w[c.index])
      && (w[c.index].None? ==> r.value == (c, w))
      && (forall i :: 0 <= i < |w| && i != c.index ==> r.value.1[i] == w[i])
  {
    if !InRange(c, w) then OutOfRange(c.index)
    else if w[c.index].None? then Done((c, w))
    else Done((c.(saved := w[c.index]), w[c.index := Some(Target(c))]))
  }

  /** `Undo`: when the object has a transform, write back the captured
      values; `None` when nothing was captured yet, since the values
      written would be uninitialised. An index outside the object list
      throws, as in `Execute`. */
  function Undo(c: Command, w: World): (r: Outcome<Option<World>>)
    ensures r.OutOfRange? <==> !InRange(c, w)
    ensures r.OutOfRange? ==> r.index == c.index
    ensures InRange(c, w) && w[c.index].None? ==> r == Done(Some(w))
    ensures InRange(c, w) && w[c.index].Some? && c.saved.Some? ==> r == Done(Some(w[c.index := c.saved]))
    ensures InRange(c, w) && w[c.index].Some? && c.saved.None? ==> r == Done(None)
  {
    if !InRange(c, w) then OutOfRange(c.index)
    else if w[c.index].None? then Done(Some(w))
    else if c.saved.None? then Done(None)
    else Done(Some(w[c.index := c.saved]))
  }

  /** `Execute` then `Undo` gives back the world as it was. */
  lemma ExecuteThenUndoRestores(c: Command, w: World)
    requires InRange(c, w)
    ensures Execute(c, w).Done?
    ensures Undo(Execute(c, w).value.0, Execute(c, w).value.1) == Done(Some(w))
  {
    var (c1, w1) := Execute(c, w).value;
    if w[c.index].Some? {
      assert w1[c.index := w[c.index]] == w;
    }
  }

  /** Only the most recent `Execute` is remembered: after two, `Undo`
      leaves the command's own values in place, not the originals. */
  lemma DoubleExecuteThenUndo(c: Command, w: World)
    requires InRange(c, w) && w[c.index].Some?
    ensures
      var (c1, w1) := Execute(c, w).value;
      var (c2, w2) := Execute(c1, w1).value;
      Undo(c2, w2) == Done(Some(w1)) && w1[c.index] == Some(Target(c))
  {
    var (c1, w1) := Execute(c, w).value;
    var (c2, w2) := Execute(c1, w1).value;
    assert w2[c.index := c2.saved] == w1;
  }

  /** When objects are removed while the command waits on the undo stack
      and its index no longer names an object, `Undo` throws. */
  lemma UndoAfterRemovalThrows(c: Command, w: World, shrunk: World)
    requires InRange(c, w) && |shrunk| <= c.index
    ensures Undo(Execute(c, w).value.0, shrunk) == OutOfRange(c.index)
  {
  }
}

=== FILE: scene_bounds.dfy ===
/** The scene's world-space bounding box (`Scene::GenerateAABB`) and the
    projections the shadow camera is given for spot and directional lights.
    Matrix work is a parameter: `xf` is whatever `TransformPoint` with an
    object's local matrix computes. */
module SceneBounds {
  import opened Common
  import opened SceneModel

  /** The initial extreme: `99999999.0f` is not representable in binary32
      and rounds to 100000000. */
  const Sentinel: real := 100000000.0

  datatype Box = Box(min: Vec3, max: Vec3)

  /** Coordinate `a` (0 = x, 1 = y, 2 = z). */
  function Axis(v: Vec3, a: nat): real
    requires a < 3
  {
    if a == 0 then v.x else if a == 1 then v.y else v.z
  }

  /** Only objects with both a mesh renderer and a transform grow the box. */
  predicate Contributes(o: GameObject) {
    o.meshRenderer.Some? && o.transform.Some?
  }

  /** Local box of a mesh renderer; the unit cube of half-size 1 when it
      has no mesh. */
  function LocalMin(o: GameObject): Vec3
    requires Contributes(o)
  {
    if o.meshRenderer.value.mesh.Some? then o.meshRenderer.value.mesh.value.aabbMin else Vec3(-1.0, -1.0, -1.0)
  }

  function LocalMax(o: GameObject): Vec3
    requires Contributes(o)
  {
    if o.meshRenderer.value.mesh.Some? then o.meshRenderer.value.mesh.value.aabbMax else Vec3(1.0, 1.0, 1.0)
  }

  /** Only the two transformed extreme corners are folded in, not all
      eight corners of the transformed box. */
  function WorldMin(o: GameObject, xf: (Transform, Vec3) -> Vec3): Vec3
    requires Contributes(o)
  {
    xf(o.transform.value, LocalMin(o))
  }

  function WorldMax(o: GameObject, xf: (Transform, Vec3) -> Vec3): Vec3
    requires Contributes(o)
  {
    xf(o.transform.value, LocalMax(o))
  }

  predicate ContributorAt(objs: Slots, i: int) {
    0 <= i < |objs| && objs[i].Some? && Contributes(objs[i].value)
  }

  const EmptyBox: Box := Box(Vec3(Sentinel, Sentinel, Sentinel), Vec3(-Sentinel, -Sentinel, -Sentinel))

  /** One iteration of the loop: lower each min coordinate the object's
      transformed min undercuts, raise each max coordinate its transformed
      max exceeds. */
  function Grow(b: Box, o: GameObject, xf: (Transform, Vec3) -> Vec3): (r: Box)
    ensures !Contributes(o) ==> r == b
    ensures Contributes(o) ==> forall a: nat :: a < 3 ==>
      && Axis(r.min, a) == Min(Axis(WorldMin(o, xf), a), Axis(b.min, a))
      && Axis(r.max, a) == Max(Axis(WorldMax(o, xf), a), Axis(b.max, a))
  {
    if !Contributes(o) then b
    else
      var lo := WorldMin(o, xf);
      var hi := WorldMax(o, xf);
      Box(Vec3(Min(lo.x, b.min.x), Min(lo.y, b.min.y), Min(lo.z, b.min.z)),
          Vec3(Max(hi.x, b.max.x), Max(hi.y, b.max.y), Max(hi.z, b.max.z)))
  }

  /** `Scene::GenerateAABB`: each min coordinate is the least of the
      sentinel and the contributors' transformed min coordinates, each max
      coordinate the greatest of minus the sentinel and their transformed
      max coordinates. */
  function GenerateAABB(objs: Slots, xf: (Transform, Vec3) -> Vec3): (b: Box)
    ensures forall a: nat :: a < 3 ==> Axis(b.min, a) <= Sentinel && Axis(b.max, a) >= -Sentinel
    ensures forall i, a: nat :: ContributorAt(objs, i) && a < 3 ==>
      Axis(b.min, a) <= Axis(WorldMin(objs[i].value, xf), a) && Axis(b.max, a) >= Axis(WorldMax(objs[i].value, xf), a)
    ensures forall a: nat :: a < 3 ==>
      Axis(b.min, a) == Sentinel || exists i :: ContributorAt(objs, i) && Axis(b.min, a) == Axis(WorldMin(objs[i].value, xf), a)
    ensures forall a: nat :: a < 3 ==>
      Axis(b.max, a) == -Sentinel || exists i :: ContributorAt(objs, i) && Axis(b.max, a) == Axis(WorldMax(objs[i].value, xf), a)
  {
    if |objs| == 0 then EmptyBox
    else
      var n := |objs| - 1;
      var prev := GenerateAABB(objs[..n], xf);
      assert forall i :: ContributorAt(objs[..n], i) ==> ContributorAt(objs, i) && objs[..n][i] == objs[i];
      assert forall i :: ContributorAt(objs, i) ==> i == n || ContributorAt(objs[..n], i);
      match objs[n]
      case None => prev
      case Some(o) => Grow(prev, o, xf)
  }

  /** An empty scene, or one with no contributor, keeps the sentinels. */
  lemma {:induction false} NoContributorsKeepsSentinels(objs: Slots, xf: (Transform, Vec3) -> Vec3)
    requires forall i :: 0 <= i < |objs| && objs[i].Some? ==> !Contributes(objs[i].value)
    ensures GenerateAABB(objs, xf) == EmptyBox
  {
    if |objs| > 0 {
      NoContributorsKeepsSentinels(objs[..|objs| - 1], xf);
    }
  }

  /** Appending a null slot or an object lacking a mesh renderer or a
      transform leaves the box unchanged. */
  lemma AppendNonContributor(objs: Slots, x: Option<GameObject>, xf: (Transform, Vec3) -> Vec3)
    requires x.None? || !Contributes(x.value)
    ensures GenerateAABB(objs + [x], xf) == GenerateAABB(objs, xf)
  {
    assert (objs + [x])[..|objs|] == objs;
  }

  // ---- Shadow camera projections

  datatype Projection =
    | Perspective(fovDegrees: real, aspect: real, near: real, far: real)
    | Orthographic(left: real, right: real, bottom: real, top: real, near: real, far: real)

  /** Where a shadow camera looks from, looks at, and its up vector. */
  datatype LookAt = LookAt(eye: Vec3, target: Vec3, up: Vec3)

  function Add(a: Vec3, b: Vec3): Vec3 { Vec3(a.x + b.x, a.y + b.y, a.z + b.z) }
  function Scale(v: Vec3, s: real): Vec3 { Vec3(v.x * s, v.y * s, v.z * s) }
  function Dot(a: Vec3, b: Vec3): real { a.x * b.x + a.y * b.y + a.z * b.z }

  /** Spot-light shadow camera: at the light, looking 200 units along its
      direction with +Y up, through a 45-degree square perspective from 1
      to 200. */
  function SpotShadowCamera(lightPosition: Vec3, lightDirection: Vec3): (r: (LookAt, Projection))
    ensures r.0.eye == lightPosition && r.0.up == Vec3(0.0, 1.0, 0.0)
    ensures r.0.target.x - r.0.eye.x == 200.0 * lightDirection.x
    ensures r.0.target.y - r.0.eye.y == 200.0 * lightDirection.y
    ensures r.0.target.z - r.0.eye.z == 200.0 * lightDirection.z
    ensures r.1.Perspective? && r.1.near == 1.0 && r.1.far == 200.0
    ensures r.1.fovDegrees == 45.0 && r.1.aspect == 1.0
  {
    (LookAt(lightPosition, Add(lightPosition, Scale(lightDirection, 200.0)), Vec3(0.0, 1.0, 0.0)),
     Projection.Perspective(45.0, 1.0, 1.0, 200.0))
  }

  function Sub(a: Vec3, b: Vec3): Vec3 { Vec3(a.x - b.x, a.y - b.y, a.z - b.z) }

  /** For a unit light direction the look-at target lies exactly on the far
      plane of the projection: the camera sees as far as it aims. */
  lemma SpotTargetOnFarPlane(lightPosition: Vec3, lightDirection: Vec3)
    requires Dot(lightDirection, lightDirection) == 1.0
    ensures
      var (view, proj) := SpotShadowCamera(lightPosition, lightDirection);
      var offset := Sub(view.target, view.eye);
      Dot(offset, offset) == proj.far * proj.far
  {
  }

  /** Moving the light moves the spot shadow camera with it: eye and target
      shift by the same amount, and the up vector and projection stay. */
  lemma SpotShadowCameraTranslates(lightPosition: Vec3, lightDirection: Vec3, shift: Vec3)
    ensures
      var (v0, p0) := SpotShadowCamera(lightPosition, lightDirection);
      var (v1, p1) := SpotShadowCamera(Add(lightPosition, shift), lightDirection);
      v1 == LookAt(Add(v0.eye, shift), Add(v0.target, shift), v0.up) && p1 == p0
  {
  }

  /** The eight corners of the scene box in the order they are transformed
      to light space. */
  function SceneCorners(lo: Vec3, hi: Vec3): (r: seq<Vec3>)
    ensures |r| == 8
    ensures forall k :: 0 <= k < 8 ==>
      (r[k].x == lo.x || r[k].x == hi.x) && (r[k].y == lo.y || r[k].y == hi.y) && (r[k].z == lo.z || r[k].z == hi.z)
  {
    [Vec3(lo.x, lo.y, lo.z), Vec3(hi.x, lo.y, lo.z), Vec3(lo.x, hi.y, lo.z), Vec3(lo.x, lo.y, hi.z),
     Vec3(hi.x, hi.y, lo.z), Vec3(lo.x, hi.y, hi.z), Vec3(hi.x, hi.y, hi.z), Vec3(hi.x, lo.y, hi.z)]
  }

  function Pick(useHi: bool, lo: real, hi: real): real { if useHi then hi else lo }

  /** Every one of the eight min/max combinations is among the corners. */
  lemma SceneCornersComplete(lo: Vec3, hi: Vec3, hiX: bool, hiY: bool, hiZ: bool)
    ensures Vec3(Pick(hiX, lo.x, hi.x), Pick(hiY, lo.y, hi.y), Pick(hiZ, lo.z, hi.z)) in SceneCorners(lo, hi)
  {
    var c := SceneCorners(lo, hi);
    var k := if !hiX && !hiY && !hiZ then 0 else if hiX && !hiY && !hiZ then 1 else if !hiX && hiY && !hiZ then 2
      else if !hiX && !hiY && hiZ then 3 else if hiX && hiY && !hiZ then 4 else if !hiX && hiY && hiZ then 5
      else if hiX && hiY && hiZ then 6 else 7;
    assert c[k] == Vec3(Pick(hiX, lo.x, hi.x), Pick(hiY, lo.y, hi.y), Pick(hiZ, lo.z, hi.z));
  }

  /** Directional-light orthographic projection, from the light-space box of
      the eye frustum and the light-space max corner of the scene box: the
      sides and the far plane come from the frustum alone; the near plane
      is pulled back to take in scene geometry in front of the frustum. */
  function DirectionalOrtho(viewMinLS: Vec3, viewMaxLS: Vec3, sceneMaxLS: Vec3): (p: Projection)
    ensures p.Orthographic?
    ensures p.left == viewMinLS.x && p.right == viewMaxLS.x && p.bottom == viewMinLS.y && p.top == viewMaxLS.y
    ensures p.far == -viewMinLS.z
    ensures p.near <= -viewMaxLS.z && p.near <= -sceneMaxLS.z
    ensures p.near == -viewMaxLS.z || p.near == -sceneMaxLS.z
  {
    var nearZ := Max(sceneMaxLS.z, viewMaxLS.z);
    Projection.Orthographic(viewMinLS.x, viewMaxLS.x, viewMinLS.y, viewMaxLS.y, -nearZ, -viewMinLS.z)
  }

  /** The scene box changes only the near plane, and only when it reaches
      past the frustum toward the light. */
  lemma SceneBoxOnlyMovesNear(viewMinLS: Vec3, viewMaxLS: Vec3, s1: Vec3, s2: Vec3)
    ensures
      var p1 := DirectionalOrtho(viewMinLS, viewMaxLS, s1);
      var p2 := DirectionalOrtho(viewMinLS, viewMaxLS, s2);
      p1.left == p2.left && p1.right == p2.right && p1.bottom == p2.bottom && p1.top == p2.top && p1.far == p2.far
    ensures s1.z <= viewMaxLS.z ==> DirectionalOrtho(viewMinLS, viewMaxLS, s1).near == -viewMaxLS.z
  {
  }

  /** `SetupCameraForDirectionalShadowCasting`'s assertions that survive
      with real arithmetic: the shadow camera must have a target texture and
      the light direction must have length strictly between 0.9 and 1.1
      (compared here through its square). */
  function DirectionalShadowSetup(lightDirection: Vec3, hasTargetTexture: bool,
                                  viewMinLS: Vec3, viewMaxLS: Vec3, sceneMaxLS: Vec3): (r: Checked<Projection>)
    ensures r.Ok? <==> hasTargetTexture && 0.81 < Dot(lightDirection, lightDirection) < 1.21
    ensures r.Ok? ==> r.value == DirectionalOrtho(viewMinLS, viewMaxLS, sceneMaxLS)
  {
    if !hasTargetTexture then AssertFailed("Shadow camera needs target texture")
    else if !(0.81 < Dot(lightDirection, lightDirection) < 1.21) then AssertFailed("Light dir must be normalized")
    else Ok(DirectionalOrtho(viewMinLS, viewMaxLS, sceneMaxLS))
  }
}

=== FILE: scene_deserialize.dfy ===
/** `Scene::Deserialize`: a forward, line-by-line reader of the scene text
    format. Each line is given already split into its first token and the
    remaining whitespace-separated fields; numeric fields are kept as the
    text they were read from. Loading mesh and texture files is not
    modelled: a loaded mesh is known by its file and `submeshNames` gives
    the submesh names `Mesh::Load` would find in a file. */
module SceneDeserialize {
  import opened Common
  import opened SceneModel

  datatype Line = Line(token: string, args: seq<string>)

  datatype DirLightState = DirLightState(castShadow: bool, shadowMapSize: nat)

  datatype CameraState = CameraState(
    projection: Option<ProjectionType>,
    ortho: seq<string>,
    persp: seq<string>,
    clearColor: seq<string>)

  datatype TransformState = TransformState(position: seq<string>, rotation: seq<string>, scale: seq<string>)

  /** A mesh object created by a `meshrenderer` line: its position in the
      mesh list and the file it was loaded from. */
  datatype MeshRef = MeshRef(index: nat, file: string)

  /** Submesh index to material pointer; `None` is a null pointer. */
  datatype MeshRendererState = MeshRendererState(mesh: Option<MeshRef>, materials: map<nat, Option<nat>>)

  datatype ObjectState = ObjectState(
    name: string,
    dirLight: Option<DirLightState>,
    camera: Option<CameraState>,
    transform: Option<TransformState>,
    meshRenderer: Option<MeshRendererState>)

  /** A texture object created by a `texture2d` line. */
  datatype TextureRef = TextureRef(id: nat, path: string)

  /** Everything the reader writes. Materials are pointers: `materials`
      maps a name to a material id (or null) and `materialTextures` holds
      each material's uniform-to-texture bindings. */
  datatype State = State(
    objects: seq<ObjectState>,
    textures: map<string, Option<TextureRef>>,
    nextTextureId: nat,
    materials: map<string, Option<nat>>,
    nextMaterialId: nat,
    materialTextures: map<nat, map<string, Option<TextureRef>>>,
    meshes: seq<string>,
    currentMaterial: string)

  datatype ErrorKind =
    | NoGameObject(token: string)
    | NoTransform(token: string)
    | UnknownProjection(name: string)
    | NoMeshRenderer
    | NoMesh

  /** Result of one line: carry on, report a parse error, or dereference a
      null component or material pointer. */
  datatype StepResult = Continue(next: State) | Fail(kind: ErrorKind) | NullDeref | UninitialisedRead

  /** `ParseError` leaves in place everything built before the failing
      line; `Crashed` is undefined behaviour: a null dereference or a read
      of an uninitialised value. */
  datatype Outcome = Success(state: State) | ParseError(kind: ErrorKind, partial: State) | Crashed

  /** Tokens that act on the last game object and so need one. */
  const ObjectTokens: set<string> := {
    "dirlight", "shadow", "camera", "ortho", "persp", "projection", "clearcolor",
    "transform", "meshrenderer", "position", "rotation", "scale", "mesh_material" }

  const KnownTokens: set<string> := ObjectTokens + { "gameobject", "texture2d", "material", "param_texture" }

  /** The stream extraction of a missing field yields the empty string. */
  function Arg(args: seq<string>, i: nat): string {
    if i < |args| then args[i] else ""
  }

  /** How many numbers each numeric line extracts with `>>` into locals
      declared without an initialiser. A line with fewer fields leaves the
      rest uninitialised, and the setter that follows reads them. */
  const NumericFields: map<string, nat> := map[
    "shadow" := 1, "ortho" := 6, "persp" := 4, "clearcolor" := 3,
    "position" := 3, "rotation" := 4, "scale" := 1]

  /** The component a numeric line writes to is present on `o`. */
  predicate HasTarget(o: ObjectState, t: string) {
    && (t == "shadow" ==> o.dirLight.Some?)
    && (t in {"ortho", "persp", "clearcolor"} ==> o.camera.Some?)
    && (t in {"position", "rotation", "scale"} ==> o.transform.Some?)
  }

  predicate IsDigit(c: char) { '0' <= c <= '9' }

  /** Length of the run of digits at the start of `s`. */
  function DigitRun(s: string): (n: nat)
    ensures n <= |s|
    ensures forall i :: 0 <= i < n ==> IsDigit(s[i])
    ensures n < |s| ==> !IsDigit(s[n])
  {
    if |s| == 0 || !IsDigit(s[0]) then 0 else 1 + DigitRun(s[1..])
  }

  /** `int enabled; lineStream >> enabled;` read as a boolean, for a line
      that has the field: true exactly when an optionally signed integer
      with a non-zero digit leads it. A failed conversion stores 0; an
      out-of-range one stores a non-zero extreme. A line without the field
      leaves `enabled` uninitialised (see `ComponentLine`). */
  function ShadowFlag(field: string): (on: bool)
    ensures on ==> |field| > 0
    ensures |field| > 0 && '1' <= field[0] <= '9' ==> on
    ensures |field| > 0 && field[0] != '-' && field[0] != '+' && !IsDigit(field[0]) ==> !on
    ensures (forall i :: 0 <= i < |field| ==> field[i] == '0') ==> !on
  {
    var body := if |field| > 0 && (field[0] == '-' || field[0] == '+') then field[1..] else field;
    exists i :: 0 <= i < DigitRun(body) && body[i] != '0'
  }

  function NewObject(name: string): ObjectState {
    ObjectState(name, None, None, None, None)
  }

  const DefaultCamera: CameraState := CameraState(None, [], [], [])
  const DefaultTransform: TransformState := TransformState([], [], [])
  const ShadowMapSize: nat := 512

  function Last(st: State): ObjectState
    requires |st.objects| > 0
  {
    st.objects[|st.objects| - 1]
  }

  function SetLast(st: State, o: ObjectState): (r: State)
    requires |st.objects| > 0
    ensures |r.objects| == |st.objects| && Last(r) == o
    ensures r.objects[..|r.objects| - 1] == st.objects[..|st.objects| - 1]
    ensures r.(objects := st.objects) == st
  {
    st.(objects := st.objects[|st.objects| - 1 := o])
  }

  /** `mr->SetMaterial( outMaterials[ materialName ], i )` for every submesh
      `i` whose name is `meshName`, in index order. */
  function BindMaterial(mats: map<nat, Option<nat>>, names: seq<string>, meshName: string, m: Option<nat>): (r: map<nat, Option<nat>>)
    ensures forall i :: 0 <= i < |names| && names[i] == meshName ==> i in r && r[i] == m
    ensures forall i :: i in mats && !(0 <= i < |names| && names[i] == meshName) ==> i in r && r[i] == mats[i]
    ensures forall i :: i in r ==> i in mats || (0 <= i < |names| && names[i] == meshName)
    decreases |names|
  {
    if |names| == 0 then mats
    else
      var n := |names| - 1;
      var prev := BindMaterial(mats, names[..n], meshName, m);
      if names[n] == meshName then prev[n := m] else prev
  }

  /** A `mesh_material` line: binds a material by name to every submesh of
      the last object's mesh with the given name. */
  function MeshMaterialLine(st: State, args: seq<string>, submeshNames: string -> seq<string>): (r: StepResult)
    requires |st.objects| > 0
    ensures r == Fail(NoMeshRenderer) <==> Last(st).meshRenderer.None?
    ensures r == Fail(NoMesh) <==> Last(st).meshRenderer.Some? && Last(st).meshRenderer.value.mesh.None?
    ensures !r.NullDeref?
    ensures r.Continue? ==>
      && r.next.(objects := st.objects, materials := st.materials) == st
      && st.materials.Keys <= r.next.materials.Keys
      && |r.next.objects| == |st.objects|
      && r.next.objects[..|st.objects| - 1] == st.objects[..|st.objects| - 1]
      && Last(r.next).meshRenderer.Some?
      && Last(r.next).meshRenderer.value.mesh == Last(st).meshRenderer.value.mesh
  {
    var o := Last(st);
    if o.meshRenderer.None? then Fail(NoMeshRenderer)
    else if o.meshRenderer.value.mesh.None? then Fail(NoMesh)
    else
      var mr := o.meshRenderer.value;
      var meshName := Arg(args, 0);
      var materialName := Arg(args, 1);
      var names := submeshNames(mr.mesh.value.file);
      // `outMaterials[ materialName ]` runs, and inserts a null entry, only
      // when some submesh name matches.
      if !(exists i :: 0 <= i < |names| && names[i] == meshName) then Continue(st)
      else
        var m := if materialName in st.materials then st.materials[materialName] else None;
        var st' := st.(materials := st.materials[materialName := m]);
        Continue(SetLast(st', o.(meshRenderer := Some(mr.(materials := BindMaterial(mr.materials, names, meshName, m))))))
  }

  /** A `param_texture` line binds a texture to a uniform of the current
      material, which must exist and be non-null. */
  function ParamTextureLine(st: State, args: seq<string>): (r: StepResult)
    ensures r.NullDeref? <==> st.currentMaterial !in st.materials || st.materials[st.currentMaterial].None?
    ensures !r.Fail?
    ensures r.Continue? ==>
      && r.next.(textures := st.textures, materialTextures := st.materialTextures) == st
      && st.textures.Keys <= r.next.textures.Keys
  {
    var uniform := Arg(args, 0);
    var textureName := Arg(args, 1);
    if st.currentMaterial !in st.materials || st.materials[st.currentMaterial].None? then NullDeref
    else
      var id := st.materials[st.currentMaterial].value;
      var tex := if textureName in st.textures then st.textures[textureName] else None;
      var bound := if id in st.materialTextures then st.materialTextures[id] else map[];
      Continue(st.(textures := st.textures[textureName := tex],
                   materialTextures := st.materialTextures[id := bound[uniform := tex]]))
  }

  /** What a component line does to the last object: update it, report a
      parse error, dereference a null component, or pass a local that a
      short line left uninitialised to a setter. */
  datatype ComponentResult = Updated(o: ObjectState) | Rejected(kind: ErrorKind) | NullComponent | Uninitialised

  /** The object tokens that work on a light, camera or transform. */
  const ComponentTokens: set<string> := {
    "dirlight", "shadow", "camera", "ortho", "persp", "projection", "clearcolor",
    "transform", "position", "rotation", "scale" }

  /** A line that adds or sets a light, camera or transform of the last
      object `o`. Adding a component the object already has keeps it. A
      numeric line stores its leading fields, and one with too few fields
      is an uninitialised read. */
  function ComponentLine(o: ObjectState, t: string, args: seq<string>): (r: ComponentResult)
    requires t in ComponentTokens
    ensures r.Rejected? ==> r.kind == NoTransform(t) || r.kind == UnknownProjection(Arg(args, 0))
    ensures (r.Rejected? && r.kind.NoTransform?) <==> t in {"position", "rotation", "scale"} && o.transform.None?
    ensures (r.Rejected? && r.kind.UnknownProjection?) <==>
      t == "projection" && Arg(args, 0) !in {"orthographic", "perspective"}
    ensures r.NullComponent? <==>
      || (t == "shadow" && o.dirLight.None?)
      || (t in {"ortho", "persp", "clearcolor"} && o.camera.None?)
      || (t == "projection" && Arg(args, 0) in {"orthographic", "perspective"} && o.camera.None?)
    ensures r.Uninitialised? <==> t in NumericFields && HasTarget(o, t) && |args| < NumericFields[t]
    ensures r.Updated? && t in NumericFields ==> NumericFields[t] <= |args|
    ensures r.Updated? ==> r.o.name == o.name && r.o.meshRenderer == o.meshRenderer
    ensures t == "dirlight" ==> r.Updated? && r.o.dirLight.Some? && (o.dirLight.Some? ==> r.o == o)
    ensures t == "camera" ==> r.Updated? && r.o.camera.Some? && (o.camera.Some? ==> r.o == o)
    ensures t == "transform" ==> r.Updated? && r.o.transform.Some? && (o.transform.Some? ==> r.o == o)
    ensures t == "shadow" && r.Updated? ==> r.o.dirLight == Some(DirLightState(ShadowFlag(Arg(args, 0)), ShadowMapSize))
    ensures t == "projection" && r.Updated? ==>
      r.o.camera.Some? && r.o.camera.value.projection == Some(if Arg(args, 0) == "orthographic" then Orthographic else Perspective)
    ensures t in {"ortho", "persp", "clearcolor"} && r.Updated? ==>
      && o.camera.Some? && r.o.camera.Some?
      && r.o.camera.value.projection == o.camera.value.projection
      && (t == "ortho" ==> r.o.camera.value.ortho == args[..6] && r.o.camera.value.persp == o.camera.value.persp)
      && (t == "persp" ==> r.o.camera.value.persp == args[..4] && r.o.camera.value.ortho == o.camera.value.ortho)
      && (t == "clearcolor" ==> r.o.camera.value.clearColor == args[..3])
    ensures t in {"position", "rotation", "scale"} && r.Updated? ==>
      && o.transform.Some? && r.o.transform.Some?
      && (t == "position" ==> r.o.transform.value == o.transform.value.(position := args[..3]))
      && (t == "rotation" ==> r.o.transform.value == o.transform.value.(rotation := args[..4]))
      && (t == "scale" ==> r.o.transform.value == o.transform.value.(scale := args[..1]))
  {
    if t == "dirlight" then
      Updated(if o.dirLight.Some? then o else o.(dirLight := Some(DirLightState(false, 0))))
    else if t == "shadow" then
      if o.dirLight.None? then NullComponent
      else if |args| == 0 then Uninitialised
      else Updated(o.(dirLight := Some(DirLightState(ShadowFlag(Arg(args, 0)), ShadowMapSize))))
    else if t == "camera" then
      Updated(if o.camera.Some? then o else o.(camera := Some(DefaultCamera)))
    else if t == "ortho" then
      if o.camera.None? then NullComponent
      else if |args| < 6 then Uninitialised
      else Updated(o.(camera := Some(o.camera.value.(ortho := args[..6]))))
    else if t == "persp" then
      if o.camera.None? then NullComponent
      else if |args| < 4 then Uninitialised
      else Updated(o.(camera := Some(o.camera.value.(persp := args[..4]))))
    else if t == "projection" then
      var kind := Arg(args, 0);
      if kind != "orthographic" && kind != "perspective" then Rejected(UnknownProjection(kind))
      else if o.camera.None? then NullComponent
      else
        var p := if kind == "orthographic" then Orthographic else Perspective;
        Updated(o.(camera := Some(o.camera.value.(projection := Some(p)))))
    else if t == "clearcolor" then
      if o.camera.None? then NullComponent
      else if |args| < 3 then Uninitialised
      else Updated(o.(camera := Some(o.camera.value.(clearColor := args[..3]))))
    else if t == "transform" then
      Updated(if o.transform.Some? then o else o.(transform := Some(DefaultTransform)))
    else
      if o.transform.None? then Rejected(NoTransform(t))
      else if |args| < NumericFields[t] then Uninitialised
      else
        var tr := o.transform.value;
        var tr' := if t == "position" then tr.(position := args[..3])
          else if t == "rotation" then tr.(rotation := args[..4])
          else tr.(scale := args[..1]);
        Updated(o.(transform := Some(tr')))
  }

  /** A `meshrenderer` line: adds the component (keeping an existing one)
      and gives it a newly loaded mesh, appended to the mesh list. */
  function MeshRendererLine(st: State, file: string): (r: State)
    requires |st.objects| > 0
    ensures r.(objects := st.objects, meshes := st.meshes) == st
    ensures r.meshes == st.meshes + [file]
    ensures |r.objects| == |st.objects| && r.objects[..|st.objects| - 1] == st.objects[..|st.objects| - 1]
    ensures Last(r).meshRenderer.Some? && Last(r).meshRenderer.value.mesh == Some(MeshRef(|st.meshes|, file))
    ensures Last(st).meshRenderer.Some? ==> Last(r).meshRenderer.value.materials == Last(st).meshRenderer.value.materials
  {
    var o := Last(st);
    var mr := if o.meshRenderer.Some? then o.meshRenderer.value else MeshRendererState(None, map[]);
    var st' := st.(meshes := st.meshes + [file]);
    SetLast(st', o.(meshRenderer := Some(mr.(mesh := Some(MeshRef(|st.meshes|, file))))))
  }

  /** A line whose token needs a last game object, given that there is
      one. */
  function ObjectLine(st: State, line: Line, submeshNames: string -> seq<string>): (r: StepResult)
    requires |st.objects| > 0 && line.token in ObjectTokens
    ensures r.Fail? ==> !r.kind.NoGameObject?
    ensures (r.Fail? && r.kind.NoTransform?) <==> line.token in {"position", "rotation", "scale"} && Last(st).transform.None?
    ensures (r.Fail? && r.kind.UnknownProjection?) <==>
      line.token == "projection" && Arg(line.args, 0) !in {"orthographic", "perspective"}
    ensures r == Fail(NoMeshRenderer) <==> line.token == "mesh_material" && Last(st).meshRenderer.None?
    ensures r == Fail(NoMesh) <==>
      line.token == "mesh_material" && Last(st).meshRenderer.Some? && Last(st).meshRenderer.value.mesh.None?
    ensures r.Continue? ==>
      && |r.next.objects| == |st.objects|
      && r.next.objects[..|st.objects| - 1] == st.objects[..|st.objects| - 1]
      && r.next.textures == st.textures
      && st.materials.Keys <= r.next.materials.Keys
      && st.meshes <= r.next.meshes
    ensures r.Continue? && Last(r.next).meshRenderer.Some? && Last(r.next).meshRenderer.value.mesh.None? ==>
      Last(st).meshRenderer.Some? && Last(st).meshRenderer.value.mesh.None?
    ensures r.UninitialisedRead? <==>
      line.token in NumericFields && HasTarget(Last(st), line.token) && |line.args| < NumericFields[line.token]
  {
    var t := line.token;
    if t == "meshrenderer" then Continue(MeshRendererLine(st, Arg(line.args, 0)))
    else if t == "mesh_material" then MeshMaterialLine(st, line.args, submeshNames)
    else
      match ComponentLine(Last(st), t, line.args)
      case Updated(o) => Continue(SetLast(st, o))
      case Rejected(kind) => Fail(kind)
      case NullComponent => NullDeref
      case Uninitialised => UninitialisedRead
  }

  /** One line of `Deserialize`. The source tests the token against each
      keyword in turn; since a token equals at most one keyword, that is a
      case analysis over token groups. */
  function Step(st: State, line: Line, submeshNames: string -> seq<string>): (r: StepResult)
    ensures r == Fail(NoGameObject(line.token)) <==> |st.objects| == 0 && line.token in ObjectTokens
    ensures (r.Fail? && r.kind.NoTransform?) <==>
      |st.objects| > 0 && line.token in {"position", "rotation", "scale"} && Last(st).transform.None?
    ensures (r.Fail? && r.kind.UnknownProjection?) <==>
      |st.objects| > 0 && line.token == "projection" && Arg(line.args, 0) !in {"orthographic", "perspective"}
    ensures r == Fail(NoMeshRenderer) <==>
      |st.objects| > 0 && line.token == "mesh_material" && Last(st).meshRenderer.None?
    ensures r == Fail(NoMesh) <==>
      |st.objects| > 0 && line.token == "mesh_material" && Last(st).meshRenderer.Some? && Last(st).meshRenderer.value.mesh.None?
    ensures r.UninitialisedRead? <==>
      |st.objects| > 0 && line.token in NumericFields && HasTarget(Last(st), line.token) &&
      |line.args| < NumericFields[line.token]
    ensures line.token !in KnownTokens ==> r == Continue(st)
    ensures r.Continue? && line.token == "gameobject" ==> r.next.objects == st.objects + [NewObject(Arg(line.args, 0))]
    ensures r.Continue? && line.token != "gameobject" ==> |r.next.objects| == |st.objects|
    ensures r.Continue? && line.token in ObjectTokens ==> r.next.objects[..|st.objects| - 1] == st.objects[..|st.objects| - 1]
    ensures r.Continue? && line.token !in ObjectTokens && line.token != "gameobject" ==> r.next.objects == st.objects
  {
    var t := line.token;
    var args := line.args;
    if t == "gameobject" then Continue(st.(objects := st.objects + [NewObject(Arg(args, 0))]))
    else if t in ObjectTokens then
      if |st.objects| == 0 then Fail(NoGameObject(t)) else ObjectLine(st, line, submeshNames)
    else if t == "texture2d" then
      var name := Arg(args, 0);
      var path := Arg(args, 1);
      Continue(st.(textures := st.textures[name := Some(TextureRef(st.nextTextureId, path))],
                   nextTextureId := st.nextTextureId + 1))
    else if t == "material" then
      var name := Arg(args, 0);
      Continue(st.(currentMaterial := name,
                   materials := st.materials[name := Some(st.nextMaterialId)],
                   nextMaterialId := st.nextMaterialId + 1))
    else if t == "param_texture" then ParamTextureLine(st, args)
    else Continue(st)
  }

  /** Runs the lines from `st`. */
  function Run(st: State, lines: seq<Line>, submeshNames: string -> seq<string>): (r: Outcome)
    ensures r.Success? ==> |r.state.objects| == |st.objects| + CountToken(lines, "gameobject")
    ensures r.ParseError? ==> |r.partial.objects| >= |st.objects|
    decreases |lines|
  {
    if |lines| == 0 then Success(st)
    else
      match Step(st, lines[0], submeshNames)
      case Continue(next) => Run(next, lines[1..], submeshNames)
      case Fail(kind) => ParseError(kind, st)
      case NullDeref => Crashed
      case UninitialisedRead => Crashed
  }

  /** `Scene::Deserialize`: the object list is cleared first; the texture,
      material and mesh collections the caller passes in are added to, not
      cleared. */
  function Deserialize(lines: seq<Line>, assets: State, submeshNames: string -> seq<string>): (r: Outcome)
    ensures r.Success? ==> |r.state.objects| == CountToken(lines, "gameobject")
    ensures r.Success? ==>
      && assets.textures.Keys <= r.state.textures.Keys
      && assets.materials.Keys <= r.state.materials.Keys
      && assets.meshes <= r.state.meshes
  {
    var st := assets.(objects := [], currentMaterial := "");
    RunKeepsAssets(st, lines, submeshNames);
    Run(st, lines, submeshNames)
  }

  // ---- Properties

  /** Running a concatenation runs the second part from where the first
      one ended, and stops where the first one stops. */
  lemma {:induction false} RunAppend(st: State, a: seq<Line>, b: seq<Line>, names: string -> seq<string>)
    ensures Run(st, a + b, names) == match Run(st, a, names)
      case Success(s) => Run(s, b, names)
      case other => other
    decreases |a|
  {
    if |a| == 0 {
      assert a + b == b;
    } else {
      assert (a + b)[0] == a[0];
      assert (a + b)[1..] == a[1..] + b;
      match Step(st, a[0], names)
      case Continue(next) => RunAppend(next, a[1..], b, names);
      case Fail(_) =>
      case NullDeref =>
      case UninitialisedRead =>
    }
  }

  /** A line with an unrecognised token, wherever it appears, changes
      nothing. */
  lemma UnknownLineIgnored(st: State, a: seq<Line>, x: Line, b: seq<Line>, names: string -> seq<string>)
    requires x.token !in KnownTokens
    ensures Run(st, a + [x] + b, names) == Run(st, a + b, names)
  {
    RunAppend(st, a, [x] + b, names);
    RunAppend(st, a, b, names);
    assert a + [x] + b == a + ([x] + b);
    if Run(st, a, names).Success? {
      var s := Run(st, a, names).state;
      assert ([x] + b)[0] == x;
      assert ([x] + b)[1..] == b;
    }
  }

  function CountToken(lines: seq<Line>, t: string): (n: nat)
    ensures n <= |lines|
  {
    if |lines| == 0 then 0 else (if lines[0].token == t then 1 else 0) + CountToken(lines[1..], t)
  }

  /** On success there is exactly one object per `gameobject` line. */
  lemma {:induction false} ObjectsPerGameObjectLine(st: State, lines: seq<Line>, names: string -> seq<string>)
    ensures Run(st, lines, names).Success? ==>
      |Run(st, lines, names).state.objects| == |st.objects| + CountToken(lines, "gameobject")
    decreases |lines|
  {
    if |lines| > 0 && Step(st, lines[0], names).Continue? {
      ObjectsPerGameObjectLine(Step(st, lines[0], names).next, lines[1..], names);
    }
  }

  /** `Deserialize` builds its objects from scratch: one per `gameobject`
      line, whatever the caller's list held. */
  lemma DeserializeObjectCount(lines: seq<Line>, assets: State, names: string -> seq<string>)
    ensures Deserialize(lines, assets, names).Success? ==>
      |Deserialize(lines, assets, names).state.objects| == CountToken(lines, "gameobject")
  {
    ObjectsPerGameObjectLine(assets.(objects := [], currentMaterial := ""), lines, names);
  }

  /** One line never removes a texture or material name, and only appends
      to the mesh list. */
  lemma StepOnlyAdds(st: State, line: Line, names: string -> seq<string>)
    requires Step(st, line, names).Continue?
    ensures st.textures.Keys <= Step(st, line, names).next.textures.Keys
    ensures st.materials.Keys <= Step(st, line, names).next.materials.Keys
    ensures st.meshes <= Step(st, line, names).next.meshes
  {
  }

  /** The caller's textures, materials and meshes survive a successful
      read: names are only added or rebound, meshes only appended. */
  lemma {:induction false} RunKeepsAssets(st: State, lines: seq<Line>, names: string -> seq<string>)
    ensures Run(st, lines, names).Success? ==>
      && st.textures.Keys <= Run(st, lines, names).state.textures.Keys
      && st.materials.Keys <= Run(st, lines, names).state.materials.Keys
      && st.meshes <= Run(st, lines, names).state.meshes
    decreases |lines|
  {
    if |lines| > 0 && Step(st, lines[0], names).Continue? {
      StepOnlyAdds(st, lines[0], names);
      RunKeepsAssets(Step(st, lines[0], names).next, lines[1..], names);
    }
  }

  /** A parse error reports the state reached after the lines before the
      failing one: the objects built so far stay in the output. */
  lemma {:induction false} ParseErrorKeepsPartialResult(st: State, lines: seq<Line>, names: string -> seq<string>)
    requires Run(st, lines, names).ParseError?
    ensures exists k ::
      && 0 <= k < |lines|
      && Run(st, lines[..k], names) == Success(Run(st, lines, names).partial)
      && Step(Run(st, lines, names).partial, lines[k], names) == Fail(Run(st, lines, names).kind)
    decreases |lines|
  {
    var r := Run(st, lines, names);
    var first := Step(st, lines[0], names);
    assert first.Fail? || first.Continue? by {
      assert r == match first
        case Continue(next) => Run(next, lines[1..], names)
        case Fail(kind) => ParseError(kind, st)
        case NullDeref => Crashed
        case UninitialisedRead => Crashed;
    }
    if first.Fail? {
      assert lines[..0] == [];
      assert Run(st, lines[..0], names) == Success(st);
    } else {
      var next := first.next;
      ParseErrorKeepsPartialResult(next, lines[1..], names);
      var k :| 0 <= k < |lines[1..]|
        && Run(next, lines[1..][..k], names) == Success(r.partial)
        && Step(r.partial, lines[1..][k], names) == Fail(r.kind);
      assert lines[..k + 1][0] == lines[0];
      assert lines[..k + 1][1..] == lines[1..][..k];
      assert Run(st, lines[..k + 1], names) == Success(r.partial);
      assert lines[k + 1] == lines[1..][k];
    }
  }

  /** Every mesh renderer the reader builds has a mesh. */
  ghost predicate MeshesAttached(st: State) {
    forall i :: 0 <= i < |st.objects| && st.objects[i].meshRenderer.Some? ==> st.objects[i].meshRenderer.value.mesh.Some?
  }

  lemma StepKeepsMeshesAttached(st: State, line: Line, names: string -> seq<string>)
    requires MeshesAttached(st)
    ensures Step(st, line, names).Continue? ==> MeshesAttached(Step(st, line, names).next)
    ensures Step(st, line, names) != Fail(NoMesh)
  {
    var r := Step(st, line, names);
    if r.Continue? && line.token in ObjectTokens {
      var n := |st.objects| - 1;
      forall i | 0 <= i < |r.next.objects| && r.next.objects[i].meshRenderer.Some?
        ensures r.next.objects[i].meshRenderer.value.mesh.Some?
      {
        if i < n {
          assert r.next.objects[i] == r.next.objects[..n][i] == st.objects[i];
        }
      }
    }
  }

  /** The "mesh renderer without a mesh" error cannot occur: a
      `meshrenderer` line always attaches the mesh it creates. */
  lemma {:induction false} NoMeshErrorUnreachable(st: State, lines: seq<Line>, names: string -> seq<string>)
    requires MeshesAttached(st)
    ensures Run(st, lines, names).ParseError? ==> Run(st, lines, names).kind != NoMesh
    decreases |lines|
  {
    if |lines| > 0 {
      StepKeepsMeshesAttached(st, lines[0], names);
      if Step(st, lines[0], names).Continue? {
        NoMeshErrorUnreachable(Step(st, lines[0], names).next, lines[1..], names);
      }
    }
  }

  /** Before the first `gameobject` line, the first line that needs a game
      object is a parse error naming its token, provided no
      `param_texture` line has crashed the reader first. */
  lemma {:induction false} ObjectTokenBeforeGameObject(st: State, lines: seq<Line>, k: nat, names: string -> seq<string>)
    requires |st.objects| == 0
    requires k < |lines| && lines[k].token in ObjectTokens
    requires forall i :: 0 <= i < k ==> lines[i].token !in ObjectTokens + {"gameobject", "param_texture"}
    ensures Run(st, lines, names).ParseError?
    ensures Run(st, lines, names).kind == NoGameObject(lines[k].token)
    ensures Run(st, lines, names).partial.objects == []
    decreases k
  {
    if k > 0 {
      var r := Step(st, lines[0], names);
      assert r.Continue? && r.next.objects == [];
      ObjectTokenBeforeGameObject(r.next, lines[1..], k - 1, names);
    }
  }

  /** The same with `param_texture` lines allowed before the object token:
      the read either crashes on one of them or still ends with the parse
      error naming the first object token. */
  lemma {:induction false} ObjectTokenBeforeGameObjectOrCrash(st: State, lines: seq<Line>, k: nat, names: string -> seq<string>)
    requires |st.objects| == 0
    requires k < |lines| && lines[k].token in ObjectTokens
    requires forall i :: 0 <= i < k ==> lines[i].token !in ObjectTokens + {"gameobject"}
    ensures Run(st, lines, names).Crashed? || Run(st, lines, names).ParseError?
    ensures Run(st, lines, names).ParseError? ==>
      Run(st, lines, names).kind == NoGameObject(lines[k].token) && Run(st, lines, names).partial.objects == []
    decreases k
  {
    if k > 0 {
      var r := Step(st, lines[0], names);
      assert r.NullDeref? || (r.Continue? && r.next.objects == []);
      if r.Continue? {
        ObjectTokenBeforeGameObjectOrCrash(r.next, lines[1..], k - 1, names);
      }
    }
  }

  /** A `shadow` line on an object with a directional light: without its
      field the read is undefined behaviour and the run crashes; with it,
      the light's flag is that field read as an integer and the map is
      512. */
  lemma ShadowLineNeedsField(st: State, line: Line, rest: seq<Line>, names: string -> seq<string>)
    requires |st.objects| > 0 && line.token == "shadow" && Last(st).dirLight.Some?
    ensures |line.args| == 0 <==> Run(st, [line] + rest, names).Crashed? && Step(st, line, names).UninitialisedRead?
    ensures |line.args| > 0 ==>
      && Step(st, line, names).Continue?
      && Last(Step(st, line, names).next).dirLight == Some(DirLightState(ShadowFlag(line.args[0]), ShadowMapSize))
  {
    assert ([line] + rest)[0] == line && ([line] + rest)[1..] == rest;
  }

  /** A numeric line whose component is present: with fewer fields than it
      extracts, the run crashes on that line; otherwise the line goes
      through and stores exactly its leading fields. */
  lemma NumericLineNeedsFields(st: State, line: Line, rest: seq<Line>, names: string -> seq<string>)
    requires |st.objects| > 0 && line.token in NumericFields && HasTarget(Last(st), line.token)
    ensures |line.args| < NumericFields[line.token] <==> Step(st, line, names).UninitialisedRead?
    ensures |line.args| < NumericFields[line.token] ==> Run(st, [line] + rest, names).Crashed?
    ensures NumericFields[line.token] <= |line.args| ==>
      && Step(st, line, names).Continue?
      && Run(st, [line] + rest, names) == Run(Step(st, line, names).next, rest, names)
  {
    assert ([line] + rest)[0] == line && ([line] + rest)[1..] == rest;
  }
}

=== FILE: scene_model.dfy ===
/** The entities and components the scene core works on, one optional slot
    per component kind. Projection parameters, colours and matrices are
    not part of this model. */
module SceneModel {
  import opened Common

  datatype ProjectionType = Perspective | Orthographic

  /** `CameraComponent::ClearFlag`; `OtherClearFlag` stands for any value
      outside the three the renderer handles. */
  datatype ClearFlag = DepthAndColor | Depth | DontClearFlag | OtherClearFlag(code: int)

  /** The camera's target texture: a 2D or a cube render texture. */
  datatype TargetTexture = TargetTexture(id: nat, isCube: bool)

  datatype Camera = Camera(
    projection: ProjectionType,
    clearFlag: ClearFlag,
    target: Option<TargetTexture>,
    renderOrder: int,
    layerMask: bv32,
    hasDepthNormals: bool)

  datatype Quaternion = Quaternion(x: real, y: real, z: real, w: real)

  datatype Transform = Transform(position: Vec3, rotation: Quaternion, scale: real)

  /** A loaded mesh: identity plus its local-space bounds. */
  datatype MeshInfo = MeshInfo(id: nat, aabbMin: Vec3, aabbMax: Vec3)

  /** A mesh reference plus per-submesh materials. */
  datatype MeshRenderer = MeshRenderer(mesh: Option<MeshInfo>, materials: seq<Option<nat>>)

  /** Directional or spot light: shadow flag and the owned shadow map. */
  datatype Light = Light(castsShadow: bool, shadowMap: nat)

  datatype GameObject = GameObject(
    name: string,
    layer: bv32,
    transform: Option<Transform>,
    camera: Option<Camera>,
    meshRenderer: Option<MeshRenderer>,
    spriteRenderer: bool,
    textRenderer: bool,
    audioSource: bool,
    dirLight: Option<Light>,
    spotLight: Option<Light>)

  /** The scene's padded vector of object pointers. */
  type Slots = seq<Option<GameObject>>

  /** Indices of the non-null slots whose object satisfies `p`, ascending. */
  function Indices(objs: Slots, p: GameObject -> bool): (r: seq<nat>)
    ensures forall i :: i in r <==> 0 <= i < |objs| && objs[i].Some? && p(objs[i].value)
    ensures forall a :: 0 <= a < |r| ==> r[a] < |objs|
    ensures forall a, b :: 0 <= a < b < |r| ==> r[a] < r[b]
  {
    if |objs| == 0 then []
    else
      var n := |objs| - 1;
      Indices(objs[..n], p) + (if objs[n].Some? && p(objs[n].value) then [n] else [])
  }

  /** The non-null objects satisfying `p`, in slot order. */
  function Select(objs: Slots, p: GameObject -> bool): (r: seq<GameObject>)
    ensures forall o :: o in r <==> Some(o) in objs && p(o)
    ensures |r| <= |objs|
  {
    if |objs| == 0 then []
    else
      var n := |objs| - 1;
      Select(objs[..n], p) + (if objs[n].Some? && p(objs[n].value) then [objs[n].value] else [])
  }
}

=== FILE: scene_registry.dfy ===
/** The scene's object registry (`Scene::Add`, `Scene::Remove`): a vector of
    object pointers padded with null slots, plus the cursor
    `nextFreeGameObject` naming the slot the next `Add` writes. Pointer
    identity is equality of the handle type `G`. */
module SceneRegistry {
  import opened Common

  datatype Registry<G> = Registry(slots: seq<Option<G>>, nextFree: nat)

  /** Number of null slots `Add` appends when the cursor reaches the end. */
  const GrowBy: nat := 10

  /** `Add` as the source writes it: the store may land past the end of the
      vector, which is undefined behaviour in the source. */
  datatype AddOutcome<G> = Stored(reg: Registry<G>) | OutOfRange(index: nat, size: nat)

  /** The non-null entries, in slot order: what the scene holds. */
  function Objects<G>(s: seq<Option<G>>): seq<G> {
    if |s| == 0 then []
    else (match s[0] case Some(g) => [g] case None => []) + Objects(s[1..])
  }

  /** The invariant the cursor is meant to keep: it stays within the vector
      and every slot at or after it is null. */
  ghost predicate Valid<G>(r: Registry<G>) {
    && r.nextFree <= |r.slots|
    && forall i :: r.nextFree <= i < |r.slots| ==> r.slots[i] == None
  }

  /** Index of the first slot equal to `g`. */
  function FirstIndex<G(==)>(s: seq<Option<G>>, g: Option<G>): (i: nat)
    requires g in s
    ensures i < |s| && s[i] == g
    ensures forall j :: 0 <= j < i ==> s[j] != g
  {
    if s[0] == g then 0 else FirstIndex(s[1..], g) + 1
  }

  /** `Scene::Add`: a pointer already in the vector (null included) changes
      nothing; otherwise it is written at the cursor, the cursor advances,
      and the vector first grows by ten null slots when the cursor equals
      its size. */
  function Add<G(==)>(r: Registry<G>, g: Option<G>): (out: AddOutcome<G>)
    ensures g in r.slots ==> out == Stored(r)
    ensures g !in r.slots && r.nextFree == |r.slots| ==>
      && out.Stored?
      && out.reg.slots == r.slots + [g] + Nulls(GrowBy - 1)
      && out.reg.nextFree == r.nextFree + 1
    ensures g !in r.slots && r.nextFree < |r.slots| ==>
      && out.Stored?
      && |out.reg.slots| == |r.slots|
      && out.reg.slots[r.nextFree] == g
      && (forall i :: 0 <= i < |r.slots| && i != r.nextFree ==> out.reg.slots[i] == r.slots[i])
      && out.reg.nextFree == r.nextFree + 1
    ensures g !in r.slots && r.nextFree > |r.slots| ==> out == OutOfRange(r.nextFree, |r.slots|)
  {
    if g in r.slots then Stored(r)
    else
      var grown := if r.nextFree == |r.slots| then r.slots + Nulls(GrowBy) else r.slots;
      if r.nextFree < |grown| then
        var s' := grown[r.nextFree := g];
        assert r.nextFree == |r.slots| ==> s' == r.slots + [g] + Nulls(GrowBy - 1);
        Stored(Registry(s', r.nextFree + 1))
      else OutOfRange(r.nextFree, |grown|)
  }

  /** `Scene::Remove`: erases the first slot equal to `g`, shifting the
      later slots down by one; absent pointers change nothing. The cursor is
      never adjusted. */
  function Remove<G(==)>(r: Registry<G>, g: Option<G>): (r': Registry<G>)
    ensures g !in r.slots ==> r' == r
    ensures g in r.slots ==>
      var i := FirstIndex(r.slots, g);
      && r'.slots == r.slots[..i] + r.slots[i + 1..]
      && multiset(r'.slots) + multiset{g} == multiset(r.slots)
    ensures r'.nextFree == r.nextFree
  {
    if g !in r.slots then r
    else
      var i := FirstIndex(r.slots, g);
      assert r.slots == r.slots[..i] + [g] + r.slots[i + 1..];
      Registry(r.slots[..i] + r.slots[i + 1..], r.nextFree)
  }

  lemma {:induction false} ObjectsAppend<G>(a: seq<Option<G>>, b: seq<Option<G>>)
    ensures Objects(a + b) == Objects(a) + Objects(b)
  {
    if |a| == 0 {
      assert a + b == b;
    } else {
      assert (a + b)[0] == a[0];
      assert (a + b)[1..] == a[1..] + b;
      ObjectsAppend(a[1..], b);
    }
  }

  lemma {:induction false} ObjectsOfNulls<G>(s: seq<Option<G>>)
    requires forall i :: 0 <= i < |s| ==> s[i] == None
    ensures Objects(s) == []
  {
    if |s| > 0 {
      ObjectsOfNulls(s[1..]);
    }
  }

  /** Under the invariant, `Add` never writes out of range, keeps the
      invariant, and appends a fresh non-null object to the scene's
      contents. */
  lemma AddKeepsValid<G>(r: Registry<G>, g: Option<G>)
    requires Valid(r)
    ensures Add(r, g).Stored? && Valid(Add(r, g).reg)
    ensures g.Some? && g !in r.slots ==> Objects(Add(r, g).reg.slots) == Objects(r.slots) + [g.value]
  {
    var out := Add(r, g);
    if g !in r.slots {
      var s' := out.reg.slots;
      var n := r.nextFree;
      assert s' == r.slots[..n] + [g] + s'[n + 1..];
      assert r.slots == r.slots[..n] + r.slots[n..];
      ObjectsOfNulls(r.slots[n..]);
      ObjectsOfNulls(s'[n + 1..]);
      ObjectsAppend(r.slots[..n], r.slots[n..]);
      ObjectsAppend(r.slots[..n] + [g], s'[n + 1..]);
      ObjectsAppend(r.slots[..n], [g]);
      if g.Some? {
        assert Objects([g]) == [g.value] + Objects([g][1..]);
      }
    }
  }

  /** Adding a fresh object and removing it again leaves the scene's
      contents as they were. */
  lemma AddThenRemoveRestoresObjects<G>(r: Registry<G>, g: G)
    requires Valid(r) && Some(g) !in r.slots
    ensures Objects(Remove(Add(r, Some(g)).reg, Some(g)).slots) == Objects(r.slots)
  {
    AddKeepsValid(r, Some(g));
    var s' := Add(r, Some(g)).reg.slots;
    var n := r.nextFree;
    assert s'[n] == Some(g);
    assert forall j :: 0 <= j < n ==> s'[j] == r.slots[j];
    var i := FirstIndex(s', Some(g));
    assert i == n;
    var t := Remove(Add(r, Some(g)).reg, Some(g)).slots;
    assert t == s'[..n] + s'[n + 1..];
    assert s'[..n] == r.slots[..n];
    assert r.slots == r.slots[..n] + r.slots[n..];
    ObjectsOfNulls(r.slots[n..]);
    ObjectsOfNulls(s'[n + 1..]);
    ObjectsAppend(r.slots[..n], r.slots[n..]);
    ObjectsAppend(s'[..n], s'[n + 1..]);
  }

  /** The defect: removing an object from a full registry leaves the cursor
      one past the end, and the next `Add` of a new object writes out of
      range. */
  lemma RemoveFromFullThenAddIsOutOfRange<G>(r: Registry<G>, g: G, h: G)
    requires Valid(r) && r.nextFree == |r.slots|
    requires Some(g) in r.slots && Some(h) !in r.slots
    ensures Add(Remove(r, Some(g)), Some(h)).OutOfRange?
  {
    var r1 := Remove(r, Some(g));
    assert multiset(r1.slots) + multiset{Some(g)} == multiset(r.slots);
    assert Some(h) !in multiset(r1.slots);
  }

  /** A concrete instance: ten objects, remove the first, add an eleventh;
      the store targets index 10 of a 9-slot vector. */
  lemma FullRegistryCounterexample()
    ensures
      var full := Registry(seq(10, i => Some(i)), 10);
      Add(Remove(full, Some(0)), Some(42)) == OutOfRange(10, 9)
  {
    var full: Registry<int> := Registry(seq(10, i => Some(i)), 10);
    assert full.slots[0] == Some(0);
    var r1 := Remove(full, Some(0));
    assert r1.slots == full.slots[1..];
    assert Some(42) !in r1.slots;
  }

  /** Corrected removal: the cursor moves down with the slots that follow the
      erased one, so the invariant is kept. */
  function RemoveFixed<G(==)>(r: Registry<G>, g: Option<G>): (r': Registry<G>)
    requires Valid(r)
    ensures Valid(r')
    ensures r'.slots == Remove(r, g).slots
    ensures Objects(r'.slots) == Objects(Remove(r, g).slots)
  {
    if g !in r.slots then r
    else
      var i := FirstIndex(r.slots, g);
      var s' := r.slots[..i] + r.slots[i + 1..];
      if i < r.nextFree then Registry(s', r.nextFree - 1)
      else Registry(s', r.nextFree)
  }

  /** With the corrected removal, no interleaving of adds and removes ever
      makes `Add` write out of range. */
  lemma FixedRemoveThenAddStored<G>(r: Registry<G>, g: Option<G>, h: Option<G>)
    requires Valid(r)
    ensures Add(RemoveFixed(r, g), h).Stored?
  {
    AddKeepsValid(RemoveFixed(r, g), h);
  }
}

=== FILE: scene_render.dfy ===
/** The per-frame decisions of `Scene::Render`, `RenderWithCamera` and
    `RenderShadowsWithCamera`: which objects are cameras of which kind, the
    order screen cameras render in, the six cube-face passes, the shadow
    casters and lazily created shadow camera, the clear bits each pass
    asks for, and which objects each pass draws. Frustum, matrix and
    drawing calls are not modelled; a pass is described by what it
    selects. */
module SceneRender {
  import opened Common
  import opened SceneModel
  import GfxDevice

  // ---- Camera partition

  predicate HasCameraAndTransform(o: GameObject) {
    o.camera.Some? && o.transform.Some?
  }

  predicate IsRenderTargetCamera(o: GameObject) {
    HasCameraAndTransform(o) && o.camera.value.target.Some?
  }

  predicate IsScreenCamera(o: GameObject) {
    HasCameraAndTransform(o) && o.camera.value.target.None?
  }

  /** The partition loop of `Scene::Render`: one pass over the slots,
      skipping nulls, pushing render-texture cameras and screen cameras
      onto separate lists. */
  method PartitionCameras(objs: Slots) returns (rtCameras: seq<GameObject>, cameras: seq<GameObject>)
    ensures rtCameras == Select(objs, IsRenderTargetCamera)
    ensures cameras == Select(objs, IsScreenCamera)
    ensures forall o :: o in rtCameras <==> Some(o) in objs && HasCameraAndTransform(o) && o.camera.value.target.Some?
    ensures forall o :: o in cameras <==> Some(o) in objs && HasCameraAndTransform(o) && o.camera.value.target.None?
  {
    rtCameras := [];
    cameras := [];
    var i := 0;
    while i < |objs|
      invariant 0 <= i <= |objs|
      invariant rtCameras == Select(objs[..i], IsRenderTargetCamera)
      invariant cameras == Select(objs[..i], IsScreenCamera)
      decreases |objs| - i
    {
      assert objs[..i + 1][..i] == objs[..i];
      if objs[i].Some? {
        var o := objs[i].value;
        if o.camera.Some? && o.camera.value.target.Some? && o.transform.Some? {
          rtCameras := rtCameras + [o];
        }
        if o.camera.Some? && o.camera.value.target.None? && o.transform.Some? {
          cameras := cameras + [o];
        }
      }
      i := i + 1;
    }
    assert objs[..i] == objs;
  }

  /** Every object with a camera and a transform lands in exactly one of the
      two lists (counting duplicates); objects lacking either land in
      neither. */
  lemma {:induction false} PartitionIsExact(objs: Slots)
    ensures multiset(Select(objs, IsRenderTargetCamera)) + multiset(Select(objs, IsScreenCamera))
         == multiset(Select(objs, HasCameraAndTransform))
  {
    if |objs| > 0 {
      PartitionIsExact(objs[..|objs| - 1]);
    }
  }

  // ---- Screen camera order

  function RenderOrder(o: GameObject): int {
    if o.camera.Some? then o.camera.value.renderOrder else 0
  }

  ghost predicate SortedByRenderOrder(s: seq<GameObject>) {
    forall i, j :: 0 <= i < j < |s| ==> RenderOrder(s[i]) <= RenderOrder(s[j])
  }

  function InsertByRenderOrder(o: GameObject, s: seq<GameObject>): (r: seq<GameObject>)
    requires SortedByRenderOrder(s)
    ensures SortedByRenderOrder(r)
    ensures multiset(r) == multiset(s) + multiset{o}
    ensures |r| == |s| + 1
  {
    if |s| == 0 || RenderOrder(o) <= RenderOrder(s[0]) then [o] + s
    else
      var rest := InsertByRenderOrder(o, s[1..]);
      InsertBehindHead(o, s, rest);
      [s[0]] + rest
  }

  lemma InsertBehindHead(o: GameObject, s: seq<GameObject>, rest: seq<GameObject>)
    requires |s| > 0 && RenderOrder(s[0]) < RenderOrder(o)
    requires SortedByRenderOrder(s) && SortedByRenderOrder(rest)
    requires multiset(rest) == multiset(s[1..]) + multiset{o}
    ensures SortedByRenderOrder([s[0]] + rest)
    ensures multiset([s[0]] + rest) == multiset(s) + multiset{o}
  {
    assert s == [s[0]] + s[1..];
    forall k | 0 <= k < |rest|
      ensures RenderOrder(s[0]) <= RenderOrder(rest[k])
    {
      assert rest[k] in multiset(rest);
      if rest[k] != o {
        assert rest[k] in multiset(s[1..]);
        var j :| 0 <= j < |s[1..]| && s[1..][j] == rest[k];
        assert s[j + 1] == rest[k];
      }
    }
    var r := [s[0]] + rest;
    forall i, j | 0 <= i < j < |r|
      ensures RenderOrder(r[i]) <= RenderOrder(r[j])
    {
      if i > 0 {
        assert r[i] == rest[i - 1] && r[j] == rest[j - 1];
      } else {
        assert r[j] == rest[j - 1];
      }
    }
  }

  /** The camera sort: a permutation of the screen cameras, ascending by
      render order. The source's `std::sort` fixes no order among equal
      render orders, so nothing is claimed about ties. */
  function SortByRenderOrder(s: seq<GameObject>): (r: seq<GameObject>)
    ensures SortedByRenderOrder(r)
    ensures multiset(r) == multiset(s)
    ensures |r| == |s|
  {
    if |s| == 0 then []
    else
      assert s == [s[0]] + s[1..];
      InsertByRenderOrder(s[0], SortByRenderOrder(s[1..]))
  }

  // ---- Render-texture cameras and cube faces

  /** Direction and up vector a cube face is rendered with. */
  datatype Aim = Aim(direction: Vec3, up: Vec3)

  /** Distance along each face axis the look target is placed at. */
  const CubeFaceScale: real := 2000.0

  /** Faces +X, -X, +Y, -Y, +Z, -Z in order. */
  const CubeFaceAims: seq<Aim> := [
    Aim(Vec3( CubeFaceScale, 0.0, 0.0), Vec3(0.0, -1.0,  0.0)),
    Aim(Vec3(-CubeFaceScale, 0.0, 0.0), Vec3(0.0, -1.0,  0.0)),
    Aim(Vec3(0.0,  CubeFaceScale, 0.0), Vec3(0.0,  0.0,  1.0)),
    Aim(Vec3(0.0, -CubeFaceScale, 0.0), Vec3(0.0,  0.0, -1.0)),
    Aim(Vec3(0.0, 0.0,  CubeFaceScale), Vec3(0.0, -1.0,  0.0)),
    Aim(Vec3(0.0, 0.0, -CubeFaceScale), Vec3(0.0, -1.0,  0.0))
  ]

  lemma CubeFaceAimsDistinct()
    ensures |CubeFaceAims| == 6
    ensures forall i, j :: 0 <= i < j < 6 ==> CubeFaceAims[i] != CubeFaceAims[j]
  {
  }

  /** One scheduled pass: a colour pass of a camera into a face (re-aimed
      first for cube faces), or a shadow pass of a light seen from a screen
      camera. */
  datatype Pass =
    | ColorPass(camera: GameObject, face: nat, aim: Option<Aim>)
    | ShadowPass(screenCamera: GameObject, light: GameObject, kind: LightKind, shadowMap: nat)

  datatype LightKind = Directional | Spot

  predicate HasCubeTarget(o: GameObject) {
    o.camera.Some? && o.camera.value.target.Some? && o.camera.value.target.value.isCube
  }

  function CubePasses(cam: GameObject, face: nat): (r: seq<Pass>)
    requires face <= 6
    ensures |r| == 6 - face
    ensures forall k :: 0 <= k < |r| ==> r[k] == ColorPass(cam, face + k, Some(CubeFaceAims[face + k]))
    decreases 6 - face
  {
    if face == 6 then [] else [ColorPass(cam, face, Some(CubeFaceAims[face]))] + CubePasses(cam, face + 1)
  }

  /** Passes of one render-texture camera: six re-aimed passes, faces 0..5 in
      order, for a cube target; one un-aimed pass into face 0 otherwise. */
  function RenderTargetCameraPasses(cam: GameObject): (r: seq<Pass>)
    ensures HasCubeTarget(cam) ==>
      |r| == 6 && forall f :: 0 <= f < 6 ==> r[f] == ColorPass(cam, f, Some(CubeFaceAims[f]))
    ensures !HasCubeTarget(cam) ==> r == [ColorPass(cam, 0, None)]
  {
    if HasCubeTarget(cam) then CubePasses(cam, 0) else [ColorPass(cam, 0, None)]
  }

  /** The render-texture stage: each camera's passes in turn. */
  function RenderTargetPasses(rtCameras: seq<GameObject>): (r: seq<Pass>)
    ensures forall k :: 0 <= k < |r| ==> r[k].ColorPass? && r[k].camera in rtCameras
  {
    if |rtCameras| == 0 then []
    else RenderTargetCameraPasses(rtCameras[0]) + RenderTargetPasses(rtCameras[1..])
  }

  function CubeCount(cams: seq<GameObject>): nat {
    if |cams| == 0 then 0 else (if HasCubeTarget(cams[0]) then 1 else 0) + CubeCount(cams[1..])
  }

  /** Pass count of the render-texture stage: six per cube camera, one per
      2D camera. */
  lemma {:induction false} RenderTargetPassCount(cams: seq<GameObject>)
    ensures |RenderTargetPasses(cams)| == |cams| + 5 * CubeCount(cams)
  {
    if |cams| > 0 {
      RenderTargetPassCount(cams[1..]);
    }
  }

  // ---- Shadow casters

  /** The caster test of the shadow loop: a transform and a shadow-casting
      directional or spot light. */
  predicate IsShadowCaster(o: GameObject) {
    o.transform.Some?
    && ((o.dirLight.Some? && o.dirLight.value.castsShadow) || (o.spotLight.Some? && o.spotLight.value.castsShadow))
  }

  /** The branch taken for a caster: the directional one whenever a
      directional light is present, shadow-casting or not. */
  function CasterPass(screenCamera: GameObject, light: GameObject): (p: Pass)
    requires IsShadowCaster(light)
    ensures p.ShadowPass? && p.screenCamera == screenCamera && p.light == light
    ensures light.dirLight.Some? ==> p.kind == Directional && p.shadowMap == light.dirLight.value.shadowMap
    ensures light.dirLight.None? ==> p.kind == Spot && p.shadowMap == light.spotLight.value.shadowMap
  {
    if light.dirLight.Some? then ShadowPass(screenCamera, light, Directional, light.dirLight.value.shadowMap)
    else ShadowPass(screenCamera, light, Spot, light.spotLight.value.shadowMap)
  }

  /** An object whose directional light does not cast shadows but whose spot
      light does is still rendered through the directional branch, into the
      directional light's shadow map. */
  lemma CasterBranchQuirk(cam: GameObject, o: GameObject)
    requires o.transform.Some? && o.dirLight.Some? && !o.dirLight.value.castsShadow
    requires o.spotLight.Some? && o.spotLight.value.castsShadow
    ensures IsShadowCaster(o)
    ensures CasterPass(cam, o).kind == Directional
    ensures CasterPass(cam, o).shadowMap == o.dirLight.value.shadowMap
  {
  }

  function CasterPasses(screenCamera: GameObject, casters: seq<GameObject>): (r: seq<Pass>)
    requires forall c :: c in casters ==> IsShadowCaster(c)
    ensures |r| == |casters|
    ensures forall j :: 0 <= j < |r| ==> r[j] == CasterPass(screenCamera, casters[j])
  {
    if |casters| == 0 then [] else [CasterPass(screenCamera, casters[0])] + CasterPasses(screenCamera, casters[1..])
  }

  /** One screen camera: a shadow pass per caster, in slot order, then its
      own colour pass into face 0. */
  function ScreenCameraPasses(cam: GameObject, casters: seq<GameObject>): seq<Pass>
    requires forall c :: c in casters ==> IsShadowCaster(c)
  {
    CasterPasses(cam, casters) + [ColorPass(cam, 0, None)]
  }

  /** The blocks `f(x)` of the elements `x` of `xs`, one after another. */
  function FlatMap<A, B>(xs: seq<A>, f: A -> seq<B>): seq<B> {
    if |xs| == 0 then [] else f(xs[0]) + FlatMap(xs[1..], f)
  }

  /** The screen stage: each screen camera's block in turn. */
  function ScreenPasses(cams: seq<GameObject>, casters: seq<GameObject>): (r: seq<Pass>)
    requires forall c :: c in casters ==> IsShadowCaster(c)
    ensures |r| == |cams| * (|casters| + 1)
  {
    FlatMapLength(cams, cam => ScreenCameraPasses(cam, casters), |casters| + 1);
    BlockStartIsProduct(|cams|, |casters| + 1);
    FlatMap(cams, cam => ScreenCameraPasses(cam, casters))
  }

  /** Start of block `k` when every block holds `c` elements. */
  function BlockStart(k: nat, c: nat): nat {
    if k == 0 then 0 else BlockStart(k - 1, c) + c
  }

  lemma {:induction false} BlockStartIsProduct(k: nat, c: nat)
    ensures BlockStart(k, c) == k * c
  {
    if k > 0 {
      BlockStartIsProduct(k - 1, c);
      assert k * c == (k - 1) * c + c;
    }
  }

  lemma {:induction false} FlatMapLength<A, B>(xs: seq<A>, f: A -> seq<B>, c: nat)
    requires forall i :: 0 <= i < |xs| ==> |f(xs[i])| == c
    ensures |FlatMap(xs, f)| == BlockStart(|xs|, c)
  {
    if |xs| > 0 {
      FlatMapLength(xs[1..], f, c);
      assert |FlatMap(xs, f)| == c + BlockStart(|xs| - 1, c);
    }
  }

  lemma SliceAfter<T>(head: seq<T>, tail: seq<T>, i: nat, j: nat)
    requires |head| <= i <= j <= |head| + |tail|
    ensures (head + tail)[i..j] == tail[i - |head|..j - |head|]
  {
  }

  /** With blocks of equal size `c`, block `k` of the flattening is
      `f(xs[k])`. */
  lemma {:induction false} FlatMapBlock<A, B>(xs: seq<A>, f: A -> seq<B>, c: nat, k: nat)
    requires forall i :: 0 <= i < |xs| ==> |f(xs[i])| == c
    requires k < |xs|
    ensures BlockStart(k + 1, c) <= |FlatMap(xs, f)|
    ensures FlatMap(xs, f)[BlockStart(k, c)..BlockStart(k + 1, c)] == f(xs[k])
  {
    var head := f(xs[0]);
    var tail := FlatMap(xs[1..], f);
    assert FlatMap(xs, f) == head + tail;
    FlatMapLength(xs[1..], f, c);
    if k == 0 {
      assert (head + tail)[0..c] == head;
    } else {
      var p := BlockStart(k - 1, c);
      assert BlockStart(k, c) == c + p && BlockStart(k + 1, c) == c + p + c;
      assert p + c <= |tail| && tail[p..p + c] == f(xs[k]) by {
        FlatMapBlock(xs[1..], f, c, k - 1);
        assert xs[k] == xs[1..][k - 1];
      }
      SliceAfter(head, tail, c + p, c + p + c);
    }
  }

  /** Camera `k`'s block of the screen stage is exactly its own passes. */
  lemma ScreenPassBlock(cams: seq<GameObject>, casters: seq<GameObject>, k: nat)
    requires forall c :: c in casters ==> IsShadowCaster(c)
    requires k < |cams|
    ensures BlockStart(k + 1, |casters| + 1) <= |ScreenPasses(cams, casters)|
    ensures ScreenPasses(cams, casters)[BlockStart(k, |casters| + 1)..BlockStart(k + 1, |casters| + 1)]
         == ScreenCameraPasses(cams[k], casters)
  {
    FlatMapBlock(cams, cam => ScreenCameraPasses(cam, casters), |casters| + 1, k);
  }

  /** Camera `k` of `cams` owns the block of `|casters| + 1` passes
      starting at `k * (|casters| + 1)`: a shadow pass per caster, in
      order, then its colour pass. */
  predicate OwnsBlock(passes: seq<Pass>, cams: seq<GameObject>, casters: seq<GameObject>, k: nat)
    requires forall c :: c in casters ==> IsShadowCaster(c)
    requires k < |cams|
  {
    && BlockStart(k + 1, |casters| + 1) <= |passes|
    && passes[BlockStart(k, |casters| + 1)..BlockStart(k + 1, |casters| + 1)]
       == CasterPasses(cams[k], casters) + [ColorPass(cams[k], 0, None)]
  }

  /** Layout of the screen stage: camera after camera in the given order,
      each owning its own block. */
  lemma {:induction false} ScreenPassesLayout(cams: seq<GameObject>, casters: seq<GameObject>)
    requires forall c :: c in casters ==> IsShadowCaster(c)
    ensures |ScreenPasses(cams, casters)| == |cams| * (|casters| + 1)
    ensures forall k: nat :: k < |cams| ==> OwnsBlock(ScreenPasses(cams, casters), cams, casters, k)
  {
    FlatMapLength(cams, cam => ScreenCameraPasses(cam, casters), |casters| + 1);
    BlockStartIsProduct(|cams|, |casters| + 1);
    forall k: nat | k < |cams|
      ensures OwnsBlock(ScreenPasses(cams, casters), cams, casters, k)
    {
      ScreenPassBlock(cams, casters, k);
    }
  }

  /** The whole per-frame schedule: render-texture cameras in slot order,
      then the screen cameras sorted by render order, each with its shadow
      passes first. */
  function FrameSchedule(objs: Slots): (r: seq<Pass>)
    ensures |r| == |Select(objs, IsRenderTargetCamera)| + 5 * CubeCount(Select(objs, IsRenderTargetCamera))
      + |Select(objs, IsScreenCamera)| * (|Select(objs, IsShadowCaster)| + 1)
  {
    RenderTargetPassCount(Select(objs, IsRenderTargetCamera));
    var casters := Select(objs, IsShadowCaster);
    RenderTargetPasses(Select(objs, IsRenderTargetCamera))
      + ScreenPasses(SortByRenderOrder(Select(objs, IsScreenCamera)), casters)
  }

  /** Number of shadow passes in a schedule: each one is a shadow-camera
      set-up. */
  function ShadowPassCount(passes: seq<Pass>): nat {
    if |passes| == 0 then 0
    else (if passes[0].ShadowPass? then 1 else 0) + ShadowPassCount(passes[1..])
  }

  lemma {:induction false} ShadowPassCountAppend(a: seq<Pass>, b: seq<Pass>)
    ensures ShadowPassCount(a + b) == ShadowPassCount(a) + ShadowPassCount(b)
  {
    if |a| == 0 {
      assert a + b == b;
    } else {
      assert (a + b)[0] == a[0];
      assert (a + b)[1..] == a[1..] + b;
      ShadowPassCountAppend(a[1..], b);
    }
  }

  lemma {:induction false} ShadowPassCountUniform(passes: seq<Pass>, shadow: bool)
    requires forall k :: 0 <= k < |passes| ==> passes[k].ShadowPass? == shadow
    ensures ShadowPassCount(passes) == if shadow then |passes| else 0
  {
    if |passes| > 0 {
      ShadowPassCountUniform(passes[1..], shadow);
    }
  }

  lemma {:induction false} RenderTargetPassesNoShadow(cams: seq<GameObject>)
    ensures ShadowPassCount(RenderTargetPasses(cams)) == 0
  {
    if |cams| > 0 {
      ShadowPassCountUniform(RenderTargetCameraPasses(cams[0]), false);
      RenderTargetPassesNoShadow(cams[1..]);
      ShadowPassCountAppend(RenderTargetCameraPasses(cams[0]), RenderTargetPasses(cams[1..]));
    }
  }

  lemma {:induction false} FlatMapShadowCount<A>(xs: seq<A>, f: A -> seq<Pass>, c: nat)
    requires forall i :: 0 <= i < |xs| ==> ShadowPassCount(f(xs[i])) == c
    ensures ShadowPassCount(FlatMap(xs, f)) == |xs| * c
  {
    if |xs| > 0 {
      FlatMapShadowCount(xs[1..], f, c);
      ShadowPassCountAppend(f(xs[0]), FlatMap(xs[1..], f));
    }
  }

  lemma ScreenPassesShadowCount(cams: seq<GameObject>, casters: seq<GameObject>)
    requires forall c :: c in casters ==> IsShadowCaster(c)
    ensures ShadowPassCount(ScreenPasses(cams, casters)) == |cams| * |casters|
  {
    var f := cam => ScreenCameraPasses(cam, casters);
    forall i | 0 <= i < |cams|
      ensures ShadowPassCount(f(cams[i])) == |casters|
    {
      ShadowPassCountUniform(CasterPasses(cams[i], casters), true);
      ShadowPassCountUniform([ColorPass(cams[i], 0, None)], false);
      ShadowPassCountAppend(CasterPasses(cams[i], casters), [ColorPass(cams[i], 0, None)]);
    }
    FlatMapShadowCount(cams, f, |casters|);
  }

  /** Layout of a whole frame: the render-texture stage first, then every
      sorted screen camera owning its block right after it; the frame
      holds one shadow set-up per screen camera and caster. */
  lemma FrameScheduleLayout(objs: Slots)
    ensures
      var rt := Select(objs, IsRenderTargetCamera);
      var screen := SortByRenderOrder(Select(objs, IsScreenCamera));
      var casters := Select(objs, IsShadowCaster);
      var head := |RenderTargetPasses(rt)|;
      && |FrameSchedule(objs)| == |rt| + 5 * CubeCount(rt) + |screen| * (|casters| + 1)
      && FrameSchedule(objs)[..head] == RenderTargetPasses(rt)
      && (forall k: nat :: k < |screen| ==> OwnsBlock(FrameSchedule(objs)[head..], screen, casters, k))
      && ShadowPassCount(FrameSchedule(objs)) == |screen| * |casters|
  {
    var rt := Select(objs, IsRenderTargetCamera);
    var screen := SortByRenderOrder(Select(objs, IsScreenCamera));
    var casters := Select(objs, IsShadowCaster);
    var head := RenderTargetPasses(rt);
    var tail := ScreenPasses(screen, casters);
    assert FrameSchedule(objs) == head + tail;
    assert (head + tail)[..|head|] == head;
    assert (head + tail)[|head|..] == tail;
    RenderTargetPassCount(rt);
    ScreenPassesLayout(screen, casters);
    FrameShadowPassCount(objs);
  }

  lemma FrameShadowPassCount(objs: Slots)
    ensures ShadowPassCount(FrameSchedule(objs)) == |Select(objs, IsScreenCamera)| * |Select(objs, IsShadowCaster)|
  {
    var rt := Select(objs, IsRenderTargetCamera);
    var screen := SortByRenderOrder(Select(objs, IsScreenCamera));
    var casters := Select(objs, IsShadowCaster);
    RenderTargetPassesNoShadow(rt);
    ScreenPassesShadowCount(screen, casters);
    ShadowPassCountAppend(RenderTargetPasses(rt), ScreenPasses(screen, casters));
  }

  /** The shadow camera is created on the first shadow set-up and reused:
      `created` is the flag before the frame, `setups` the number of
      set-ups the frame performs; the result is the flag after and the
      number of creations. */
  function ShadowCameraCreations(created: bool, setups: nat): (r: (bool, nat))
    ensures created ==> r.1 == 0
    ensures r.1 <= 1
    ensures r.0 == (created || setups > 0)
    decreases setups
  {
    if setups == 0 then (created, 0)
    else
      var (after, n) := ShadowCameraCreations(true, setups - 1);
      (after, n + (if created then 0 else 1))
  }

  /** The shadow camera is created at most once: exactly once when it did
      not exist and some shadow set-up happens, never otherwise. */
  lemma {:induction false} ShadowCameraCreatedOnce(created: bool, setups: nat)
    ensures ShadowCameraCreations(created, setups).1 == (if !created && setups > 0 then 1 else 0)
    ensures ShadowCameraCreations(created, setups).0 == (created || setups > 0)
    decreases setups
  {
    if setups > 0 {
      ShadowCameraCreatedOnce(true, setups - 1);
    }
  }

  lemma ProductPositive(a: nat, b: nat)
    ensures a * b > 0 <==> a > 0 && b > 0
  {
    if a > 0 && b > 0 {
      assert a * b >= b;
    }
  }

  /** Over a whole frame: the shadow camera is created exactly when it did
      not exist yet and the frame has a screen camera and a shadow caster. */
  lemma FrameShadowCameraCreations(created: bool, objs: Slots)
    ensures
      var screen := Select(objs, IsScreenCamera);
      var casters := Select(objs, IsShadowCaster);
      var setups := |screen| > 0 && |casters| > 0;
      ShadowCameraCreations(created, ShadowPassCount(FrameSchedule(objs)))
        == (created || setups, if !created && setups then 1 else 0)
  {
    var screen := Select(objs, IsScreenCamera);
    var casters := Select(objs, IsShadowCaster);
    FrameShadowPassCount(objs);
    var n := ShadowPassCount(FrameSchedule(objs));
    ProductPositive(|screen|, |casters|);
    ShadowCameraCreatedOnce(created, n);
  }

  // ---- Clear flags

  /** Colour-pass clear in `RenderWithCamera`: the bits handed to
      `ClearScreen`, or the assertion for an unhandled flag. */
  function MainClearBits(flag: ClearFlag): (r: Checked<bv32>)
    ensures flag.OtherClearFlag? <==> r.AssertFailed?
    ensures r.Ok? ==> (r.value & GfxDevice.ColorBit != 0 <==> flag == DepthAndColor)
    ensures r.Ok? ==> (r.value & GfxDevice.DepthBit != 0 <==> flag == DepthAndColor || flag == Depth)
    ensures r.Ok? ==> (r.value == GfxDevice.DontClear <==> flag == DontClearFlag)
  {
    match flag
    case DepthAndColor => Ok(GfxDevice.ColorBit | GfxDevice.DepthBit)
    case Depth => Ok(GfxDevice.DepthBit)
    case DontClearFlag => Ok(GfxDevice.DontClear)
    case OtherClearFlag(_) => AssertFailed("Unhandled clear flag.")
  }

  /** Shadow-pass clear in `RenderShadowsWithCamera`: `ClearScreen` is
      called, with colour and depth, only for `DepthAndColor`. */
  function ShadowClearBits(flag: ClearFlag): (r: Option<bv32>)
    ensures r.Some? <==> flag == DepthAndColor
    ensures r.Some? ==> r.value & GfxDevice.ColorBit != 0 && r.value & GfxDevice.DepthBit != 0
  {
    if flag == DepthAndColor then Some(GfxDevice.ColorBit | GfxDevice.DepthBit) else None
  }

  /** A camera that does not clear makes the device issue neither a colour
      nor a depth clear; a depth-only camera issues a depth clear and no
      colour clear. */
  lemma ClearFlagReachesDevice(d: GfxDevice.Device, flag: ClearFlag)
    requires GfxDevice.ClearTargetsValid(d) && !flag.OtherClearFlag?
    ensures
      var cmds := GfxDevice.ClearScreen(d, MainClearBits(flag).value).1;
      && ((exists i :: 0 <= i < |cmds| && GfxDevice.IsColorClear(cmds[i])) <==> flag == DepthAndColor)
      && ((exists i :: 0 <= i < |cmds| && GfxDevice.IsDepthClear(cmds[i])) <==> flag == DepthAndColor || flag == Depth)
  {
  }

  // ---- Draw lists

  /** Screen-space draw issued for an object in the colour pass. */
  datatype ScreenDraw = SpriteDraw(index: nat) | TextDraw(index: nat)

  predicate InLayer(o: GameObject, mask: bv32) {
    o.layer & mask != 0
  }

  predicate VisibleMesh(mask: bv32, o: GameObject) {
    o.meshRenderer.Some? && InLayer(o, mask)
  }

  predicate ShadowMesh(o: GameObject) {
    o.meshRenderer.Some?
  }

  /** Objects the colour and depth-normals passes draw meshes for. */
  function VisibleMeshes(objs: Slots, mask: bv32): (r: seq<nat>)
    ensures forall i :: i in r <==>
      0 <= i < |objs| && objs[i].Some? && objs[i].value.meshRenderer.Some? && InLayer(objs[i].value, mask)
  {
    Indices(objs, o => VisibleMesh(mask, o))
  }

  /** Objects the shadow pass draws: every mesh renderer, whatever the
      viewing camera's layer mask. */
  function ShadowMeshes(objs: Slots): (r: seq<nat>)
    ensures forall i :: i in r <==> 0 <= i < |objs| && objs[i].Some? && objs[i].value.meshRenderer.Some?
  {
    Indices(objs, ShadowMesh)
  }

  /** Sprites then text of each in-layer object, in slot order. */
  function ScreenSpaceDraws(objs: Slots, mask: bv32): (r: seq<ScreenDraw>)
    ensures forall i: nat :: SpriteDraw(i) in r <==>
      0 <= i < |objs| && objs[i].Some? && objs[i].value.spriteRenderer && InLayer(objs[i].value, mask)
    ensures forall i: nat :: TextDraw(i) in r <==>
      0 <= i < |objs| && objs[i].Some? && objs[i].value.textRenderer && InLayer(objs[i].value, mask)
  {
    if |objs| == 0 then []
    else
      var n := |objs| - 1;
      var own := match objs[n]
        case None => []
        case Some(o) =>
          if !InLayer(o, mask) then []
          else (if o.spriteRenderer then [SpriteDraw(n)] else []) + (if o.textRenderer then [TextDraw(n)] else []);
      ScreenSpaceDraws(objs[..n], mask) + own
  }

  datatype DepthNormalsPass = DepthNormalsPass(clearBits: bv32, meshes: seq<nat>)

  datatype ColorPassPlan = ColorPassPlan(
    target: Option<TargetTexture>,
    face: nat,
    clearBits: bv32,
    screenSpace: seq<ScreenDraw>,
    meshes: seq<nat>,
    depthNormals: Option<DepthNormalsPass>)

  /** `RenderWithCamera`: asserts on the face and the clear flag, then plans
      the clear, the screen-space draws and the mesh draws; a camera with a
      depth-normals texture repeats the mesh draws into it after a full
      clear. */
  function RenderWithCamera(objs: Slots, cam: Camera, face: int): (r: Checked<ColorPassPlan>)
    ensures !(0 <= face < 6) ==> r.AssertFailed?
    ensures 0 <= face < 6 ==> (r.AssertFailed? <==> cam.clearFlag.OtherClearFlag?)
    ensures r.Ok? ==>
      && r.value.face == face
      && r.value.clearBits == MainClearBits(cam.clearFlag).value
      && r.value.meshes == VisibleMeshes(objs, cam.layerMask)
      && (r.value.depthNormals.Some? <==> cam.hasDepthNormals)
      && (cam.hasDepthNormals ==>
            r.value.depthNormals.value == DepthNormalsPass(GfxDevice.ColorBit | GfxDevice.DepthBit, r.value.meshes))
  {
    if !(0 <= face < 6) then AssertFailed("invalid cube map face")
    else
      match MainClearBits(cam.clearFlag)
      case AssertFailed(why) => AssertFailed(why)
      case Ok(bits) =>
        var meshes := VisibleMeshes(objs, cam.layerMask);
        Ok(ColorPassPlan(cam.target, face, bits, ScreenSpaceDraws(objs, cam.layerMask), meshes,
          if cam.hasDepthNormals then Some(DepthNormalsPass(GfxDevice.ColorBit | GfxDevice.DepthBit, meshes)) else None))
  }

  datatype ShadowPassPlan = ShadowPassPlan(clearBits: Option<bv32>, meshes: seq<nat>)

  /** `RenderShadowsWithCamera`: no face or layer-mask test; every mesh
      renderer is drawn. */
  function RenderShadowsWithCamera(objs: Slots, shadowCam: Camera): (r: ShadowPassPlan)
    ensures r.clearBits.Some? <==> shadowCam.clearFlag == DepthAndColor
    ensures r.clearBits.Some? ==> r.clearBits.value & GfxDevice.ColorBit != 0 && r.clearBits.value & GfxDevice.DepthBit != 0
    ensures forall i :: i in r.meshes <==> 0 <= i < |objs| && objs[i].Some? && objs[i].value.meshRenderer.Some?
  {
    ShadowPassPlan(ShadowClearBits(shadowCam.clearFlag), ShadowMeshes(objs))
  }

  /** The layer-mask asymmetry: the colour and depth-normals passes draw a
      subset of what the shadow pass draws, and an object outside the
      camera's mask is still drawn into the shadow map. */
  lemma LayerMaskAsymmetry(objs: Slots, cam: Camera, shadowCam: Camera, face: int, i: nat)
    requires RenderWithCamera(objs, cam, face).Ok?
    ensures forall k :: k in RenderWithCamera(objs, cam, face).value.meshes ==> k in RenderShadowsWithCamera(objs, shadowCam).meshes
    ensures i < |objs| && objs[i].Some? && objs[i].value.meshRenderer.Some? && objs[i].value.layer & cam.layerMask == 0 ==>
      && i !in RenderWithCamera(objs, cam, face).value.meshes
      && i in RenderShadowsWithCamera(objs, shadowCam).meshes
  {
  }
}

=== FILE: scene_serialize.dfy ===
/** `Scene::GetSerialized`: the text the scene writes, described by what
    produced each piece. Each object contributes its own header followed by
    one piece per component it has, in a fixed order; the pieces' text
    comes from the components' own serializers. */
module SceneSerialize {
  import opened Common
  import opened SceneModel

  datatype ComponentKind =
    | MeshRendererPart | TransformPart | CameraPart | SpritePart | TextPart | AudioPart | DirLightPart | SpotLightPart

  /** Position of a component kind in the emission order. */
  function Rank(k: ComponentKind): nat {
    match k
    case MeshRendererPart => 0
    case TransformPart => 1
    case CameraPart => 2
    case SpritePart => 3
    case TextPart => 4
    case AudioPart => 5
    case DirLightPart => 6
    case SpotLightPart => 7
  }

  /** One piece of the output: an object's own serialization or one of its
      components'. */
  datatype Piece = Header(name: string) | Part(kind: ComponentKind)

  predicate HasComponent(o: GameObject, k: ComponentKind) {
    match k
    case MeshRendererPart => o.meshRenderer.Some?
    case TransformPart => o.transform.Some?
    case CameraPart => o.camera.Some?
    case SpritePart => o.spriteRenderer
    case TextPart => o.textRenderer
    case AudioPart => o.audioSource
    case DirLightPart => o.dirLight.Some?
    case SpotLightPart => o.spotLight.Some?
  }

  /** The emission order of `GetSerialized`. */
  const EmissionOrder: seq<ComponentKind> :=
    [MeshRendererPart, TransformPart, CameraPart, SpritePart, TextPart, AudioPart, DirLightPart, SpotLightPart]

  ghost predicate RankIncreasing(ks: seq<ComponentKind>) {
    forall i, j :: 0 <= i < j < |ks| ==> Rank(ks[i]) < Rank(ks[j])
  }

  lemma EmissionOrderComplete()
    ensures RankIncreasing(EmissionOrder)
    ensures forall k :: k in EmissionOrder
  {
    forall k
      ensures k in EmissionOrder
    {
      assert EmissionOrder[Rank(k)] == k;
    }
  }

  function Own(x: Option<GameObject>): seq<Piece> {
    if x.Some? then ObjectPieces(x.value) else []
  }

  /** What `PartsFrom(o, ks)` delivers: exactly the parts of the kinds in
      `ks` the object has, in increasing rank. */
  ghost predicate PartsOf(o: GameObject, ks: seq<ComponentKind>, r: seq<Piece>) {
    && (forall i :: 0 <= i < |r| ==> r[i].Part?)
    && (forall k :: Part(k) in r <==> k in ks && HasComponent(o, k))
    && (forall i, j :: 0 <= i < j < |r| ==> Rank(r[i].kind) < Rank(r[j].kind))
    && (forall i :: 0 <= i < |r| ==> r[i].kind in ks)
  }

  /** One piece per kind of `ks` the object has, in the order of `ks`. */
  function PartsFrom(o: GameObject, ks: seq<ComponentKind>): (r: seq<Piece>)
    requires RankIncreasing(ks)
    ensures forall i :: 0 <= i < |r| ==> r[i].Part?
    ensures forall k :: Part(k) in r <==> k in ks && HasComponent(o, k)
    ensures forall i, j :: 0 <= i < j < |r| ==> Rank(r[i].kind) < Rank(r[j].kind)
    ensures forall i :: 0 <= i < |r| ==> r[i].kind in ks
  {
    if |ks| == 0 then []
    else
      TailRankIncreasing(ks);
      var rest := PartsFrom(o, ks[1..]);
      var head := if HasComponent(o, ks[0]) then [Part(ks[0])] else [];
      PartsCons(o, ks, rest);
      head + rest
  }

  lemma TailRankIncreasing(ks: seq<ComponentKind>)
    requires |ks| > 0 && RankIncreasing(ks)
    ensures RankIncreasing(ks[1..])
  {
    forall i, j | 0 <= i < j < |ks[1..]|
      ensures Rank(ks[1..][i]) < Rank(ks[1..][j])
    {
      assert ks[1..][i] == ks[i + 1] && ks[1..][j] == ks[j + 1];
    }
  }

  lemma PartsCons(o: GameObject, ks: seq<ComponentKind>, rest: seq<Piece>)
    requires |ks| > 0 && RankIncreasing(ks)
    requires PartsOf(o, ks[1..], rest)
    ensures PartsOf(o, ks, (if HasComponent(o, ks[0]) then [Part(ks[0])] else []) + rest)
  {
    forall i | 0 <= i < |rest|
      ensures Rank(ks[0]) < Rank(rest[i].kind)
    {
      var j :| 0 <= j < |ks[1..]| && ks[1..][j] == rest[i].kind;
      assert ks[1..][j] == ks[j + 1];
    }
    assert ks == [ks[0]] + ks[1..];
  }

  /** The pieces of one object: its header, then a piece per component it
      has, exactly once each, in emission order. */
  function ObjectPieces(o: GameObject): (r: seq<Piece>)
    ensures |r| >= 1 && r[0] == Header(o.name)
    ensures forall i :: 1 <= i < |r| ==> r[i].Part?
    ensures forall k :: Part(k) in r <==> HasComponent(o, k)
    ensures forall i, j :: 1 <= i < j < |r| ==> Rank(r[i].kind) < Rank(r[j].kind)
  {
    EmissionOrderComplete();
    var parts := PartsFrom(o, EmissionOrder);
    HeaderThenParts(o, parts);
    [Header(o.name)] + parts
  }

  lemma HeaderThenParts(o: GameObject, parts: seq<Piece>)
    requires PartsOf(o, EmissionOrder, parts)
    ensures var r := [Header(o.name)] + parts;
      && (forall i :: 1 <= i < |r| ==> r[i].Part?)
      && (forall k :: Part(k) in r <==> HasComponent(o, k))
      && (forall i, j :: 1 <= i < j < |r| ==> Rank(r[i].kind) < Rank(r[j].kind))
  {
    EmissionOrderComplete();
    var r := [Header(o.name)] + parts;
    forall i | 1 <= i < |r|
      ensures r[i] == parts[i - 1]
    {
    }
    assert forall k :: Part(k) in r <==> Part(k) in parts;
  }

  /** `Scene::GetSerialized`: null slots are skipped. */
  function GetSerialized(objs: Slots): (r: seq<Piece>)
    ensures r == [] <==> forall i :: 0 <= i < |objs| ==> objs[i].None?
  {
    if |objs| == 0 then []
    else
      var n := |objs| - 1;
      GetSerialized(objs[..n]) + Own(objs[n])
  }

  lemma SerializedSnoc(objs: Slots, x: Option<GameObject>)
    ensures GetSerialized(objs + [x]) == GetSerialized(objs) + Own(x)
  {
    assert (objs + [x])[..|objs|] == objs;
  }

  /** Serializing a concatenation of slot vectors concatenates the outputs;
      in particular null slots and their position add nothing. */
  lemma {:induction false} SerializedAppend(a: Slots, b: Slots)
    ensures GetSerialized(a + b) == GetSerialized(a) + GetSerialized(b)
    decreases |b|
  {
    if |b| == 0 {
      assert a + b == a;
    } else {
      var n := |b| - 1;
      var c := b[..n];
      SplitLast(a, b);
      SerializedSnoc(a + c, b[n]);
      SerializedAppend(a, c);
      Associative(GetSerialized(a), GetSerialized(c), Own(b[n]));
    }
  }

  lemma SplitLast(a: Slots, b: Slots)
    requires |b| > 0
    ensures a + b == (a + b[..|b| - 1]) + [b[|b| - 1]]
  {
  }

  lemma Associative<T>(x: seq<T>, y: seq<T>, z: seq<T>)
    ensures (x + y) + z == x + (y + z)
  {
  }

  lemma {:induction false} NullsSerializeToNothing(objs: Slots)
    requires forall i :: 0 <= i < |objs| ==> objs[i].None?
    ensures GetSerialized(objs) == []
  {
    if |objs| > 0 {
      NullsSerializeToNothing(objs[..|objs| - 1]);
    }
  }

  /** One header per non-null slot, in slot order. */
  function Headers(pieces: seq<Piece>): seq<string> {
    if |pieces| == 0 then []
    else Headers(pieces[..|pieces| - 1]) + (if pieces[|pieces| - 1].Header? then [pieces[|pieces| - 1].name] else [])
  }

  lemma {:induction false} HeadersAppend(a: seq<Piece>, b: seq<Piece>)
    ensures Headers(a + b) == Headers(a) + Headers(b)
    decreases |b|
  {
    if |b| == 0 {
      assert a + b == a;
    } else {
      var n := |b| - 1;
      assert (a + b)[..|a| + n] == a + b[..n];
      assert (a + b)[|a| + n] == b[n];
      HeadersAppend(a, b[..n]);
    }
  }

  lemma {:induction false} ObjectHeaders(o: GameObject)
    ensures Headers(ObjectPieces(o)) == [o.name]
  {
    var r := ObjectPieces(o);
    var tail := r[1..];
    assert r == [r[0]] + tail;
    HeadersAppend([r[0]], tail);
    assert Headers([r[0]]) == [o.name] by {
      assert [r[0]][..0] == [];
    }
    NoHeaders(tail);
  }

  lemma {:induction false} NoHeaders(s: seq<Piece>)
    requires forall i :: 0 <= i < |s| ==> s[i].Part?
    ensures Headers(s) == []
  {
    if |s| > 0 {
      NoHeaders(s[..|s| - 1]);
    }
  }

  function Names(objs: Slots): seq<string> {
    if |objs| == 0 then []
    else Names(objs[..|objs| - 1]) + (if objs[|objs| - 1].Some? then [objs[|objs| - 1].value.name] else [])
  }

  /** The object headers in the output are the non-null objects' names in
      slot order: one object block per non-null slot. */
  lemma {:induction false} SerializedHeaders(objs: Slots)
    ensures Headers(GetSerialized(objs)) == Names(objs)
  {
    if |objs| > 0 {
      var n := |objs| - 1;
      SerializedHeaders(objs[..n]);
      HeadersAppend(GetSerialized(objs[..n]), Own(objs[n]));
      if objs[n].Some? {
        ObjectHeaders(objs[n].value);
      }
    }
  }
}

=== FILE: window_events.dfy ===
/** The Win32 window's event stack: `WindowProc` pushes key-down and close
    events onto a fixed array of ten, `Window::PollEvent` pops them most
    recent first. Window, class and renderer creation are Win32 calls and
    are not modelled, except for the choice of window size. */
module WindowEvents {
  import opened Common

  const EventStackSize: nat := 10
  const TwoTo32: int := 0x1_0000_0000
  const TwoTo31: int := 0x8000_0000

  /** `Unset` is the zero-initialised value of an array slot never
      written. */
  datatype EventType = Unset | KeyDown | Close

  datatype WindowEvent = WindowEvent(kind: EventType, keyCode: int)

  datatype EventStack = EventStack(events: seq<WindowEvent>, eventIndex: int)

  ghost predicate Valid(s: EventStack) {
    |s.events| == EventStackSize && -1 <= s.eventIndex < EventStackSize
  }

  const InitialStack: EventStack := EventStack(seq(EventStackSize, _ => WindowEvent(Unset, 0)), -1)

  /** The messages `WindowProc` names; `Other` is any other message. */
  datatype Message =
    | ActivateApp | Size | SetCursor | Destroy | SysKeyUp | KeyUp
    | KeyDownMessage | SysKeyDownMessage
    | SysCommand | LButtonDown | RButtonDown | MButtonDown | MouseWheel | MouseMove
    | CloseMessage
    | Other(code: nat)

  predicate Pushes(m: Message) {
    m == KeyDownMessage || m == SysKeyDownMessage || m == CloseMessage
  }

  /** `static_cast< int >( wParam )`: the low 32 bits, read as a signed
      two's-complement value. */
  function ToInt32(w: nat): (r: int)
    ensures -TwoTo31 <= r < TwoTo31
    ensures (r - w) % TwoTo32 == 0
  {
    var low := w % TwoTo32;
    if low < TwoTo31 then low else low - TwoTo32
  }

  /** `WindowProc`. The source never checks the stack bound, so a pushing
      message is only valid while there is room. Key-down messages write a
      whole event; a close message writes only the type, leaving whatever
      key code the slot held. `WM_SYSCOMMAND` falls through into the
      mouse-button case and pushes nothing. */
  function WindowProc(s: EventStack, m: Message, wParam: nat): (r: EventStack)
    requires Valid(s)
    requires Pushes(m) ==> s.eventIndex + 1 < EventStackSize
    ensures Valid(r)
    ensures !Pushes(m) ==> r == s
    ensures Pushes(m) ==> r.eventIndex == s.eventIndex + 1
    ensures Pushes(m) ==> forall i :: 0 <= i < EventStackSize && i != r.eventIndex ==> r.events[i] == s.events[i]
    ensures (m == KeyDownMessage || m == SysKeyDownMessage) ==> r.events[r.eventIndex] == WindowEvent(KeyDown, ToInt32(wParam))
    ensures m == CloseMessage ==> r.events[r.eventIndex] == s.events[s.eventIndex + 1].(kind := Close)
  {
    if m == KeyDownMessage || m == SysKeyDownMessage then
      var i := s.eventIndex + 1;
      EventStack(s.events[i := WindowEvent(KeyDown, ToInt32(wParam))], i)
    else if m == CloseMessage then
      var i := s.eventIndex + 1;
      EventStack(s.events[i := s.events[i].(kind := Close)], i)
    else s
  }

  /** `Window::PollEvent`: `None` (the call returns false) on an empty
      stack, which it leaves alone; otherwise the top event, popped. */
  function PollEvent(s: EventStack): (r: (Option<WindowEvent>, EventStack))
    requires Valid(s)
    ensures Valid(r.1)
    ensures s.eventIndex == -1 <==> r.0.None?
    ensures s.eventIndex == -1 ==> r.1 == s
    ensures s.eventIndex >= 0 ==> r.0 == Some(s.events[s.eventIndex]) && r.1 == s.(eventIndex := s.eventIndex - 1)
  {
    if s.eventIndex == -1 then (None, s)
    else (Some(s.events[s.eventIndex]), s.(eventIndex := s.eventIndex - 1))
  }

  /** A key-down pushed and then polled comes back as polled, and the stack
      index returns to where it was. */
  lemma PushThenPoll(s: EventStack, m: Message, wParam: nat)
    requires Valid(s) && (m == KeyDownMessage || m == SysKeyDownMessage) && s.eventIndex + 1 < EventStackSize
    ensures PollEvent(WindowProc(s, m, wParam)).0 == Some(WindowEvent(KeyDown, ToInt32(wParam)))
    ensures PollEvent(WindowProc(s, m, wParam)).1.eventIndex == s.eventIndex
  {
  }

  /** Last in, first out: of two pushed key-downs the second is polled
      first, then the first. */
  lemma LastInFirstOut(s: EventStack, w1: nat, w2: nat)
    requires Valid(s) && s.eventIndex + 2 < EventStackSize
    ensures
      var s2 := WindowProc(WindowProc(s, KeyDownMessage, w1), KeyDownMessage, w2);
      var (e1, s3) := PollEvent(s2);
      var (e2, s4) := PollEvent(s3);
      e1 == Some(WindowEvent(KeyDown, ToInt32(w2))) && e2 == Some(WindowEvent(KeyDown, ToInt32(w1)))
      && s4.eventIndex == s.eventIndex
  {
    var s1 := WindowProc(s, KeyDownMessage, w1);
    var s2 := WindowProc(s1, KeyDownMessage, w2);
    assert s2.events[s1.eventIndex] == s1.events[s1.eventIndex];
  }

  /** A close event reuses the key code last written to its slot: after a
      key-down is pushed and polled, a close pushed into the same slot
      reports that key code. */
  lemma CloseKeepsStaleKeyCode(s: EventStack, wParam: nat)
    requires Valid(s) && s.eventIndex + 1 < EventStackSize
    ensures
      var s1 := PollEvent(WindowProc(s, KeyDownMessage, wParam)).1;
      PollEvent(WindowProc(s1, CloseMessage, 0)).0 == Some(WindowEvent(Close, ToInt32(wParam)))
  {
  }

  /** `Window::Create`: a zero width or height means the screen's. */
  function WindowSize(width: int, height: int, screenWidth: int, screenHeight: int): (r: (int, int))
    ensures r.0 == (if width == 0 then screenWidth else width)
    ensures r.1 == (if height == 0 then screenHeight else height)
  {
    (if width == 0 then screenWidth else width, if height == 0 then screenHeight else height)
  }

  /** With a non-zero screen, the chosen size is never zero. */
  lemma WindowSizeNonZero(width: int, height: int, screenWidth: int, screenHeight: int)
    requires screenWidth != 0 && screenHeight != 0
    ensures WindowSize(width, height, screenWidth, screenHeight).0 != 0
    ensures WindowSize(width, height, screenWidth, screenHeight).1 != 0
  {
  }
}
